=== FILE: README.md ===
# Cuentas Claras bookkeeping core in Dafny

This project models the core of *cuentas-claras*, a personal-finance HTTP API.
Its users keep accounts, categories, transactions, loans with payments, and
recurring expenses with reminders. They authenticate with short-lived access
tokens, and each access token is bound to one device session.

The model turns every handler into a pure function. The function takes a store
`Db` (one sequence per table, with ids 1, 2, 3, ... in insertion order and a
soft-delete mark on each row), the caller's user id, the request and the
current instant. It returns a `Response(db, result)`: the store after the
handler's writes, and either the handler's answer or its error. Handlers that
write more than once are modelled step by step, so writes made before a later
failure stay in the store.

The store refuses some writes:

- The insert and update triggers on transactions and recurring expenses are the
  predicates `Ledger.RowInvariant` and `Recurring.RowInvariant`.
- The unique email column of users and the unique refresh-token-id column of
  sessions are checked on insert.

Everything outside the program becomes a parameter:

- bcrypt is a `Hasher` whose one law is that a secret verifies against its own
  digest.
- JWT signing and parsing is a `Jwt` whose one law is that a token parses back
  to its claims while they are unexpired.
- The field cipher is a pair of functions that round-trip.
- The random source is the bytes it returned.
- The clock is the `now` argument.

## Modules

| file | contents |
|---|---|
| `common.dfy` | Options, results, error categories, JSON values, references |
| `calendar.dfy` | Civil UTC instants, the Gregorian day count, and Go's `time.Date` / `AddDate` overflow normalisation |
| `ledger.dfy` | The transaction row, the five trigger conditions, type-to-direction normalisation and sign re-derivation |
| `accounts.dfy` | Derived account balance |
| `catalog.dfy` | The create/update/list/delete rules that accounts and categories share, and per-owner name uniqueness |
| `loans.dfy` | Paid total, balance, status recomputation, save/load codec hooks |
| `recurring.dfy` | Due-date advance, overdue and due-today predicates |
| `reminders.dfy` | Reminder defaults, `ShouldBeSent`, `MarkAsSent` |
| `sessions.dfy` | Users and device sessions |
| `tokens.dfy` | Base16 token material (section 8 of RFC 4648), access-token claims, foreign primitives |
| `store.dfy` | The store, ownership lookups, refusable writes, the store invariant |
| `sorting.dfy` | `ORDER BY` as a stable insertion sort: rows with equal keys keep id order |
| `transaction_handlers.dfy` | Transaction endpoints |
| `catalog_handlers.dfy` | Account and category endpoints |
| `loan_handlers.dfy` | Loan and payment endpoints |
| `recurring_handlers.dfy` | Recurring-expense endpoints |
| `reminder_service.dfy` | Reminder regeneration, the daily sweep, the overdue check |
| `auth_handlers.dfy` | Register, login, refresh |
| `auth_middleware.dfy` | The authentication gate and its optional variant |
| `user_handlers.dfy` | Profile and logout |

## Behaviour taken from the code

In several places the code behaves in ways a caller may not expect. The model
follows the code:

- **Rejections can leave partial writes.** Several handlers write more than once:
  - login ends the user's sessions before generating tokens;
  - loan creation stores the loan before its transaction;
  - confirmation stores the transaction, then the payment, then the status;
  - execution stores the transaction, then the due date, then the reminders.

  A later failure keeps the earlier writes.
- **Authentication failures are not uniform.** The gate answers each failed
  check with its own message. A `user_id` claim that is not a number aborts the
  request (the `Panic` error) instead of rejecting it.
- **A payment request is checked against a balance that counts confirmed
  payments only.** Pending requests can together exceed the loan
  (`LoanHandlers.PendingRequestsCanOverpay`). Confirmation does not check the
  balance again, so a loan can end paid with a negative balance
  (`LoanHandlers.OverpaymentEndsPaid`).
- **`ShouldBeSent` and the daily sweep disagree at exactly the remind time.**
  The sweep's `remind_at <= now` selects a reminder there; `ShouldBeSent` does
  not (`Reminders.ShouldBeSentVersusSweep`).
- **Execution negates the amount as given**, not its magnitude. The triggers
  refuse a non-positive override.

## Model

| member | source | states |
|---|---|---|
| Ledger.AdmissibleCharacterisation | config/constraints.go:7-137 | The five transaction triggers, identical on insert and update, accept exactly two kinds of row: an incoming type with direction `in` and a positive amount, or an outgoing type with direction `out` and a negative amount |
| Ledger.TypeCheckSubsumesWhitelists | config/constraints.go:67-112 | The type/direction trigger already implies the type whitelist and the direction whitelist |
| Ledger.SignCheckSubsumesNonZero | config/constraints.go:40-133 | The amount/direction trigger already implies the non-zero-amount trigger |
| Ledger.Abs | handlers/transaction.go:237-243 | `abs` is non-negative and is the argument or its negation |
| Ledger.AbsOfNegation | handlers/transaction.go:237-243 | `abs(-x) == abs(x)` |
| Ledger.Normalize | handlers/transaction.go:56-69 | The type switch is defined exactly for the six types. It keeps the magnitude, and for a non-zero amount the (type, direction, amount) it yields passes every trigger |
| Ledger.NormalizeIdempotent | handlers/transaction.go:56-69 | Normalising an already normalised amount gives the same result |
| Ledger.Resign | handlers/transaction.go:186-194 | Update re-signs the new amount by the stored type: non-negative for incoming types, non-positive for outgoing ones, same magnitude as requested. An unknown stored type keeps the stored amount |
| Ledger.ResignPreservesAdmissible | handlers/transaction.go:186-194 | Re-signing a non-zero amount keeps an admissible row admissible |
| Ledger.ResignAgreesWithNormalize | handlers/transaction.go:186-194 | For a known type, update's sign rule is creation's normalisation |
| Accounts.BalanceOfNoMatches | models/account.go:31-38 | With no live transaction of the account and owner, the balance is 0 |
| Accounts.BalanceOfConcat | models/account.go:31-38 | The balance is additive over concatenated transaction lists |
| Accounts.BalanceAfterAppend | models/account.go:31-38 | A new row moves the balance by its amount exactly when it is a live row of this account and owner. Other accounts' and owners' rows never affect it |
| Accounts.BalanceAfterReplace | models/account.go:31-38 | Replacing one row moves the balance by the difference of the two rows' contributions |
| Accounts.SoftDeleteLowersBalance | models/account.go:31-38 | Soft-deleting a counted row lowers the balance by exactly its amount |
| Accounts.BalanceIsInflowMinusOutflow | models/account.go:31-38 | Under the trigger invariant, the balance is money in minus money out, both non-negative |
| Accounts.IncomeThenExpenseExample | models/account.go:31-38 | A normalised income of 100 followed by a normalised expense of 30 gives a balance of 70 |
| Catalog.Create | handlers/account.go:27-71 | Creation is refused exactly when the owner already has a live row of that name. Otherwise it appends one active row and keeps the existing rows; an empty colour or icon becomes the default |
| Catalog.Update | handlers/account.go:132-181 | A changed non-empty name is refused exactly when another live row of the owner has it. Otherwise text fields are overwritten only when non-empty and the active switch only when given. Owner, kind (type and currency) and the delete mark never change, and no other row changes |
| Catalog.ListActive | handlers/account.go:73-102 | The listing holds, in id order, exactly the owner's live active rows |
| Catalog.CreatePreservesUnique | handlers/account.go:27-71 | Creation keeps at most one live row per (owner, name) |
| Catalog.UpdatePreservesUnique | handlers/account.go:132-181 | Update keeps at most one live row per (owner, name) |
| Catalog.SoftDelete | handlers/category.go:147-164 | The soft delete sets the delete mark of one row and changes nothing else |
| Catalog.SoftDeleteFreesName | handlers/category.go:147-164 | Once its row is deleted, the name is free for the owner again |
| Catalog.SoftDeletePreservesUnique | handlers/category.go:147-164 | The soft delete keeps names unique |
| Catalog.CreateTakesName | handlers/category.go:25-67 | After a successful creation, the owner's name is taken |
| CatalogHandlers.CreateAccount | handlers/account.go:27-71 | Succeeds exactly for a valid request with a name the caller has not used. It answers with the new id, answers a duplicate with "Account name already exists", and on rejection writes nothing |
| CatalogHandlers.UpdateAccount | handlers/account.go:132-181 | Succeeds exactly for a valid request on an account the caller owns whose new name collides with no other live account of theirs. On rejection it writes nothing |
| CatalogHandlers.GetAccounts | handlers/account.go:73-102 | Lists exactly the caller's live active accounts, each once and in increasing id order, with its derived balance |
| CatalogHandlers.GetAccount | handlers/account.go:104-130 | Finds an account exactly when the caller owns it and it is live, active or not, and returns its derived balance. Otherwise answers "Account not found" |
| CatalogHandlers.DeleteAccount | handlers/account.go:183-200 | Soft-deletes exactly an account the caller owns; otherwise writes nothing |
| CatalogHandlers.CreateCategory | handlers/category.go:25-67 | Succeeds exactly for a name of 2 to 50 characters the caller has not used. It answers a duplicate with "Category name already exists" and on rejection writes nothing |
| CatalogHandlers.UpdateCategory | handlers/category.go:96-145 | Succeeds exactly for a valid request on an owned category whose new name collides with none of the caller's live categories |
| CatalogHandlers.GetCategories | handlers/category.go:69-80 | Lists exactly the caller's live active categories, each once and in increasing id order |
| CatalogHandlers.GetCategory | handlers/category.go:82-94 | Finds a category exactly when the caller owns it and it is live; otherwise answers "Category not found" |
| CatalogHandlers.DeleteCategory | handlers/category.go:147-164 | Soft-deletes exactly a category the caller owns |
| CatalogHandlers.CreateAccountKeepsValid | handlers/account.go:27-71 | Account creation preserves the store invariant |
| CatalogHandlers.UpdateAccountKeepsValid | handlers/account.go:132-181 | Account update preserves the store invariant |
| CatalogHandlers.DeleteAccountKeepsValid | handlers/account.go:183-200 | Account deletion preserves the store invariant |
| CatalogHandlers.CreateCategoryKeepsValid | handlers/category.go:25-67 | Category creation preserves the store invariant |
| CatalogHandlers.UpdateCategoryKeepsValid | handlers/category.go:96-145 | Category update preserves the store invariant |
| CatalogHandlers.DeleteCategoryKeepsValid | handlers/category.go:147-164 | Category deletion preserves the store invariant |
| CatalogHandlers.NewAccountBalance | models/account.go:31-38 | A new account whose id no stored transaction names starts at balance 0 |
| TransactionHandlers.CreateTransaction | handlers/transaction.go:30-94 | Succeeds exactly for a valid request (account id, non-zero amount, description of 1 to 255 characters, a date other than the zero time, a known type) on an account (and category, if given) of the caller, with the new id. An unknown type is rejected before any write, and the storage error is unreachable |
| TransactionHandlers.CreatedRow | handlers/transaction.go:56-69 | The stored row has the type's direction and the requested magnitude with the type's sign, has no reference, and passes the triggers |
| TransactionHandlers.CreateMovesBalance | handlers/transaction.go:30-94 | Creation moves the chosen account's balance by the signed amount and no other balance |
| TransactionHandlers.GetTransactions | handlers/transaction.go:96-133 | Lists exactly the caller's live transactions that pass every given filter (dates inclusive), each once, newest first |
| TransactionHandlers.SelectIdsIncrease | handlers/transaction.go:106-126 | The filtered selection is in strictly increasing id order, so it holds no row twice |
| TransactionHandlers.GetTransaction | handlers/transaction.go:135-147 | Finds a transaction exactly when the caller owns it and it is live |
| TransactionHandlers.Updated | handlers/transaction.go:167-203 | Account, category and date are overwritten only when given, description and notes only when non-empty, and the amount is re-signed. Type, direction, owner and reference never change, and an empty request changes nothing |
| TransactionHandlers.UpdateTransaction | handlers/transaction.go:149-216 | A successful update rewrites only the caller's row, with the updated fields. Validation and ownership failures answer as the code does and write nothing |
| TransactionHandlers.UpdateKeepsRowInvariant | handlers/transaction.go:186-194 | A row that passed the triggers still passes them after any valid update |
| TransactionHandlers.UpdateSucceedsOnValidLedger | handlers/transaction.go:149-216 | On a store where every row passes the triggers, a valid update of owned rows always succeeds and keeps the store valid |
| TransactionHandlers.DeleteTransaction | handlers/transaction.go:218-235 | Soft-deletes exactly a transaction the caller owns |
| TransactionHandlers.DeleteLowersBalance | handlers/transaction.go:218-235 | Deleting a transaction lowers its account's balance by its amount |
| Store.InsertTransaction | config/constraints.go:7-137 | A transaction insert is refused exactly when the row fails a trigger |
| Store.SaveTransaction | config/constraints.go:7-137 | A transaction update is refused exactly when the new row fails a trigger |
| Store.InsertExpense | config/constraints.go:140-184 | A recurring-expense insert is refused exactly for an unknown frequency or a non-positive amount |
| Store.SaveExpense | config/constraints.go:140-184 | A recurring-expense update is refused under the same two conditions |
| Store.InsertUser | models/user.go:13 | A user insert is refused exactly when the email is taken |
| Store.InsertSession | models/device_session.go:28 | A session insert is refused exactly when the refresh-token id is taken |
| Store.InsertTransactionKeepsLedgerValid | config/constraints.go:7-137 | Transaction inserts keep every stored row valid |
| Store.SaveTransactionKeepsLedgerValid | config/constraints.go:7-137 | Transaction updates keep every stored row valid |
| Store.InsertUserKeepsEmailsUnique | models/user.go:13 | User inserts keep emails unique |
| Store.InsertSessionKeepsTokenIdsUnique | models/device_session.go:28 | Session inserts keep refresh-token ids unique |
| Loans.UpdateStatus | models/loan.go:83-100 | The recomputation changes only the status, to the one the paid total determines, and reports a write exactly when the status changed |
| Loans.TotalPaidOfNoConfirmed | models/loan.go:67-74 | With no confirmed live payment of the loan, the paid total is 0 |
| Loans.TotalPaidOfConcat | models/loan.go:67-74 | The paid total is additive over concatenated payment lists |
| Loans.PendingPaymentIsInvisible | models/loan.go:67-74 | A pending payment never changes the paid total, nor therefore the balance |
| Loans.TotalPaidAfterReplace | models/loan.go:67-74 | Replacing one payment moves the paid total by the difference of the two contributions |
| Loans.ConfirmRaisesTotalPaid | models/loan.go:67-74 | Confirming a pending live payment raises the paid total by exactly its amount |
| Loans.StatusByBalance | models/loan.go:83-100 | For a positive principal, the status reads as: pending while the balance is the whole principal, partially paid while it lies strictly between 0 and the principal, paid once it is 0 or below |
| Loans.UpdateStatusIdempotent | models/loan.go:83-100 | A second recomputation writes nothing |
| Loans.LoanHook | models/loan.go:39-64 | The loan hooks transform only description, person name and notes, and leave empty fields empty |
| Loans.PaymentHook | models/loan_payment.go:37-56 | The payment hooks transform only description and notes; amount, loan, account and transaction id are untouched |
| Loans.LoanHooksRoundTrip | models/loan.go:39-64 | With a round-tripping cipher, loading a saved loan gives it back |
| Loans.PaymentHooksRoundTrip | models/loan_payment.go:37-56 | With a round-tripping cipher, loading a saved payment gives it back |
| LoanHandlers.NewLoan | handlers/loan.go:59-71 | A new loan is pending, live, of the requested type and principal |
| LoanHandlers.LoanTransaction | handlers/loan.go:82-105 | A loan given moves money out (`loan_given`, `out`, minus the magnitude) and a loan received moves it in (`loan_received`, `in`, plus the magnitude). Both reference the loan |
| LoanHandlers.CreateLoan | handlers/loan.go:40-118 | Succeeds exactly for a valid request (account id, positive amount, description and person name within their lengths, type given or received, a loan date other than the zero time) on an owned account. It stores the loan, then its transaction, under the new loan id |
| LoanHandlers.CreatedLoanIsConsistent | handlers/loan.go:40-118 | The new loan's transaction passes the triggers, its status is the derived one, and its balance is the principal |
| LoanHandlers.UpdateLoan | handlers/loan.go:214-257 | Succeeds exactly for a valid request on an owned loan. It never changes principal, type, status, account, owner or loan date, and no other loan |
| LoanHandlers.DeleteLoan | handlers/loan.go:259-284 | Soft-deletes an owned loan exactly when no live payment of it is confirmed |
| LoanHandlers.DeletedLoanHadNothingPaid | handlers/loan.go:269-274 | A loan that can be deleted has paid total 0 |
| LoanHandlers.NewPayment | handlers/loan.go:317-327 | A payment request is stored pending |
| LoanHandlers.CreateLoanPayment | handlers/loan.go:286-340 | Accepted exactly for a valid request (account id, positive amount, a date other than the zero time, description of 1 to 255 characters) on an owned loan and account whose amount does not exceed the balance over confirmed payments |
| LoanHandlers.PendingRequestsCanOverpay | handlers/loan.go:311-315 | A request does not lower the balance, so a second request that fits the same balance is also accepted |
| LoanHandlers.LoanOf | handlers/loan.go:342-412 | A payment's loan is found exactly when it exists and is live |
| LoanHandlers.PaymentTransaction | handlers/loan.go:361-389 | Confirming a payment of a loan given moves money in (`loan_payment_received`). Any other loan, including one that could not be loaded, moves it out (`loan_payment_given`). The reference is the loan id, or 0 for an unloaded loan |
| LoanHandlers.ConfirmLoanPayment | handlers/loan.go:342-412 | Succeeds exactly for an owned pending payment with a non-zero amount. It appends the transaction, sets the payment's transaction id to it, and recomputes a live loan's status |
| LoanHandlers.ConfirmTwiceFails | handlers/loan.go:352-354 | Confirming the same payment again is refused with "Payment already confirmed" and writes nothing |
| LoanHandlers.ConfirmUpdatesLoan | handlers/loan.go:392-398 | After a confirmation, the loan's paid total has grown by the payment's amount and its status is the one that total determines |
| LoanHandlers.OverpaymentEndsPaid | handlers/loan.go:392-398 | Confirming a 150 payment on a 100 loan with nothing paid ends paid with balance -50 |
| Recurring.CalculateNextDueDate | models/recurring_expense.go:41-54 | The advance keeps the time of day; an unknown frequency leaves the date unchanged |
| Recurring.NextDueDateByFrequency | models/recurring_expense.go:43-50 | Daily adds exactly one day and weekly exactly seven on the time line. Monthly and yearly add one calendar month or year |
| Recurring.NextDueDateIsLater | models/recurring_expense.go:41-54 | The advance moves strictly forward exactly for the four known frequencies |
| Recurring.MonthlyOverflowExample | models/recurring_expense.go:47-48 | A monthly expense due 2024-01-31 is next due 2024-03-02 |
| Recurring.YearlyLeapDayExample | models/recurring_expense.go:49-50 | A yearly expense due 2024-02-29 is next due 2025-03-01 |
| Recurring.InactiveIsNeverDue | models/recurring_expense.go:57-66 | An inactive expense is neither overdue nor due today |
| Recurring.DueTodayCanBeOverdue | models/recurring_expense.go:57-66 | Later on its due day, an active expense is both due today and overdue |
| Calendar.GoDate | models/recurring_expense.go:43-50 | Go's `time.Date` yields a valid date with the day number of the unnormalised (year, month, day) |
| Calendar.AddDate | models/recurring_expense.go:43-50 | `AddDate` keeps the clock and lands on the day number of the field-wise sum, normalised as `time.Date` does |
| Calendar.AddDaysIsLinear | models/recurring_expense.go:43-46 | Adding k days is adding k times 86400 seconds |
| Calendar.AddMonthIsLater | models/recurring_expense.go:47-48 | Adding a month lands strictly later, whatever overflow happens |
| Calendar.AddYearIsLater | models/recurring_expense.go:49-50 | Adding a year lands strictly later |
| Calendar.MonthOverflowExample | models/recurring_expense.go:47-48 | 2024-01-31 plus one month is 2024-03-02 |
| Calendar.LeapDayPlusYearExample | models/recurring_expense.go:49-50 | 2024-02-29 plus one year is 2025-03-01 |
| Calendar.DayNumberMonotone | models/recurring_expense.go:57-59 | A calendar-earlier date has a smaller day number, so `After` orders dates as the calendar does |
| Calendar.EpochSecondsInjective | models/reminder.go:37-39 | Distinct instants have distinct Unix times |
| RecurringHandlers.NewExpense | handlers/recurring_expense.go:59-75 | A new expense is first due on its start date, active and reminder-only, and a valid request passes the triggers |
| RecurringHandlers.CreateRecurringExpense | handlers/recurring_expense.go:34-87 | Succeeds exactly for a valid request (account and category ids, positive amount, description of 1 to 255 characters, a known frequency, a start date other than the zero time) with owned account and category. It stores the expense and then regenerates its reminders |
| RecurringHandlers.UpdatedExpense | handlers/recurring_expense.go:207-225 | Update never changes the schedule (start and next due date) or the owner. Fields are overwritten only when given, and an empty request changes nothing |
| RecurringHandlers.UpdateRecurringExpense | handlers/recurring_expense.go:171-238 | A successful update rewrites only the owned expense. Validation and ownership failures answer as the code does and write nothing |
| RecurringHandlers.UpdateSucceedsOnValidStore | handlers/recurring_expense.go:171-238 | On a valid store, a valid update of owned rows succeeds and keeps the store valid |
| RecurringHandlers.GetRecurringExpenses | handlers/recurring_expense.go:89-139 | Lists exactly the caller's live expenses passing the filters, each once, earliest due first, with its overdue and due-today flags |
| RecurringHandlers.GetRecurringExpense | handlers/recurring_expense.go:141-169 | Finds an expense exactly when the caller owns it and it is live, with its flags |
| RecurringHandlers.ActiveFilterCases | handlers/recurring_expense.go:93-108 | With no value only active expenses are listed, "false" lists only inactive ones, and any other value lists both |
| RecurringHandlers.ExpenseTransaction | handlers/recurring_expense.go:309-321 | The execution's transaction is an outgoing expense of minus the effective amount, in the expense's category, referencing the expense |
| RecurringHandlers.ExpenseTransactionAdmissible | handlers/recurring_expense.go:309-325 | That transaction passes the triggers exactly when the effective amount is positive |
| RecurringHandlers.ExecuteRecurringExpense | handlers/recurring_expense.go:260-346 | An unowned or inactive expense is rejected with no write. A success uses the defaults for absent overrides, appends the transaction, advances the due date once and regenerates reminders. A failure leaves expenses and reminders as they were |
| RecurringHandlers.RecordExecution | handlers/recurring_expense.go:309-335 | The three writes succeed exactly when the transaction and the advanced expense pass their triggers, and a refused transaction writes nothing |
| RecurringHandlers.ExecuteSucceedsIff | handlers/recurring_expense.go:260-346 | On a valid store, executing an owned active expense into an owned account succeeds exactly when the effective amount is positive, and otherwise writes nothing |
| RecurringHandlers.ExecuteAdvancesOnce | handlers/recurring_expense.go:327-331 | A success moves only that expense's due date, strictly forward, by one step of its frequency |
| RecurringHandlers.DeleteRecurringExpense | handlers/recurring_expense.go:240-257 | Soft-deletes exactly an owned expense |
| RecurringHandlers.CreateKeepsExpensesValid | handlers/recurring_expense.go:34-87 | Creation keeps every expense row valid |
| RecurringHandlers.UpdateKeepsExpensesValid | handlers/recurring_expense.go:171-238 | Update keeps every expense row valid |
| RecurringHandlers.ExecuteKeepsExpensesValid | handlers/recurring_expense.go:260-346 | Execution keeps every expense row valid |
| RecurringHandlers.DeleteKeepsExpensesValid | handlers/recurring_expense.go:240-257 | Deletion keeps every expense row valid |
| Reminders.NewReminder | models/reminder.go:22-26 | A new reminder is active and unsent, with priority "normal" unless one is given |
| Reminders.MarkAsSent | models/reminder.go:42-45 | Marking sets the sent flag and changes nothing else |
| Reminders.MarkAsSentIdempotent | models/reminder.go:42-45 | Marking twice is marking once |
| Reminders.MarkedIsNotDue | models/reminder.go:37-45 | A marked reminder neither should be sent nor is selected by the sweep |
| Reminders.ShouldBeSentVersusSweep | models/reminder.go:37-39 | For a live reminder, "should be sent" is the sweep's selection minus the instant where the remind time equals now |
| ReminderService.Purge | services/reminder_service.go:16-17 | Regeneration deletes exactly the expense's unsent reminders and changes nothing else |
| ReminderService.Candidates | services/reminder_service.go:19-53 | The three candidates lie two days before (normal), one day before (high) and on (high) the due date |
| ReminderService.Upcoming | services/reminder_service.go:55-65 | Keeps exactly the candidates strictly after now |
| ReminderService.Schedule | services/reminder_service.go:20-65 | Every created reminder belongs to the expense's owner, references the expense with type "recurring_expense", and is active, unsent and in the future |
| ReminderService.CreateReminders | services/reminder_service.go:14-68 | Regeneration changes only reminders: it soft-deletes the expense's unsent ones, keeps all others, and appends at most three new ones |
| ReminderService.RegeneratedAreFuture | services/reminder_service.go:14-68 | Afterwards every unsent live reminder of the expense is one of the new ones and lies in the future |
| ReminderService.RegenerationCount | services/reminder_service.go:55-65 | Three reminders are created while the first candidate is ahead; none once the due date has passed |
| ReminderService.DaysLate | services/reminder_service.go:114 | The reported lateness is the whole number of days since the due date, at least 1 |
| ReminderService.OverdueReminder | services/reminder_service.go:110-124 | The overdue reminder is titled "¡VENCIDO!", has high priority, is due and created now, and ends up sent |
| ReminderService.OverdueStep | services/reminder_service.go:101-127 | One expense of the check gains a reminder exactly when it is overdue by more than a day and has no recent overdue reminder |
| ReminderService.CheckOverdueFrom | services/reminder_service.go:93-129 | After the check from a position on, every selected expense has a recent overdue reminder. Existing reminders are kept, and the new ones are sent and live |
| ReminderService.CheckOverdue | services/reminder_service.go:93-129 | After the check, every expense overdue by more than a day has a recent overdue reminder, and existing reminders are kept |
| ReminderService.CheckOverdueFromNoOp | services/reminder_service.go:104-109 | Expenses that already have a recent overdue reminder get nothing |
| ReminderService.CheckOverdueIdempotent | services/reminder_service.go:104-109 | Run twice at the same instant, the check creates nothing the second time |
| ReminderService.ConsideredOverdueIsOverdue | services/reminder_service.go:97-99 | Every expense the check selects is overdue |
| ReminderService.Dispatch | services/reminder_service.go:75-86 | The sweep marks sent exactly the live, active, unsent reminders due now or earlier, and changes nothing else |
| ReminderService.ProcessPendingReminders | services/reminder_service.go:71-90 | The sweep marks the existing reminders exactly as `Dispatch` does, then only appends reminders, and changes nothing but reminders |
| ReminderService.SweepClearsBacklog | services/reminder_service.go:71-90 | After the sweep, no live reminder is due for dispatch or should be sent |
| Sessions.NewUser | models/user.go:18-21 | A new user has all notification switches on and time zone America/Lima |
| Sessions.Deactivate | handlers/auth.go:101-106 | Deactivation ends the session with a reason and time and changes nothing else |
| Sessions.ActiveSessionCountIsCardinality | handlers/user.go:25-41 | The active-session count equals the number of session rows that are active for the user |
| Sessions.ActiveSessionCountZero | handlers/user.go:25-41 | The active-session count is 0 exactly when no session of the user is active |
| Sessions.ActiveSessionCountAppend | handlers/auth.go:109-142 | Appending a session adds one to the count exactly when it is active for the user |
| Tokens.HexDigit | utils/tokens.go:27-40 | Each nibble renders as one lowercase hex digit |
| Tokens.HexValue | utils/tokens.go:27-40 | Reading a hex digit inverts rendering and is defined exactly on lowercase hex digits |
| Tokens.HexEncode | utils/tokens.go:27-40 | Encoding renders two lowercase hex digits per byte |
| Tokens.HexDecode | utils/tokens.go:27-40 | A decoded text has half as many bytes as characters |
| Tokens.HexRoundTrip | utils/tokens.go:27-40 | Decoding undoes encoding |
| Tokens.HexEncodeInjective | utils/tokens.go:27-40 | Distinct byte strings have distinct renderings |
| Tokens.RefreshTokenId | utils/tokens.go:27-31 | A token id is 32 lowercase hex characters that decode back to the 16 random bytes it was made from |
| Tokens.RefreshToken | utils/tokens.go:34-40 | A refresh token is 64 hex characters decoding to its 32 random bytes. It is an error exactly when the random read fails |
| Tokens.AccessClaims | utils/tokens.go:14-24 | The access claims are exactly user_id, email, refresh_token_id, type "access" and an expiry 600 seconds after issue |
| Tokens.AccessClaimsExpiry | utils/tokens.go:14-24 | An access token is unexpired exactly during its ten-minute lifetime |
| AuthHandlers.GetStringFromMap | handlers/auth.go:219-227 | Yields the stored string, or the default for a missing map, a missing key or a non-string value |
| AuthHandlers.Register | handlers/auth.go:33-76 | Succeeds exactly for a valid request with an unused email whose password hashes. It stores only the digest, answers a taken email with "Email already exists", and on rejection writes nothing |
| AuthHandlers.RegisteredPasswordVerifies | handlers/auth.go:33-76 | Registration keeps emails unique, and the stored digest verifies the password |
| AuthHandlers.FindUserByEmail | handlers/auth.go:91-94 | Finds the first user with the email, exactly when one exists |
| AuthHandlers.DeactivateAll | handlers/auth.go:101-106 | Ends exactly the user's active sessions and leaves every other session as it was |
| AuthHandlers.NewSession | handlers/auth.go:109-142 | The new session is active, belongs to the user, holds the new token id and only the refresh token's digest |
| AuthHandlers.Login | handlers/auth.go:78-158 | Login rejects an invalid request or bad credentials with no write. With valid credentials it succeeds exactly when the refresh token can be generated and hashed and the new token id is free; a later failure is a server error that keeps the ended sessions. A success ends the user's sessions and appends one new session, returning an access token for the new token id and a refresh token whose digest the session stores. It never changes users |
| AuthHandlers.AppendedIsOnlyActive | handlers/auth.go:101-142 | Ending a user's sessions and appending an active one leaves exactly that one active |
| AuthHandlers.LoginLeavesOneActiveSession | handlers/auth.go:101-142 | After a login the user has exactly one active session, the new one |
| AuthHandlers.LoginTouchesOnlyItsUser | handlers/auth.go:101-142 | Login leaves other users' sessions untouched, and the stored digest verifies the returned refresh token |
| AuthHandlers.BadCredentialsLookAlike | handlers/auth.go:91-98 | An unknown email and a wrong password give the same "Invalid credentials" answer and write nothing |
| AuthHandlers.FirstVerified | handlers/auth.go:173-188 | Picks the first active session whose digest verifies the token, and none exactly when none does |
| AuthHandlers.OwnerOf | handlers/auth.go:189-195 | The access token is issued for the session's owner, or for the zero user when the owner row is missing |
| AuthHandlers.Refresh | handlers/auth.go:160-216 | Refresh rejects an empty token, and a token no active session verifies. It succeeds exactly when some active session verifies the token and the new refresh token can be generated and hashed; otherwise a server error with no write. A success rewrites only the matched session's digest and last activity, and issues an access token for the same token id |
| AuthHandlers.RefreshRotatesOnlyTheHash | handlers/auth.go:160-216 | Refresh keeps the session's token id, owner and active flag, touches no other session, and the new refresh token verifies |
| AuthMiddleware.Split | middleware/auth.go:24 | Splitting on a separator yields separator-free pieces that join back to the input |
| AuthMiddleware.SplitWithoutSeparator | middleware/auth.go:24 | A separator-free text is one piece |
| AuthMiddleware.SplitAfterPiece | middleware/auth.go:24 | A separator-free prefix before the separator is the first piece |
| AuthMiddleware.BearerToken | middleware/auth.go:24-31 | An extracted token contains no space |
| AuthMiddleware.BearerTokenExact | middleware/auth.go:24-31 | The accepted headers are exactly "Bearer", one space and a space-free token, which is stricter than section 2.1 of RFC 6750 |
| AuthMiddleware.EmptyHeaderHasNoToken | middleware/auth.go:16-21 | The empty header carries no token |
| AuthMiddleware.ActiveSessionByTokenId | middleware/auth.go:67-73 | Finds the first active session whose token id is the claim, and none exactly when none matches |
| AuthMiddleware.Admit | middleware/auth.go:42-99 | A parsed token is admitted only with type access, a numeric user id, an active session for its token id owned by that user, and an existing user. A token whose id no active session carries is refused as revoked. Only success writes, and only the session's last activity |
| AuthMiddleware.Presented | middleware/auth.go:24-39 | The token a request presents is the bearer token when it parses at the request's time |
| AuthMiddleware.RequireAuth | middleware/auth.go:14-105 | The gate answers a missing header, a malformed header and an unparsable token with their own messages, and otherwise applies the claim and session checks. On rejection it writes nothing |
| AuthMiddleware.RequireAuthNeedsLiveSession | middleware/auth.go:67-80 | Admission requires an active session of the claimed user carrying the token's id |
| AuthMiddleware.RevokedTokenRefused | middleware/auth.go:67-73 | A token whose id no active session carries is refused as revoked |
| AuthMiddleware.IssuedTokenPassesRequireAuth | middleware/auth.go:14-105 | An access token issued for an active session of an existing user passes the gate while unexpired, naming that user and session |
| AuthMiddleware.OptionalAuth | middleware/auth.go:108-133 | The optional gate never rejects. It yields the claimed user exactly for a parsed token with a numeric user id, and only a non-numeric id aborts |
| AuthMiddleware.RequireAuthImpliesOptional | middleware/auth.go:108-133 | Whatever the gate admits, the optional gate admits for the same user |
| AuthMiddleware.OptionalAuthIgnoresRevocation | middleware/auth.go:108-133 | A revoked token still yields its user to the optional gate |
| UserHandlers.GetProfile | handlers/user.go:11-44 | The profile of an existing user reports as many active sessions as there are session rows active for the user (0 exactly when none is); otherwise it answers "User not found" |
| UserHandlers.ProfileAfterLogin | handlers/user.go:11-44 | Right after a login, the profile reports exactly one active session |
| UserHandlers.UpdateProfile | handlers/user.go:46-101 | Text fields are overwritten only when non-empty and switches only when given. Email and password never change, and no other user changes |
| UserHandlers.UpdateProfileKeepsOthers | handlers/user.go:46-101 | A profile update keeps emails unique and sessions unchanged, and an empty request changes nothing |
| UserHandlers.Logout | handlers/user.go:103-122 | Logout ends exactly the caller's session, with reason "User logout" and time now, and changes nothing else |
| UserHandlers.LogoutRevokes | handlers/user.go:103-122 | After logout, every access token naming the session's token id is refused as revoked |
| UserHandlers.GateThenLogoutThenGate | handlers/user.go:103-122 | A token the gate admitted is refused after its session logs out |
| Sorting.Insert | handlers/transaction.go:126 | Inserting into a sorted sequence keeps it sorted and adds exactly the element |
| Sorting.InsertWithKey | handlers/transaction.go:126 | Insertion places the new element after every element with the same key |
| Sorting.SortBy | handlers/transaction.go:126 | The ordering is a sorted permutation of the selection |
| Sorting.SortByMembers | handlers/transaction.go:126 | Ordering neither adds nor drops rows |
| Sorting.SortByKeeps | handlers/transaction.go:126 | A property of every selected row survives ordering |
| Sorting.SortBySortedIsIdentity | handlers/recurring_expense.go:111 | An input already in key order comes back unchanged |
| Sorting.SortByStable | handlers/recurring_expense.go:111 | Stability: for every key, the rows with that key come out in the order they went in (id order) |
| Sorting.InsertDistinct | handlers/transaction.go:126 | Inserting a row whose id is new keeps the ids distinct |
| Sorting.SortByDistinct | handlers/transaction.go:126 | Ordering rows with distinct ids yields rows with distinct ids: no row comes out twice |

## Left out

- HTTP plumbing is not modelled: body parsing, JSON response shapes, status codes beyond the error category, `Preload` reloads, routes and main.
- Amounts and the interest rate are integers (cents), not `float64`; rounding, NaN and infinities are not modelled.
- Instants are UTC calendar dates with a second of the day. Time zones, daylight saving, leap seconds and sub-second precision are not modelled.
- The 24-hour ticker (services/reminder_service.go:142-157) and concurrent requests are not modelled; the sweep is one function call.
- Notification sending and logging (services/reminder_service.go:132-139) are not modelled; they have no effect on the store.
- Reminder and overdue descriptions leave out the amount suffix written with `%.2f PEN`.
- Storage failures other than the triggers and the two unique columns are not modelled.
- bcrypt, JWT signing and parsing, and the field cipher are parameters with one law each. The bcrypt salt, signing errors and the cipher's own failure are not modelled.
- The email validator is the parameter `isEmail`. The other validator tags are written out, with `required` on a date read as "not Go's zero time" (`Calendar.ZeroTime`).
- The session lookup treats a non-string `refresh_token_id` claim as matching no session.
- The conversion of a negative or fractional `user_id` claim to an unsigned integer is not modelled.
- Rows with equal sort keys come out in id order (`Sorting.SortByStable`). Listings without an `ORDER BY` (accounts, categories, and the session scan of `AuthHandlers.FirstVerified`) are also in id order. The store fixes neither order, so this is one of the orders it may return.
- GetLoans and GetLoan are not modelled. They are read endpoints that also rerun `UpdateStatus`, which `Loans.UpdateStatus` and `Loans.UpdateStatusIdempotent` cover.
- Users are never deleted.
- The save and load hooks of users, transactions and sessions are not modelled; only the loan and payment hooks are.
- The final "Invalid token" answer of the gate (middleware/auth.go:102-104) is not modelled: a parsed token always reaches the claim checks.
- The guard that decides whether the triggers are installed (config/constraints.go:9-17) is not modelled; the triggers are always on.
- TransactionHandlers.GetTransactions: the `date_from` and `date_to` filters are taken as parsed instants compared inclusively. The store compares the raw query string with the stored timestamp as text (handlers/transaction.go:118-123), which can drop rows dated on the `date_to` day; that comparison is not modelled.
- TransactionHandlers.UpdateTransaction: the contract states success in one direction only; the converse is `UpdateSucceedsOnValidLedger`, under the trigger invariant.
- RecurringHandlers.UpdateRecurringExpense: the contract states success in one direction only; the converse is `UpdateSucceedsOnValidStore`.
- RecurringHandlers.ExecuteRecurringExpense: the contract states success in one direction only; the converse is `ExecuteSucceedsIff`.

=== FILE: accounts.dfy ===
/** Accounts and their derived balance: the balance is never stored, it is
    the sum of the signed amounts of the account's live transactions. */
module Accounts {
  import opened Ledger
  import opened Catalog

  /** What an account adds to the catalog shape: its type and its currency code. */
  datatype AccountKind = AccountKind(accountType: string, currency: string)

  type Account = Entry<AccountKind>

  /** Whether a transaction row takes part in the balance of account
      `accountId` owned by `userId`. */
  predicate CountsFor(accountId: nat, userId: nat, t: Transaction) {
    t.accountId == accountId && t.userId == userId && !t.deleted
  }

  /** The balance query: `COALESCE(SUM(amount), 0)` over the matching rows. */
  function Balance(accountId: nat, userId: nat, txs: seq<Transaction>): int
    decreases |txs|
  {
    if |txs| == 0 then 0
    else
      var last := txs[|txs| - 1];
      Balance(accountId, userId, txs[..|txs| - 1]) + (if CountsFor(accountId, userId, last) then last.amount else 0)
  }

  /** Sum of |amount| over the matching incoming rows. */
  function Inflow(accountId: nat, userId: nat, txs: seq<Transaction>): int
    decreases |txs|
  {
    if |txs| == 0 then 0
    else
      var last := txs[|txs| - 1];
      Inflow(accountId, userId, txs[..|txs| - 1])
        + (if CountsFor(accountId, userId, last) && last.direction == "in" then Abs(last.amount) else 0)
  }

  /** Sum of |amount| over the matching outgoing rows. */
  function Outflow(accountId: nat, userId: nat, txs: seq<Transaction>): int
    decreases |txs|
  {
    if |txs| == 0 then 0
    else
      var last := txs[|txs| - 1];
      Outflow(accountId, userId, txs[..|txs| - 1])
        + (if CountsFor(accountId, userId, last) && last.direction == "out" then Abs(last.amount) else 0)
  }

  /** With no matching row the balance is 0. */
  lemma {:induction false} BalanceOfNoMatches(accountId: nat, userId: nat, txs: seq<Transaction>)
    requires forall i :: 0 <= i < |txs| ==> !CountsFor(accountId, userId, txs[i])
    ensures Balance(accountId, userId, txs) == 0
    decreases |txs|
  {
    if |txs| > 0 {
      BalanceOfNoMatches(accountId, userId, txs[..|txs| - 1]);
    }
  }

  /** The balance of a concatenation is the sum of the balances. */
  lemma {:induction false} BalanceOfConcat(accountId: nat, userId: nat, xs: seq<Transaction>, ys: seq<Transaction>)
    ensures Balance(accountId, userId, xs + ys) == Balance(accountId, userId, xs) + Balance(accountId, userId, ys)
    decreases |ys|
  {
    if |ys| == 0 {
      assert xs + ys == xs;
    } else {
      assert (xs + ys)[..|xs + ys| - 1] == xs + ys[..|ys| - 1];
      BalanceOfConcat(accountId, userId, xs, ys[..|ys| - 1]);
    }
  }

  /** Recording a transaction changes the balance by its amount exactly when
      it belongs to this account and owner; rows of another account or owner
      never affect it. */
  lemma BalanceAfterAppend(accountId: nat, userId: nat, txs: seq<Transaction>, t: Transaction)
    ensures Balance(accountId, userId, txs + [t])
      == Balance(accountId, userId, txs) + (if CountsFor(accountId, userId, t) then t.amount else 0)
  {
    assert (txs + [t])[..|txs + [t]| - 1] == txs;
  }

  /** Replacing one row changes the balance by the difference of the two
      rows' contributions. */
  lemma {:induction false} BalanceAfterReplace(accountId: nat, userId: nat, txs: seq<Transaction>, i: nat, t: Transaction)
    requires i < |txs|
    ensures Balance(accountId, userId, txs[i := t])
      == Balance(accountId, userId, txs)
         - (if CountsFor(accountId, userId, txs[i]) then txs[i].amount else 0)
         + (if CountsFor(accountId, userId, t) then t.amount else 0)
  {
    var pre := txs[..i];
    var post := txs[i + 1..];
    assert txs == pre + [txs[i]] + post;
    assert txs[i := t] == pre + [t] + post;
    BalanceOfConcat(accountId, userId, pre + [txs[i]], post);
    BalanceOfConcat(accountId, userId, pre + [t], post);
    BalanceAfterAppend(accountId, userId, pre, txs[i]);
    BalanceAfterAppend(accountId, userId, pre, t);
  }

  /** Soft-deleting a row of this account lowers the balance by exactly its amount. */
  lemma SoftDeleteLowersBalance(accountId: nat, userId: nat, txs: seq<Transaction>, i: nat)
    requires i < |txs| && CountsFor(accountId, userId, txs[i])
    ensures Balance(accountId, userId, txs[i := txs[i].(deleted := true)])
      == Balance(accountId, userId, txs) - txs[i].amount
  {
    BalanceAfterReplace(accountId, userId, txs, i, txs[i].(deleted := true));
  }

  /** Under the ledger invariant the balance is money in minus money out,
      both non-negative: incoming rows add, outgoing rows subtract. */
  lemma {:induction false} BalanceIsInflowMinusOutflow(accountId: nat, userId: nat, txs: seq<Transaction>)
    requires forall i :: 0 <= i < |txs| ==> RowInvariant(txs[i])
    ensures Balance(accountId, userId, txs) == Inflow(accountId, userId, txs) - Outflow(accountId, userId, txs)
    ensures Inflow(accountId, userId, txs) >= 0 && Outflow(accountId, userId, txs) >= 0
    decreases |txs|
  {
    if |txs| > 0 {
      BalanceIsInflowMinusOutflow(accountId, userId, txs[..|txs| - 1]);
    }
  }

  /** An income of 100 followed by an expense of 30, both normalised as
      creation does, leave the account at 70. */
  lemma IncomeThenExpenseExample(accountId: nat, userId: nat, income: Transaction, expense: Transaction)
    requires CountsFor(accountId, userId, income) && CountsFor(accountId, userId, expense)
    requires income.amount == Normalize("income", 100).value.1
    requires expense.amount == Normalize("expense", 30).value.1
    ensures Balance(accountId, userId, [income, expense]) == 70
  {
    BalanceAfterAppend(accountId, userId, [], income);
    BalanceAfterAppend(accountId, userId, [income], expense);
    assert [income] + [expense] == [income, expense];
  }
}

=== FILE: auth_handlers.dfy ===
/** The authentication endpoints: registration with the duplicate-email
    check, login (single active session per user, a fresh refresh-token id,
    only the refresh token's hash stored) and refresh-token rotation. */
module AuthHandlers {
  import opened Common
  import opened Calendar
  import opened Tokens
  import opened Sessions
  import opened Store

  /** The optional `device_info` object of a login request. */
  type DeviceInfo = Option<map<string, Json>>

  /** A string entry of the device information, or the default when there is
      no map, no such key, or a value that is not a string. */
  function GetStringFromMap(m: DeviceInfo, key: string, default: string): (r: string)
    ensures (m.Some? && key in m.value && m.value[key].JString?) ==> r == m.value[key].s
    ensures !(m.Some? && key in m.value && m.value[key].JString?) ==> r == default
  {
    match m
    case None => default
    case Some(entries) => if key in entries && entries[key].JString? then entries[key].s else default
  }

  // ---------------------------------------------------------------------------
  // Registration

  datatype RegisterRequest = RegisterRequest(name: string, email: string, password: string, phoneNumber: string)

  /** The request validator: a name of 2 to 100 characters, an email address
      (`isEmail` is the validator's address syntax) and a password of at
      least 6 characters. */
  predicate ValidRegister(req: RegisterRequest, isEmail: string -> bool) {
    LengthBetween(req.name, 2, 100) && isEmail(req.email) && |req.password| >= 6
  }

  /** Registration answers with the new user's id; only the password's hash is stored. */
  function Register(db: Db, req: RegisterRequest, isEmail: string -> bool, h: Hasher): (r: Response<nat>)
    ensures r.result.Ok? <==>
      ValidRegister(req, isEmail) && !EmailTaken(db.users, req.email) && h.hash(req.password).Some?
    ensures r.result.Ok? ==>
      (r.result.value == |db.users| + 1
       && r.db == db.(users := db.users + [NewUser(req.name, req.email, h.hash(req.password).value, req.phoneNumber)]))
    ensures r.result.Err? ==> r.db == db
    ensures ValidRegister(req, isEmail) && EmailTaken(db.users, req.email) ==>
      r.result == Err(BadRequest("Email already exists"))
  {
    if !ValidRegister(req, isEmail) then Response(db, Err(BadRequest("Validation failed")))
    else if EmailTaken(db.users, req.email) then Response(db, Err(BadRequest("Email already exists")))
    else
      match h.hash(req.password)
      case None => Response(db, Err(Internal("Could not hash password")))
      case Some(digest) =>
        match InsertUser(db, NewUser(req.name, req.email, digest, req.phoneNumber))
        case None => Response<nat>.Response(db, Err(Internal("Could not create user")))
        case Some(db1) => Response(db1, Ok(|db.users| + 1))
  }

  /** Registration keeps emails unique, and the stored digest verifies the password. */
  lemma RegisteredPasswordVerifies(db: Db, req: RegisterRequest, isEmail: string -> bool, h: Hasher)
    requires HasherSound(h) && EmailsUnique(db.users)
    requires Register(db, req, isEmail, h).result.Ok?
    ensures var r := Register(db, req, isEmail, h);
      && EmailsUnique(r.db.users)
      && h.verify(req.password, r.db.users[r.result.value - 1].passwordHash)
  {
    InsertUserKeepsEmailsUnique(db, NewUser(req.name, req.email, h.hash(req.password).value, req.phoneNumber));
  }

  // ---------------------------------------------------------------------------
  // Login

  /** The id of the user with this email (emails are unique: the first match). */
  function FindUserByEmail(users: seq<User>, email: string): (r: Option<nat>)
    ensures r.None? <==> !EmailTaken(users, email)
    ensures r.Some? ==> IsId(r.value, |users|) && users[r.value - 1].email == email
    ensures r.Some? ==> forall k :: 0 <= k < r.value - 1 ==> users[k].email != email
    decreases |users|
  {
    if |users| == 0 then None
    else if users[0].email == email then Some(1)
    else
      match FindUserByEmail(users[1..], email)
      case None => None
      case Some(id) => Some(id + 1)
  }

  /** Every active session of the user ends, with the given reason and time. */
  function DeactivateAll(sessions: seq<DeviceSession>, userId: nat, reason: string, now: Instant): (r: seq<DeviceSession>)
    ensures |r| == |sessions|
    ensures forall i :: 0 <= i < |sessions| ==>
      r[i] == (if ActiveFor(sessions[i], userId) then Deactivate(sessions[i], reason, now) else sessions[i])
  {
    seq(|sessions|, i requires 0 <= i < |sessions| =>
      if ActiveFor(sessions[i], userId) then Deactivate(sessions[i], reason, now) else sessions[i])
  }

  /** Ending sessions keeps every refresh-token id, so the same ids stay taken. */
  lemma DeactivateAllKeepsTokenIds(sessions: seq<DeviceSession>, userId: nat, reason: string, now: Instant,
                                   tokenId: string)
    ensures TokenIdTaken(DeactivateAll(sessions, userId, reason, now), tokenId) <==> TokenIdTaken(sessions, tokenId)
  {
    var ended := DeactivateAll(sessions, userId, reason, now);
    assert forall i :: 0 <= i < |sessions| ==> ended[i].refreshTokenId == sessions[i].refreshTokenId;
  }

  datatype LoginRequest = LoginRequest(email: string, password: string, deviceInfo: DeviceInfo)

  /** The connection a request comes from. */
  datatype Client = Client(ipAddress: string, userAgent: string)

  /** The bytes read from the system's random source: 16 for the token id
      (a failed read is ignored), 32 for the refresh token (or a failed read). */
  datatype Randomness = Randomness(idBytes: seq<Byte>, tokenBytes: Option<seq<Byte>>)

  predicate WellSized(rand: Randomness) {
    |rand.idBytes| == 16 && (rand.tokenBytes.Some? ==> |rand.tokenBytes.value| == 32)
  }

  datatype LoginResult = LoginResult(accessToken: string, refreshToken: string, sessionId: nat, userId: nat)

  /** The session a login creates: active, bound to the new token id, storing
      only the refresh token's digest, with device details or their defaults. */
  function NewSession(userId: nat, info: DeviceInfo, client: Client, digest: string, tokenId: string,
                      now: Instant): (s: DeviceSession)
    ensures s.isActive && s.userId == userId && s.refreshTokenHash == digest && s.refreshTokenId == tokenId
    ensures s.logoutAt == None && s.loginAt == now && s.lastActivity == now
  {
    DeviceSession(userId,
                  GetStringFromMap(info, "device_id", "unknown"),
                  GetStringFromMap(info, "device_name", "Unknown Device"),
                  GetStringFromMap(info, "device_type", "unknown"),
                  GetStringFromMap(info, "device_model", ""),
                  GetStringFromMap(info, "os_version", ""),
                  client.ipAddress, client.userAgent, digest, tokenId,
                  GetStringFromMap(info, "fcm_token", ""),
                  true, now, None, "", now)
  }

  /** Whether the credentials name a user and the password verifies. */
  predicate CredentialsValid(db: Db, req: LoginRequest, h: Hasher) {
    var id := FindUserByEmail(db.users, req.email);
    id.Some? && h.verify(req.password, db.users[id.value - 1].passwordHash)
  }

  /** Login. The deactivation of the user's other sessions is written before
      the token steps, so it persists when a later step fails. */
  function Login(db: Db, req: LoginRequest, isEmail: string -> bool, h: Hasher, j: Jwt, client: Client,
                 rand: Randomness, now: Instant): (r: Response<LoginResult>)
    requires WellSized(rand)
    ensures !(isEmail(req.email) && req.password != "") ==> r == Response(db, Err(BadRequest("Validation failed")))
    ensures isEmail(req.email) && req.password != "" && !CredentialsValid(db, req, h) ==>
      r == Response(db, Err(Unauthorized("Invalid credentials")))
    ensures r.result.Ok? ==>
      && isEmail(req.email) && req.password != "" && CredentialsValid(db, req, h)
      && var uid := FindUserByEmail(db.users, req.email).value;
         var tokenId := RefreshTokenId(rand.idBytes);
         && !TokenIdTaken(db.sessions, tokenId)
         && r.result.value.userId == uid
         && r.result.value.sessionId == |db.sessions| + 1
         && r.result.value.accessToken == j.sign(AccessClaims(uid, db.users[uid - 1].email, tokenId, now))
         && RefreshToken(rand.tokenBytes) == Ok(r.result.value.refreshToken)
         && h.hash(r.result.value.refreshToken).Some?
         && r.db == db.(sessions := DeactivateAll(db.sessions, uid, "New session started", now)
                                    + [NewSession(uid, req.deviceInfo, client, h.hash(r.result.value.refreshToken).value,
                                                  tokenId, now)])
    ensures (&& isEmail(req.email) && req.password != "" && CredentialsValid(db, req, h)
             && RefreshToken(rand.tokenBytes).Ok? && h.hash(RefreshToken(rand.tokenBytes).value).Some?
             && !TokenIdTaken(db.sessions, RefreshTokenId(rand.idBytes)))
            ==> r.result.Ok?
    ensures isEmail(req.email) && req.password != "" && CredentialsValid(db, req, h) && r.result.Err? ==>
      && r.result.error.Internal?
      && r.db == db.(sessions := DeactivateAll(db.sessions, FindUserByEmail(db.users, req.email).value,
                                               "New session started", now))
    ensures r.db.users == db.users && r == Response(r.db, r.result)
    ensures r.db == db.(sessions := r.db.sessions)
  {
    if !(isEmail(req.email) && req.password != "") then Response(db, Err(BadRequest("Validation failed")))
    else
      match FindUserByEmail(db.users, req.email)
      case None => Response(db, Err(Unauthorized("Invalid credentials")))
      case Some(uid) =>
        var user := db.users[uid - 1];
        if !h.verify(req.password, user.passwordHash) then Response(db, Err(Unauthorized("Invalid credentials")))
        else
          DeactivateAllKeepsTokenIds(db.sessions, uid, "New session started", now, RefreshTokenId(rand.idBytes));
          var db1 := db.(sessions := DeactivateAll(db.sessions, uid, "New session started", now));
          var tokenId := RefreshTokenId(rand.idBytes);
          var access := j.sign(AccessClaims(uid, user.email, tokenId, now));
          match RefreshToken(rand.tokenBytes)
          case Err(_) => Response(db1, Err(Internal("Could not generate refresh token")))
          case Ok(token) =>
            match h.hash(token)
            case None => Response(db1, Err(Internal("Could not hash refresh token")))
            case Some(digest) =>
              match InsertSession(db1, NewSession(uid, req.deviceInfo, client, digest, tokenId, now))
              case None => Response(db1, Err(Internal("Could not create device session")))
              case Some(db2) => Response(db2, Ok(LoginResult(access, token, |db.sessions| + 1, uid)))
  }

  /** Ending every session of a user and then appending one of theirs leaves
      that appended session as the user's only active one. */
  lemma AppendedIsOnlyActive(sessions: seq<DeviceSession>, uid: nat, reason: string, now: Instant, s: DeviceSession)
    requires ActiveFor(s, uid)
    ensures var all := DeactivateAll(sessions, uid, reason, now) + [s];
      && (forall i :: 0 <= i < |all| ==> (ActiveFor(all[i], uid) <==> i == |sessions|))
      && ActiveSessionCount(all, uid) == 1
  {
    var ended := DeactivateAll(sessions, uid, reason, now);
    ActiveSessionCountZero(ended, uid);
    ActiveSessionCountAppend(ended, s, uid);
  }

  /** After a successful login the user has exactly one active session, the
      new one. */
  lemma LoginLeavesOneActiveSession(db: Db, req: LoginRequest, isEmail: string -> bool, h: Hasher, j: Jwt,
                                    client: Client, rand: Randomness, now: Instant)
    requires WellSized(rand)
    requires Login(db, req, isEmail, h, j, client, rand, now).result.Ok?
    ensures var r := Login(db, req, isEmail, h, j, client, rand, now);
      var uid := r.result.value.userId;
      && (forall i :: 0 <= i < |r.db.sessions| ==> (ActiveFor(r.db.sessions[i], uid) <==> i == |db.sessions|))
      && ActiveSessionCount(r.db.sessions, uid) == 1
  {
    var r := Login(db, req, isEmail, h, j, client, rand, now);
    var uid := r.result.value.userId;
    AppendedIsOnlyActive(db.sessions, uid, "New session started", now, r.db.sessions[|db.sessions|]);
  }

  /** Login leaves other users' sessions untouched, and under a sound hasher
      the new session's digest verifies the returned refresh token. */
  lemma LoginTouchesOnlyItsUser(db: Db, req: LoginRequest, isEmail: string -> bool, h: Hasher, j: Jwt,
                                client: Client, rand: Randomness, now: Instant)
    requires WellSized(rand)
    requires Login(db, req, isEmail, h, j, client, rand, now).result.Ok?
    ensures var r := Login(db, req, isEmail, h, j, client, rand, now);
      forall i :: 0 <= i < |db.sessions| && db.sessions[i].userId != r.result.value.userId ==>
        r.db.sessions[i] == db.sessions[i]
    ensures var r := Login(db, req, isEmail, h, j, client, rand, now);
      HasherSound(h) ==> h.verify(r.result.value.refreshToken, r.db.sessions[|db.sessions|].refreshTokenHash)
  {
  }

  /** The two credential failures are indistinguishable: an unknown email and
      a wrong password give the same answer and write nothing. */
  lemma BadCredentialsLookAlike(db: Db, req: LoginRequest, isEmail: string -> bool, h: Hasher, j: Jwt,
                                client: Client, rand: Randomness, now: Instant)
    requires WellSized(rand)
    requires isEmail(req.email) && req.password != ""
    requires !EmailTaken(db.users, req.email)
             || (exists i :: 0 <= i < |db.users| && db.users[i].email == req.email
                             && !h.verify(req.password, db.users[i].passwordHash))
    requires EmailsUnique(db.users)
    ensures Login(db, req, isEmail, h, j, client, rand, now) == Response(db, Err(Unauthorized("Invalid credentials")))
  {
    var id := FindUserByEmail(db.users, req.email);
    if id.Some? {
      var i :| 0 <= i < |db.users| && db.users[i].email == req.email && !h.verify(req.password, db.users[i].passwordHash);
      assert i == id.value - 1;
    }
  }

  // ---------------------------------------------------------------------------
  // Refresh

  /** The first active session, in scan order, whose digest verifies the token. */
  function FirstVerified(sessions: seq<DeviceSession>, token: string, h: Hasher): (r: Option<nat>)
    ensures r.Some? ==>
      && r.value < |sessions| && sessions[r.value].isActive && h.verify(token, sessions[r.value].refreshTokenHash)
      && forall k :: 0 <= k < r.value ==> !(sessions[k].isActive && h.verify(token, sessions[k].refreshTokenHash))
    ensures r.None? <==>
      forall k :: 0 <= k < |sessions| ==> !(sessions[k].isActive && h.verify(token, sessions[k].refreshTokenHash))
    decreases |sessions|
  {
    if |sessions| == 0 then None
    else if sessions[0].isActive && h.verify(token, sessions[0].refreshTokenHash) then Some(0)
    else
      match FirstVerified(sessions[1..], token, h)
      case None =>
        assert forall k :: 1 <= k < |sessions| ==> sessions[k] == sessions[1..][k - 1];
        None
      case Some(i) =>
        assert forall k :: 1 <= k < i + 1 ==> sessions[k] == sessions[1..][k - 1];
        Some(i + 1)
  }

  datatype RefreshResult = RefreshResult(accessToken: string, refreshToken: string)

  /** The preloaded owner of a session: its id and email, or the zero user
      (id 0, empty email) when the owner row is missing. */
  function OwnerOf(db: Db, s: DeviceSession): (r: (nat, string))
    ensures IsId(s.userId, |db.users|) ==> r == (s.userId, db.users[s.userId - 1].email)
    ensures !IsId(s.userId, |db.users|) ==> r == (0, "")
  {
    if IsId(s.userId, |db.users|) then (s.userId, db.users[s.userId - 1].email) else (0, "")
  }

  /** Refresh: rotate the matched session's refresh token and issue a new
      access token for the same token id. */
  function Refresh(db: Db, token: string, h: Hasher, j: Jwt, tokenBytes: Option<seq<Byte>>, now: Instant)
    : (r: Response<RefreshResult>)
    requires tokenBytes.Some? ==> |tokenBytes.value| == 32
    ensures r.result.Err? ==> r.db == db
    ensures token == "" ==> r.result == Err(BadRequest("Validation failed"))
    ensures token != "" && FirstVerified(db.sessions, token, h).None? ==>
      r.result == Err(Unauthorized("Invalid refresh token"))
    ensures (&& token != "" && FirstVerified(db.sessions, token, h).Some?
             && RefreshToken(tokenBytes).Ok? && h.hash(RefreshToken(tokenBytes).value).Some?)
            ==> r.result.Ok?
    ensures token != "" && FirstVerified(db.sessions, token, h).Some? && r.result.Err? ==> r.result.error.Internal?
    ensures r.result.Ok? ==>
      && token != "" && FirstVerified(db.sessions, token, h).Some?
      && var i := FirstVerified(db.sessions, token, h).value;
         var s := db.sessions[i];
         var owner := OwnerOf(db, s);
         && r.result.value.accessToken == j.sign(AccessClaims(owner.0, owner.1, s.refreshTokenId, now))
         && RefreshToken(tokenBytes) == Ok(r.result.value.refreshToken)
         && h.hash(r.result.value.refreshToken).Some?
         && r.db == db.(sessions := db.sessions[i := s.(refreshTokenHash := h.hash(r.result.value.refreshToken).value,
                                                        lastActivity := now)])
  {
    if token == "" then Response(db, Err(BadRequest("Validation failed")))
    else
      match FirstVerified(db.sessions, token, h)
      case None => Response(db, Err(Unauthorized("Invalid refresh token")))
      case Some(i) =>
        var s := db.sessions[i];
        var owner := OwnerOf(db, s);
        var access := j.sign(AccessClaims(owner.0, owner.1, s.refreshTokenId, now));
        match RefreshToken(tokenBytes)
        case Err(_) => Response(db, Err(Internal("Could not generate refresh token")))
        case Ok(rotated) =>
          match h.hash(rotated)
          case None => Response(db, Err(Internal("Could not hash refresh token")))
          case Some(digest) =>
            Response(db.(sessions := db.sessions[i := s.(refreshTokenHash := digest, lastActivity := now)]),
                     Ok(RefreshResult(access, rotated)))
  }

  /** Refresh changes only the matched session's digest and last activity:
      its token id, owner and active flag stay, so access tokens issued for
      the login keep naming it; and under a sound hasher the new refresh
      token verifies against the stored digest. */
  lemma RefreshRotatesOnlyTheHash(db: Db, token: string, h: Hasher, j: Jwt, tokenBytes: Option<seq<Byte>>,
                                  now: Instant)
    requires tokenBytes.Some? ==> |tokenBytes.value| == 32
    requires Refresh(db, token, h, j, tokenBytes, now).result.Ok?
    ensures var r := Refresh(db, token, h, j, tokenBytes, now);
      var i := FirstVerified(db.sessions, token, h).value;
      && |r.db.sessions| == |db.sessions|
      && r.db.sessions[i].(refreshTokenHash := db.sessions[i].refreshTokenHash,
                           lastActivity := db.sessions[i].lastActivity) == db.sessions[i]
      && r.db.sessions[i].isActive && r.db.sessions[i].refreshTokenId == db.sessions[i].refreshTokenId
      && (forall k :: 0 <= k < |db.sessions| && k != i ==> r.db.sessions[k] == db.sessions[k])
      && (HasherSound(h) ==> h.verify(r.result.value.refreshToken, r.db.sessions[i].refreshTokenHash))
  {
  }
}

=== FILE: auth_middleware.dfy ===
/** The authentication gate in front of every protected route, and its
    optional variant. The `Authorization` header is split on single spaces
    like Go's `strings.Split`; the gate then checks the access token's claims
    and the device session it names. */
module AuthMiddleware {
  import opened Common
  import opened Calendar
  import opened Tokens
  import opened Sessions
  import opened Store

  // ---------------------------------------------------------------------------
  // Splitting on a separator character

  /** The pieces between the separators, empty pieces included; the empty
      string gives one empty piece. */
  function Split(s: string, sep: char): (r: seq<string>)
    ensures |r| >= 1
    ensures forall k :: 0 <= k < |r| ==> sep !in r[k]
    ensures Join(r, sep) == s
    decreases |s|
  {
    if |s| == 0 then [""]
    else if s[0] == sep then [""] + Split(s[1..], sep)
    else
      var rest := Split(s[1..], sep);
      assert Join(rest, sep) == s[1..];
      JoinHead(rest, sep, s[0]);
      [[s[0]] + rest[0]] + rest[1..]
  }

  /** The pieces glued back together with the separator between them. */
  function Join(pieces: seq<string>, sep: char): string
    requires |pieces| >= 1
    decreases |pieces|
  {
    if |pieces| == 1 then pieces[0] else pieces[0] + [sep] + Join(pieces[1..], sep)
  }

  lemma JoinHead(pieces: seq<string>, sep: char, c: char)
    requires |pieces| >= 1
    ensures Join([[c] + pieces[0]] + pieces[1..], sep) == [c] + Join(pieces, sep)
  {
    var q := [[c] + pieces[0]] + pieces[1..];
    assert q[1..] == pieces[1..];
  }

  /** A text without the separator is a single piece. */
  lemma {:induction false} SplitWithoutSeparator(t: string, sep: char)
    requires sep !in t
    ensures Split(t, sep) == [t]
    decreases |t|
  {
    if |t| > 0 {
      assert sep !in t[1..];
      SplitWithoutSeparator(t[1..], sep);
      assert [t[0]] + t[1..] == t;
    }
  }

  /** A separator-free prefix followed by the separator is the first piece. */
  lemma {:induction false} SplitAfterPiece(p: string, sep: char, t: string)
    requires sep !in p
    ensures Split(p + [sep] + t, sep) == [p] + Split(t, sep)
    decreases |p|
  {
    var s := p + [sep] + t;
    if |p| == 0 {
      assert s[1..] == t;
    } else {
      assert s[0] == p[0] && s[1..] == p[1..] + [sep] + t;
      assert sep !in p[1..];
      SplitAfterPiece(p[1..], sep, t);
      assert [p[0]] + p[1..] == p;
    }
  }

  // ---------------------------------------------------------------------------
  // The bearer scheme

  /** The token of a `Bearer <token>` header: exactly two pieces, the first
      of them `Bearer`. */
  function BearerToken(header: string): (r: Option<string>)
    ensures r.Some? ==> ' ' !in r.value
  {
    var parts := Split(header, ' ');
    if |parts| == 2 && parts[0] == "Bearer" then Some(parts[1]) else None
  }

  /** The accepted headers are exactly `Bearer`, one space, and a token with
      no space in it (possibly empty): stricter than the `b64token` syntax of
      section 2.1 of RFC 6750, which allows any run of spaces. */
  lemma BearerTokenExact(header: string, t: string)
    ensures BearerToken(header) == Some(t) <==> (header == "Bearer " + t && ' ' !in t)
  {
    if BearerToken(header) == Some(t) {
      var parts := Split(header, ' ');
      assert parts == ["Bearer", t];
      assert Join(parts, ' ') == "Bearer" + " " + Join(parts[1..], ' ');
      assert parts[1..] == [t];
    }
    if header == "Bearer " + t && ' ' !in t {
      assert header == "Bearer" + [' '] + t;
      SplitAfterPiece("Bearer", ' ', t);
      SplitWithoutSeparator(t, ' ');
    }
  }

  /** The empty header has no token. */
  lemma EmptyHeaderHasNoToken()
    ensures BearerToken("") == None
  {
    assert Split("", ' ') == [""];
  }

  // ---------------------------------------------------------------------------
  // RequireAuth

  /** What the gate hands to the handler. */
  datatype AuthContext = AuthContext(userId: nat, sessionId: nat)

  /** The first active session whose token id is the claim (the claim must be
      a string to equal a stored id). */
  function ActiveSessionByTokenId(sessions: seq<DeviceSession>, claim: Json): (r: Option<nat>)
    ensures r.Some? ==>
      && r.value < |sessions| && sessions[r.value].isActive && claim == JString(sessions[r.value].refreshTokenId)
      && forall k :: 0 <= k < r.value ==> !(sessions[k].isActive && claim == JString(sessions[k].refreshTokenId))
    ensures r.None? <==>
      forall k :: 0 <= k < |sessions| ==> !(sessions[k].isActive && claim == JString(sessions[k].refreshTokenId))
    decreases |sessions|
  {
    if |sessions| == 0 then None
    else if sessions[0].isActive && claim == JString(sessions[0].refreshTokenId) then Some(0)
    else
      match ActiveSessionByTokenId(sessions[1..], claim)
      case None =>
        assert forall k :: 1 <= k < |sessions| ==> sessions[k] == sessions[1..][k - 1];
        None
      case Some(i) =>
        assert forall k :: 1 <= k < i + 1 ==> sessions[k] == sessions[1..][k - 1];
        Some(i + 1)
  }

  /** The claims the gate reads from a parsed token. */
  predicate ClaimsShaped(c: Claims) {
    && "type" in c && c["type"] == JString("access")
    && "user_id" in c && "refresh_token_id" in c
  }

  /** The gate's checks on a parsed token: type, claims, the bound session
      and its owner. On success the session's last activity becomes `now`. */
  function Admit(db: Db, c: Claims, now: Instant): (r: Response<AuthContext>)
    ensures r.result.Err? ==> r.db == db
    ensures r.result == Err(Panic("interface conversion: user_id is not a float64")) ==>
      ClaimsShaped(c) && !c["user_id"].JNumber?
    ensures ClaimsShaped(c) && c["user_id"].JNumber? && ActiveSessionByTokenId(db.sessions, c["refresh_token_id"]).None? ==>
      r.result == Err(Unauthorized("Token has been revoked"))
    ensures r.result.Ok? ==> ClaimsShaped(c) && c["user_id"] == JNumber(r.result.value.userId)
    ensures r.result.Ok? ==>
      var found := ActiveSessionByTokenId(db.sessions, c["refresh_token_id"]);
      && found.Some? && r.result.value.sessionId == found.value + 1
      && db.sessions[found.value].userId == r.result.value.userId && IsId(r.result.value.userId, |db.users|)
      && r.db == db.(sessions := db.sessions[found.value := db.sessions[found.value].(lastActivity := now)])
  {
    if !("type" in c && c["type"] == JString("access")) then Response(db, Err(Unauthorized("Invalid token type")))
    else if "user_id" !in c || "refresh_token_id" !in c then Response(db, Err(Unauthorized("Invalid token claims")))
    else if !c["user_id"].JNumber? then Response(db, Err(Panic("interface conversion: user_id is not a float64")))
    else
      var userId := c["user_id"].n;
      match ActiveSessionByTokenId(db.sessions, c["refresh_token_id"])
      case None => Response(db, Err(Unauthorized("Token has been revoked")))
      case Some(i) =>
        var s := db.sessions[i];
        if s.userId != userId then Response(db, Err(Unauthorized("Invalid token")))
        else if !IsId(s.userId, |db.users|) then Response(db, Err(Unauthorized("User not found")))
        else Response(db.(sessions := db.sessions[i := s.(lastActivity := now)]), Ok(AuthContext(s.userId, i + 1)))
  }

  /** The token a request carries, parsed at the request's Unix time. */
  function Presented(header: string, j: Jwt, now: Instant): (r: Option<Claims>)
    ensures r.Some? <==> BearerToken(header).Some? && j.parse(BearerToken(header).value, EpochSeconds(now)).Some?
    ensures r.Some? ==> r.value == j.parse(BearerToken(header).value, EpochSeconds(now)).value
  {
    match BearerToken(header)
    case None => None
    case Some(token) => j.parse(token, EpochSeconds(now))
  }

  /** The gate: a bearer header, a token that parses and is unexpired, then
      the checks of `Admit`. */
  function RequireAuth(db: Db, header: string, j: Jwt, now: Instant): (r: Response<AuthContext>)
    ensures r.result.Err? ==> r.db == db
    ensures header == "" ==> r.result == Err(Unauthorized("Authorization header required"))
    ensures header != "" && BearerToken(header).None? ==>
      r.result == Err(Unauthorized("Invalid authorization format. Use: Bearer <token>"))
    ensures BearerToken(header).Some? && Presented(header, j, now).None? ==>
      r.result == Err(Unauthorized("Invalid or expired token"))
    ensures r.result.Ok? ==> Presented(header, j, now).Some?
    ensures Presented(header, j, now).Some? ==> r == Admit(db, Presented(header, j, now).value, now)
  {
    if header == "" then
      EmptyHeaderHasNoToken();
      Response(db, Err(Unauthorized("Authorization header required")))
    else
      match BearerToken(header)
      case None => Response(db, Err(Unauthorized("Invalid authorization format. Use: Bearer <token>")))
      case Some(token) =>
        match j.parse(token, EpochSeconds(now))
        case None => Response(db, Err(Unauthorized("Invalid or expired token")))
        case Some(c) => Admit(db, c, now)
  }

  /** Whatever the token, the gate rejects unless some active session carries
      the token's refresh-token id and belongs to the claimed user. */
  lemma RequireAuthNeedsLiveSession(db: Db, header: string, j: Jwt, now: Instant)
    requires RequireAuth(db, header, j, now).result.Ok?
    ensures var ctx := RequireAuth(db, header, j, now).result.value;
      var c := Presented(header, j, now).value;
      exists i :: 0 <= i < |db.sessions| && db.sessions[i].isActive && db.sessions[i].userId == ctx.userId
                  && c["refresh_token_id"] == JString(db.sessions[i].refreshTokenId)
  {
    var ctx := RequireAuth(db, header, j, now).result.value;
    assert db.sessions[ctx.sessionId - 1].isActive;
  }

  /** A token whose refresh-token id no active session carries is refused as
      revoked, whatever else it claims. */
  lemma RevokedTokenRefused(db: Db, header: string, j: Jwt, now: Instant)
    requires Presented(header, j, now).Some?
    requires var c := Presented(header, j, now).value;
      ClaimsShaped(c) && c["user_id"].JNumber?
      && forall k :: 0 <= k < |db.sessions| ==> !(db.sessions[k].isActive && c["refresh_token_id"] == JString(db.sessions[k].refreshTokenId))
    ensures RequireAuth(db, header, j, now) == Response(db, Err(Unauthorized("Token has been revoked")))
  {
    EmptyHeaderHasNoToken();
  }

  /** Tokens the service signs compactly: no space in the rendering (the
      JWS compact serialization, section 7.1 of RFC 7515, uses only base64url
      characters and dots). */
  ghost predicate JwtCompact(j: Jwt) {
    forall c: Claims :: ' ' !in j.sign(c)
  }

  /** An access token issued for an active session of an existing user passes
      the gate while unexpired, naming that user and that session. */
  lemma IssuedTokenPassesRequireAuth(db: Db, j: Jwt, sessionId: nat, email: string, issued: Instant, now: Instant)
    requires JwtSound(j) && JwtCompact(j) && TokenIdsUnique(db.sessions)
    requires IsId(sessionId, |db.sessions|) && db.sessions[sessionId - 1].isActive
    requires IsId(db.sessions[sessionId - 1].userId, |db.users|)
    requires EpochSeconds(now) < EpochSeconds(issued) + AccessTokenLifetime
    ensures var s := db.sessions[sessionId - 1];
      var header := "Bearer " + j.sign(AccessClaims(s.userId, email, s.refreshTokenId, issued));
      RequireAuth(db, header, j, now).result == Ok(AuthContext(s.userId, sessionId))
  {
    var s := db.sessions[sessionId - 1];
    var c := AccessClaims(s.userId, email, s.refreshTokenId, issued);
    var token := j.sign(c);
    BearerTokenExact("Bearer " + token, token);
    AccessClaimsExpiry(s.userId, email, s.refreshTokenId, issued, EpochSeconds(now));
    assert j.parse(token, EpochSeconds(now)) == Some(c);
    var found := ActiveSessionByTokenId(db.sessions, c["refresh_token_id"]);
    assert found.Some?;
    assert found.value == sessionId - 1;
  }

  // ---------------------------------------------------------------------------
  // OptionalAuth

  /** The optional gate never refuses: it yields the claimed user id when the
      header carries a token that parses and has a `user_id` claim, and
      nothing otherwise. It checks neither the token type nor the session.
      A non-numeric `user_id` still aborts the request. */
  function OptionalAuth(header: string, j: Jwt, now: Instant): (r: Result<Option<int>>)
    ensures r.Err? ==> r.error.Panic?
    ensures r.Ok? && r.value.Some? <==>
      (Presented(header, j, now).Some? && "user_id" in Presented(header, j, now).value
       && Presented(header, j, now).value["user_id"].JNumber?)
    ensures r.Ok? && r.value.Some? ==> JNumber(r.value.value) == Presented(header, j, now).value["user_id"]
    ensures r.Err? ==>
      (Presented(header, j, now).Some? && "user_id" in Presented(header, j, now).value
       && !Presented(header, j, now).value["user_id"].JNumber?)
  {
    if header == "" then
      EmptyHeaderHasNoToken();
      Ok(None)
    else
      match BearerToken(header)
      case None => Ok(None)
      case Some(token) =>
        match j.parse(token, EpochSeconds(now))
        case None => Ok(None)
        case Some(c) =>
          if "user_id" !in c then Ok(None)
          else if !c["user_id"].JNumber? then Err(Panic("interface conversion: user_id is not a float64"))
          else Ok(Some(c["user_id"].n))
  }

  /** Whatever the gate accepts, the optional gate accepts for the same user;
      the converse fails, as a revoked session shows. */
  lemma RequireAuthImpliesOptional(db: Db, header: string, j: Jwt, now: Instant)
    requires RequireAuth(db, header, j, now).result.Ok?
    ensures OptionalAuth(header, j, now) == Ok(Some(RequireAuth(db, header, j, now).result.value.userId))
  {
  }

  /** A token whose session was revoked still yields its user to the optional gate. */
  lemma OptionalAuthIgnoresRevocation(db: Db, header: string, j: Jwt, now: Instant)
    requires RequireAuth(db, header, j, now).result == Err(Unauthorized("Token has been revoked"))
    ensures OptionalAuth(header, j, now).Ok? && OptionalAuth(header, j, now).value.Some?
  {
  }
}

=== FILE: calendar.dfy ===
/** Civil UTC time with the proleptic Gregorian calendar, and the
    month/day overflow normalisation that Go's `time.Date` (and therefore
    `Time.AddDate`) applies. Time zones, leap seconds and sub-second precision
    are not modelled: an instant is a calendar date plus a second of the day. */
module Calendar {

  const SecondsPerDay: int := 86400

  predicate IsLeapYear(y: int) {
    y % 4 == 0 && (y % 100 != 0 || y % 400 == 0)
  }

  function YearLength(y: int): int {
    if IsLeapYear(y) then 366 else 365
  }

  function DaysIn(y: int, m: int): (n: int)
    requires 1 <= m <= 12
    ensures 28 <= n <= 31
  {
    if m == 2 then (if IsLeapYear(y) then 29 else 28)
    else if m == 4 || m == 6 || m == 9 || m == 11 then 30
    else 31
  }

  datatype DateTime = DateTime(year: int, month: int, day: int, second: int)

  predicate ValidDateTime(t: DateTime) {
    && 1 <= t.month <= 12
    && 1 <= t.day <= DaysIn(t.year, t.month)
    && 0 <= t.second < SecondsPerDay
  }

  /** A point in time: a valid calendar date and a second of that day (UTC). */
  type Instant = t: DateTime | ValidDateTime(t) witness DateTime(1970, 1, 1, 0)

  /** Go's zero `time.Time`, January 1st of year 1 at midnight UTC: what a
      date missing from a request body decodes to, and what a `required`
      validator tag rejects. */
  const ZeroTime: Instant := DateTime(1, 1, 1, 0)

  /** Number of leap years strictly before year `y`, counted from a fixed
      origin; only differences of this function are meaningful. */
  function LeapsBefore(y: int): int {
    (y - 1) / 4 - (y - 1) / 100 + (y - 1) / 400
  }

  /** Days from 1970-01-01 to January 1st of `y` (negative before 1970). */
  function DaysBeforeYear(y: int): int {
    365 * (y - 1970) + LeapsBefore(y) - LeapsBefore(1970)
  }

  /** Days from January 1st of `y` to the first of month `m`. */
  function DaysBeforeMonth(y: int, m: int): int
    requires 1 <= m <= 12
  {
    var common :=
      if m == 1 then 0 else if m == 2 then 31 else if m == 3 then 59
      else if m == 4 then 90 else if m == 5 then 120 else if m == 6 then 151
      else if m == 7 then 181 else if m == 8 then 212 else if m == 9 then 243
      else if m == 10 then 273 else if m == 11 then 304 else 334;
    if m > 2 && IsLeapYear(y) then common + 1 else common
  }

  /** Days since 1970-01-01 of the date (y, m, d); `d` may lie outside the
      month, which is how Go's `time.Date` lets days overflow. */
  function DayNumber(y: int, m: int, d: int): int
    requires 1 <= m <= 12
  {
    DaysBeforeYear(y) + DaysBeforeMonth(y, m) + d - 1
  }

  /** Go's `time.Date(y, m, d, ...)` day count: the month is first brought
      into 1..12 by carrying whole years (floor division), then the day
      offset is added to the first of that month. */
  function GoDayNumber(y: int, m: int, d: int): int {
    var m0 := m - 1;
    DayNumber(y + m0 / 12, m0 % 12 + 1, d)
  }

  function EpochDay(t: Instant): int {
    DayNumber(t.year, t.month, t.day)
  }

  /** Seconds since the Unix epoch (section 4.1.4 of RFC 7519 uses this scale). */
  function EpochSeconds(t: Instant): int {
    EpochDay(t) * SecondsPerDay + t.second
  }

  /** Go's `a.After(b)`. */
  predicate After(a: Instant, b: Instant) {
    EpochSeconds(a) > EpochSeconds(b)
  }

  /** `a <= b` on instants, as the store compares timestamps. */
  predicate NotAfter(a: Instant, b: Instant) {
    EpochSeconds(a) <= EpochSeconds(b)
  }

  /** The calendar date (YYYY-MM-DD) of an instant. */
  function DateOf(t: Instant): (int, int, int) {
    (t.year, t.month, t.day)
  }

  // ---------------------------------------------------------------------------
  // Day-count arithmetic

  lemma FloorDivStep(x: int, k: int)
    requires k == 4 || k == 100 || k == 400
    ensures (x + 1) / k == x / k + (if (x + 1) % k == 0 then 1 else 0)
  {
    var q := x / k;
    var r := x % k;
    assert x == k * q + r;
    if r == k - 1 {
      assert x + 1 == k * (q + 1);
      assert (x + 1) % k == 0;
    } else {
      assert x + 1 == k * q + (r + 1);
      assert 0 <= r + 1 < k;
      assert (x + 1) % k != 0;
    }
  }

  lemma YearStep(y: int)
    ensures DaysBeforeYear(y + 1) == DaysBeforeYear(y) + YearLength(y)
  {
    LeapsStep(y);
  }

  /** Year `y` adds one to the leap count exactly when it is a leap year. */
  lemma LeapsStep(y: int)
    ensures LeapsBefore(y + 1) == LeapsBefore(y) + (if IsLeapYear(y) then 1 else 0)
  {
    FloorDivStep(y - 1, 4);
    FloorDivStep(y - 1, 100);
    FloorDivStep(y - 1, 400);
  }

  function NextMonth(y: int, m: int): (r: (int, int))
    requires 1 <= m <= 12
    ensures 1 <= r.1 <= 12
  {
    if m == 12 then (y + 1, 1) else (y, m + 1)
  }

  function PrevMonth(y: int, m: int): (r: (int, int))
    requires 1 <= m <= 12
    ensures 1 <= r.1 <= 12
  {
    if m == 1 then (y - 1, 12) else (y, m - 1)
  }

  /** The first of the next month lies exactly one month length later. */
  lemma MonthStep(y: int, m: int)
    requires 1 <= m <= 12
    ensures DayNumber(NextMonth(y, m).0, NextMonth(y, m).1, 1) == DayNumber(y, m, 1) + DaysIn(y, m)
  {
    if m == 12 {
      YearStep(y);
    }
  }

  /** Brings a day `d >= 1` of month (y, m) into range by carrying whole months. */
  function NormalizeForward(y: int, m: int, d: int): (r: DateTime)
    requires 1 <= m <= 12 && d >= 1
    ensures ValidDateTime(r) && r.second == 0
    ensures DayNumber(r.year, r.month, r.day) == DayNumber(y, m, d)
    decreases d
  {
    if d <= DaysIn(y, m) then DateTime(y, m, d, 0)
    else
      var next := NextMonth(y, m);
      MonthStep(y, m);
      NormalizeForward(next.0, next.1, d - DaysIn(y, m))
  }

  /** Brings any day offset `d` of month (y, m) into range (Go's overflow rule). */
  function NormalizeDay(y: int, m: int, d: int): (r: DateTime)
    requires 1 <= m <= 12
    ensures ValidDateTime(r) && r.second == 0
    ensures DayNumber(r.year, r.month, r.day) == DayNumber(y, m, d)
    decreases if d < 1 then 1 - d else 0
  {
    if d >= 1 then NormalizeForward(y, m, d)
    else
      var prev := PrevMonth(y, m);
      MonthStep(prev.0, prev.1);
      NormalizeDay(prev.0, prev.1, d + DaysIn(prev.0, prev.1))
  }

  /** Go's `time.Date(y, m, d, 0, 0, 0, 0, time.UTC)`: any month and day
      overflow is carried into a valid date. */
  function GoDate(y: int, m: int, d: int): (r: DateTime)
    ensures ValidDateTime(r) && r.second == 0
    ensures DayNumber(r.year, r.month, r.day) == GoDayNumber(y, m, d)
  {
    var m0 := m - 1;
    NormalizeDay(y + m0 / 12, m0 % 12 + 1, d)
  }

  /** Go's `t.AddDate(years, months, days)` in UTC: the fields are added,
      the result is normalised as `time.Date` does, and the clock is kept. */
  function AddDate(t: Instant, years: int, months: int, days: int): (r: Instant)
    ensures r.second == t.second
    ensures EpochDay(r) == GoDayNumber(t.year + years, t.month + months, t.day + days)
  {
    var n := GoDate(t.year + years, t.month + months, t.day + days);
    DateTime(n.year, n.month, n.day, t.second)
  }

  // ---------------------------------------------------------------------------
  // Properties of AddDate

  /** Adding days is exact arithmetic on the time line: k days are k * 86400 seconds. */
  lemma AddDaysIsLinear(t: Instant, k: int)
    ensures EpochSeconds(AddDate(t, 0, 0, k)) == EpochSeconds(t) + k * SecondsPerDay
  {
    var r := AddDate(t, 0, 0, k);
    assert (t.month - 1) / 12 == 0 && (t.month - 1) % 12 + 1 == t.month;
    assert EpochDay(r) == EpochDay(t) + k;
  }

  /** Adding one month lands strictly later, whatever overflow happens. */
  lemma AddMonthIsLater(t: Instant)
    ensures EpochSeconds(AddDate(t, 0, 1, 0)) > EpochSeconds(t)
  {
    var r := AddDate(t, 0, 1, 0);
    var next := NextMonth(t.year, t.month);
    MonthStep(t.year, t.month);
    if t.month == 12 {
      assert (t.month - 1 + 1) / 12 == 1 && (t.month - 1 + 1) % 12 + 1 == 1;
    } else {
      assert (t.month - 1 + 1) / 12 == 0 && (t.month - 1 + 1) % 12 + 1 == t.month + 1;
    }
    assert EpochDay(r) == DayNumber(next.0, next.1, t.day);
    assert EpochDay(r) == EpochDay(t) + DaysIn(t.year, t.month);
  }

  /** Adding one year lands strictly later, whatever overflow happens. */
  lemma AddYearIsLater(t: Instant)
    ensures EpochSeconds(AddDate(t, 1, 0, 0)) > EpochSeconds(t)
  {
    AddYearDay(t);
    YearStep(t.year);
    MonthTableShift(t.year, t.year + 1, t.month);
    assert DayNumber(t.year + 1, t.month, t.day) >= DayNumber(t.year, t.month, t.day) + 364;
  }

  /** Adding a year keeps month and day before normalisation. */
  lemma AddYearDay(t: Instant)
    ensures EpochDay(AddDate(t, 1, 0, 0)) == DayNumber(t.year + 1, t.month, t.day)
  {
    GoDayNumberInRange(t.year + 1, t.month, t.day);
  }

  /** With the month already in range, Go's day count is the plain one. */
  lemma GoDayNumberInRange(y: int, m: int, d: int)
    requires 1 <= m <= 12
    ensures GoDayNumber(y, m, d) == DayNumber(y, m, d)
  {
    assert (m - 1) / 12 == 0 && (m - 1) % 12 + 1 == m;
  }

  /** The month table differs between two years by the leap day at most. */
  lemma MonthTableShift(y1: int, y2: int, m: int)
    requires 1 <= m <= 12
    ensures DaysBeforeMonth(y1, m) - 1 <= DaysBeforeMonth(y2, m) <= DaysBeforeMonth(y1, m) + 1
  {
  }

  /** 2024-01-31 plus one month is 2024-03-02 (February 31st overflows by two days). */
  lemma MonthOverflowExample()
    ensures AddDate(DateTime(2024, 1, 31, 0), 0, 1, 0) == DateTime(2024, 3, 2, 0)
  {
    assert DaysIn(2024, 2) == 29;
    assert NormalizeForward(2024, 3, 2) == DateTime(2024, 3, 2, 0);
    assert NormalizeForward(2024, 2, 31) == DateTime(2024, 3, 2, 0);
  }

  /** 2024-02-29 plus one year is 2025-03-01. */
  lemma LeapDayPlusYearExample()
    ensures AddDate(DateTime(2024, 2, 29, 0), 1, 0, 0) == DateTime(2025, 3, 1, 0)
  {
    assert DaysIn(2025, 2) == 28;
    assert NormalizeForward(2025, 3, 1) == DateTime(2025, 3, 1, 0);
    assert NormalizeForward(2025, 2, 29) == DateTime(2025, 3, 1, 0);
  }

  // ---------------------------------------------------------------------------
  // The time line is faithful to the calendar order

  predicate DateBefore(a: Instant, b: Instant) {
    a.year < b.year || (a.year == b.year && (a.month < b.month || (a.month == b.month && a.day < b.day)))
  }

  lemma MonthTableStep(y: int, m: int)
    requires 1 <= m < 12
    ensures DaysBeforeMonth(y, m + 1) == DaysBeforeMonth(y, m) + DaysIn(y, m)
  {
  }

  lemma {:induction false} MonthTableBound(y: int, m1: int, m2: int)
    requires 1 <= m1 < m2 <= 12
    ensures DaysBeforeMonth(y, m2) >= DaysBeforeMonth(y, m1) + DaysIn(y, m1)
    decreases m2 - m1
  {
    MonthTableStep(y, m1);
    if m1 + 1 < m2 {
      MonthTableBound(y, m1 + 1, m2);
    }
  }

  lemma {:induction false} YearBound(y1: int, y2: int)
    requires y1 < y2
    ensures DaysBeforeYear(y2) >= DaysBeforeYear(y1) + YearLength(y1)
    decreases y2 - y1
  {
    YearStep(y1);
    if y1 + 1 < y2 {
      YearBound(y1 + 1, y2);
    }
  }

  /** A calendar-earlier date has a smaller day number. */
  lemma DayNumberMonotone(a: Instant, b: Instant)
    requires DateBefore(a, b)
    ensures EpochDay(a) < EpochDay(b)
  {
    if a.year < b.year {
      YearBound(a.year, b.year);
      if a.month < 12 {
        MonthTableBound(a.year, a.month, 12);
      }
      assert DaysBeforeMonth(a.year, 12) + 31 == YearLength(a.year);
    } else if a.month < b.month {
      MonthTableBound(a.year, a.month, b.month);
    }
  }

  /** Distinct instants have distinct epoch seconds. */
  lemma EpochSecondsInjective(a: Instant, b: Instant)
    requires EpochSeconds(a) == EpochSeconds(b)
    ensures a == b
  {
    if DateBefore(a, b) {
      DayNumberMonotone(a, b);
    } else if DateBefore(b, a) {
      DayNumberMonotone(b, a);
    }
  }
}

=== FILE: catalog.dfy ===
/** Per-owner named catalogs: accounts and categories share their shape (a
    name unique among the owner's live rows, a description, a colour and an
    icon with creation defaults, an active switch) and their create, update
    and list rules. `kind` carries what differs between the two. */
module Catalog {
  import opened Common

  datatype Entry<K> = Entry(
    userId: nat,
    name: string,
    description: string,
    color: string,
    icon: string,
    isActive: bool,
    deleted: bool,
    kind: K)

  /** Categories carry nothing beyond the common shape. */
  type Category = Entry<()>

  /** The creation defaults of the colour and the icon. */
  datatype Defaults = Defaults(color: string, icon: string)

  /** The duplicate-name probe: a live row of `userId` named `name`, other than
      row `except`. */
  predicate NameTaken<K>(rows: seq<Entry<K>>, userId: nat, name: string, except: Option<nat>) {
    exists i :: 0 <= i < |rows| && Some(i) != except && rows[i].userId == userId && rows[i].name == name && !rows[i].deleted
  }

  /** At most one live row per (owner, name). */
  predicate NamesUnique<K>(rows: seq<Entry<K>>) {
    forall i, j ::
      (0 <= i < |rows| && 0 <= j < |rows| && i != j && !rows[i].deleted && !rows[j].deleted
       && rows[i].userId == rows[j].userId) ==> rows[i].name != rows[j].name
  }

  /** Creation: rejected when the owner already has a live row of that name;
      otherwise a new active row, with empty colour and icon replaced by the
      defaults, appended at id `|rows|`. */
  function Create<K>(rows: seq<Entry<K>>, userId: nat, name: string, description: string,
                     color: string, icon: string, kind: K, defaults: Defaults): (r: Result<seq<Entry<K>>>)
    ensures r.Err? <==> NameTaken(rows, userId, name, None)
    ensures r.Ok? ==> |r.value| == |rows| + 1 && r.value[..|rows|] == rows
    ensures r.Ok? ==> var e := r.value[|rows|];
      && e.userId == userId && e.name == name && e.description == description && e.kind == kind
      && e.isActive && !e.deleted
      && e.color == (if color == "" then defaults.color else color)
      && e.icon == (if icon == "" then defaults.icon else icon)
  {
    if NameTaken(rows, userId, name, None) then Err(BadRequest("name already exists"))
    else
      var e := Entry(userId, name, description,
                     if color == "" then defaults.color else color,
                     if icon == "" then defaults.icon else icon,
                     true, false, kind);
      Ok(rows + [e])
  }

  /** The partial update of a row the caller owns: a changed non-empty name is
      checked against the owner's other live rows; description, colour and
      icon are overwritten when non-empty, the active switch when supplied;
      owner, kind and the soft-delete mark never change. */
  function Update<K>(rows: seq<Entry<K>>, id: nat, name: string, description: string,
                     color: string, icon: string, isActive: Option<bool>): (r: Result<seq<Entry<K>>>)
    requires id < |rows|
    ensures r.Err? <==> name != "" && name != rows[id].name && NameTaken(rows, rows[id].userId, name, Some(id))
    ensures r.Ok? ==> |r.value| == |rows| && forall i :: 0 <= i < |rows| && i != id ==> r.value[i] == rows[i]
    ensures r.Ok? ==> var e := r.value[id];
      && e.userId == rows[id].userId && e.kind == rows[id].kind && e.deleted == rows[id].deleted
      && e.name == OverwriteNonEmpty(rows[id].name, name)
      && e.description == OverwriteNonEmpty(rows[id].description, description)
      && e.color == OverwriteNonEmpty(rows[id].color, color)
      && e.icon == OverwriteNonEmpty(rows[id].icon, icon)
      && e.isActive == Overwrite(rows[id].isActive, isActive)
  {
    var cur := rows[id];
    if name != "" && name != cur.name && NameTaken(rows, cur.userId, name, Some(id)) then
      Err(BadRequest("name already exists"))
    else
      var e := cur.(name := OverwriteNonEmpty(cur.name, name),
                     description := OverwriteNonEmpty(cur.description, description),
                     color := OverwriteNonEmpty(cur.color, color),
                     icon := OverwriteNonEmpty(cur.icon, icon),
                     isActive := Overwrite(cur.isActive, isActive));
      Ok(rows[id := e])
  }

  /** The list query: the ids of the owner's live, active rows, in id order. */
  function ListActive<K>(rows: seq<Entry<K>>, userId: nat): (ids: seq<nat>)
    ensures forall k :: 0 <= k < |ids| ==> ids[k] < |rows|
    ensures forall i :: 0 <= i < |rows| ==>
      (i in ids <==> rows[i].userId == userId && rows[i].isActive && !rows[i].deleted)
    ensures forall a, b :: 0 <= a < b < |ids| ==> ids[a] < ids[b]
    decreases |rows|
  {
    if |rows| == 0 then []
    else
      var init := ListActive(rows[..|rows| - 1], userId);
      var last := rows[|rows| - 1];
      if last.userId == userId && last.isActive && !last.deleted then init + [|rows| - 1] else init
  }

  /** Positions turned into ids. */
  function Ids(ps: seq<nat>): (r: seq<nat>)
    ensures |r| == |ps|
    ensures forall k :: 0 <= k < |r| ==> r[k] == ps[k] + 1
    ensures forall i: nat :: i + 1 in r <==> i in ps
  {
    var r := seq(|ps|, k requires 0 <= k < |ps| => ps[k] + 1);
    forall i: nat ensures i + 1 in r <==> i in ps {
      if i in ps {
        var k :| 0 <= k < |ps| && ps[k] == i;
        assert r[k] == i + 1;
      }
    }
    r
  }

  // ---------------------------------------------------------------------------
  // Name uniqueness is an invariant of create and update

  lemma CreatePreservesUnique<K>(rows: seq<Entry<K>>, userId: nat, name: string, description: string,
                                 color: string, icon: string, kind: K, defaults: Defaults)
    requires NamesUnique(rows)
    ensures var r := Create(rows, userId, name, description, color, icon, kind, defaults);
      r.Ok? ==> NamesUnique(r.value)
  {
    var r := Create(rows, userId, name, description, color, icon, kind, defaults);
    if r.Ok? {
      var s := r.value;
      forall i, j | 0 <= i < |s| && 0 <= j < |s| && i != j && !s[i].deleted && !s[j].deleted && s[i].userId == s[j].userId
        ensures s[i].name != s[j].name
      {
        if i < |rows| && j < |rows| {
          assert s[i] == rows[i] && s[j] == rows[j];
        }
      }
    }
  }

  lemma UpdatePreservesUnique<K>(rows: seq<Entry<K>>, id: nat, name: string, description: string,
                                 color: string, icon: string, isActive: Option<bool>)
    requires id < |rows| && NamesUnique(rows)
    ensures var r := Update(rows, id, name, description, color, icon, isActive);
      r.Ok? ==> NamesUnique(r.value)
  {
    var r := Update(rows, id, name, description, color, icon, isActive);
    if r.Ok? {
      var s := r.value;
      forall i, j | 0 <= i < |s| && 0 <= j < |s| && i != j && !s[i].deleted && !s[j].deleted && s[i].userId == s[j].userId
        ensures s[i].name != s[j].name
      {
        if i != id && j != id {
          assert s[i] == rows[i] && s[j] == rows[j];
        }
      }
    }
  }

  /** The soft delete of a row: only its mark changes. */
  function SoftDelete<K>(rows: seq<Entry<K>>, pos: nat): (r: seq<Entry<K>>)
    requires pos < |rows|
    ensures |r| == |rows| && r[pos].deleted
    ensures forall i :: 0 <= i < |rows| && i != pos ==> r[i] == rows[i]
    ensures r[pos].(deleted := rows[pos].deleted) == rows[pos]
  {
    rows[pos := rows[pos].(deleted := true)]
  }

  /** Deleting frees the name: afterwards the owner can create it again. */
  lemma SoftDeleteFreesName<K>(rows: seq<Entry<K>>, pos: nat)
    requires pos < |rows| && NamesUnique(rows) && !rows[pos].deleted
    ensures !NameTaken(SoftDelete(rows, pos), rows[pos].userId, rows[pos].name, None)
  {
    var r := SoftDelete(rows, pos);
    forall i | 0 <= i < |r| && r[i].userId == rows[pos].userId && r[i].name == rows[pos].name
      ensures r[i].deleted
    {
      if i != pos {
        assert r[i] == rows[i];
      }
    }
  }

  lemma SoftDeletePreservesUnique<K>(rows: seq<Entry<K>>, pos: nat)
    requires pos < |rows| && NamesUnique(rows)
    ensures NamesUnique(SoftDelete(rows, pos))
  {
    var r := SoftDelete(rows, pos);
    forall i, j | 0 <= i < |r| && 0 <= j < |r| && i != j && !r[i].deleted && !r[j].deleted && r[i].userId == r[j].userId
      ensures r[i].name != r[j].name
    {
      assert r[i] == rows[i] && r[j] == rows[j];
    }
  }

  /** A successful creation makes the name taken for that owner. */
  lemma CreateTakesName<K>(rows: seq<Entry<K>>, userId: nat, name: string, description: string,
                           color: string, icon: string, kind: K, defaults: Defaults)
    ensures var r := Create(rows, userId, name, description, color, icon, kind, defaults);
      r.Ok? ==> NameTaken(r.value, userId, name, None) && r.value[|rows|].name == name
  {
    var r := Create(rows, userId, name, description, color, icon, kind, defaults);
    if r.Ok? {
      assert r.value[|rows|].userId == userId;
    }
  }
}

=== FILE: catalog_handlers.dfy ===
/** The account and category endpoints: validated creation with per-owner
    name uniqueness and visual defaults, the partial update, the active-only
    listing (accounts with their derived balance) and the soft delete. */
module CatalogHandlers {
  import opened Common
  import opened Catalog
  import opened Accounts
  import opened Store
  import Ledger

  const AccountDefaults: Defaults := Defaults("#2196F3", "account_balance_wallet")
  const CategoryDefaults: Defaults := Defaults("#4CAF50", "category")

  predicate IsAccountType(t: string) {
    t == "cash" || t == "bank" || t == "credit_card" || t == "savings"
  }

  // ---------------------------------------------------------------------------
  // Accounts

  datatype AccountRequest = AccountRequest(
    name: string, accountType: string, currency: string, description: string, color: string, icon: string)

  /** The request validator: a name of 2 to 100 characters, one of the four
      account types and a 3-character currency code. */
  predicate ValidAccount(req: AccountRequest) {
    LengthBetween(req.name, 2, 100) && IsAccountType(req.accountType) && |req.currency| == 3
  }

  function CreateAccount(db: Db, userId: nat, req: AccountRequest): (r: Response<nat>)
    ensures r.result.Ok? <==> ValidAccount(req) && !NameTaken(db.accounts, userId, req.name, None)
    ensures r.result.Ok? ==>
      (r.result.value == |db.accounts| + 1
       && r.db == db.(accounts := Create(db.accounts, userId, req.name, req.description, req.color, req.icon,
                                         AccountKind(req.accountType, req.currency), AccountDefaults).value))
    ensures r.result.Err? ==> r.db == db
    ensures ValidAccount(req) && r.result.Err? ==> r.result.error == BadRequest("Account name already exists")
  {
    if !ValidAccount(req) then Response(db, Err(BadRequest("Validation failed")))
    else
      match Create(db.accounts, userId, req.name, req.description, req.color, req.icon,
                   AccountKind(req.accountType, req.currency), AccountDefaults)
      case Err(_) => Response(db, Err(BadRequest("Account name already exists")))
      case Ok(rows) => Response(db.(accounts := rows), Ok(|db.accounts| + 1))
  }

  datatype UpdateRequest = UpdateRequest(
    name: string, description: string, color: string, icon: string, isActive: Option<bool>)

  /** The update validator: a given name has 2 to `maxName` characters. */
  predicate ValidUpdate(req: UpdateRequest, maxName: nat) {
    req.name == "" || LengthBetween(req.name, 2, maxName)
  }

  function UpdateAccount(db: Db, userId: nat, id: nat, req: UpdateRequest): (r: Response<nat>)
    ensures r.result.Ok? <==>
      (ValidUpdate(req, 100) && OwnsAccount(db, userId, id)
       && !(req.name != "" && req.name != db.accounts[id - 1].name && NameTaken(db.accounts, userId, req.name, Some(id - 1))))
    ensures r.result.Ok? ==>
      r.db == db.(accounts := Update(db.accounts, id - 1, req.name, req.description, req.color, req.icon, req.isActive).value)
    ensures r.result.Err? ==> r.db == db
  {
    if !ValidUpdate(req, 100) then Response(db, Err(BadRequest("Validation failed")))
    else if !OwnsAccount(db, userId, id) then Response(db, Err(NotFound("Account not found")))
    else
      match Update(db.accounts, id - 1, req.name, req.description, req.color, req.icon, req.isActive)
      case Err(_) => Response(db, Err(BadRequest("Account name already exists")))
      case Ok(rows) => Response(db.(accounts := rows), Ok(id))
  }

  /** The listing: each of the caller's live active accounts with its balance. */
  function GetAccounts(db: Db, userId: nat): (r: seq<(nat, int)>)
    ensures forall k :: 0 <= k < |r| ==> IsId(r[k].0, |db.accounts|) && r[k].1 == Balance(r[k].0, userId, db.transactions)
    ensures forall i :: 0 <= i < |db.accounts| ==>
      ((i + 1, Balance(i + 1, userId, db.transactions)) in r
       <==> db.accounts[i].userId == userId && db.accounts[i].isActive && !db.accounts[i].deleted)
    ensures forall a, b :: 0 <= a < b < |r| ==> r[a].0 < r[b].0
  {
    WithBalances(ListActive(db.accounts, userId), userId, db.transactions)
  }

  /** Pairs each listed row position with the balance of the account it holds. */
  function WithBalances(ps: seq<nat>, userId: nat, txs: seq<Ledger.Transaction>): (r: seq<(nat, int)>)
    ensures |r| == |ps|
    ensures forall k :: 0 <= k < |r| ==> r[k] == (ps[k] + 1, Balance(ps[k] + 1, userId, txs))
    ensures forall i: nat :: (i + 1, Balance(i + 1, userId, txs)) in r <==> i in ps
  {
    var r := seq(|ps|, k requires 0 <= k < |ps| => (ps[k] + 1, Balance(ps[k] + 1, userId, txs)));
    forall i: nat | i in ps
      ensures (i + 1, Balance(i + 1, userId, txs)) in r
    {
      var k :| 0 <= k < |ps| && ps[k] == i;
      assert r[k] == (i + 1, Balance(i + 1, userId, txs));
    }
    r
  }

  /** One of the caller's accounts (active or not) with its balance. */
  function GetAccount(db: Db, userId: nat, id: nat): (r: Result<(Account, int)>)
    ensures r.Ok? <==> OwnsAccount(db, userId, id)
    ensures r.Err? ==> r.error == NotFound("Account not found")
    ensures r.Ok? ==> r.value == (db.accounts[id - 1], Balance(id, userId, db.transactions))
  {
    if !OwnsAccount(db, userId, id) then Err(NotFound("Account not found"))
    else Ok((db.accounts[id - 1], Balance(id, userId, db.transactions)))
  }

  function DeleteAccount(db: Db, userId: nat, id: nat): (r: Response<nat>)
    ensures r.result.Ok? <==> OwnsAccount(db, userId, id)
    ensures r.result.Ok? ==> r.db == db.(accounts := SoftDelete(db.accounts, id - 1))
    ensures r.result.Err? ==> r.db == db
  {
    if !OwnsAccount(db, userId, id) then Response(db, Err(NotFound("Account not found")))
    else Response(db.(accounts := SoftDelete(db.accounts, id - 1)), Ok(id))
  }

  // ---------------------------------------------------------------------------
  // Categories

  datatype CategoryRequest = CategoryRequest(name: string, description: string, color: string, icon: string)

  /** The request validator: a name of 2 to 50 characters. */
  predicate ValidCategory(req: CategoryRequest) {
    LengthBetween(req.name, 2, 50)
  }

  function CreateCategory(db: Db, userId: nat, req: CategoryRequest): (r: Response<nat>)
    ensures r.result.Ok? <==> ValidCategory(req) && !NameTaken(db.categories, userId, req.name, None)
    ensures r.result.Ok? ==>
      (r.result.value == |db.categories| + 1
       && r.db == db.(categories := Create(db.categories, userId, req.name, req.description, req.color, req.icon,
                                           (), CategoryDefaults).value))
    ensures r.result.Err? ==> r.db == db
    ensures ValidCategory(req) && r.result.Err? ==> r.result.error == BadRequest("Category name already exists")
  {
    if !ValidCategory(req) then Response(db, Err(BadRequest("Validation failed")))
    else
      match Create(db.categories, userId, req.name, req.description, req.color, req.icon, (), CategoryDefaults)
      case Err(_) => Response(db, Err(BadRequest("Category name already exists")))
      case Ok(rows) => Response(db.(categories := rows), Ok(|db.categories| + 1))
  }

  function UpdateCategory(db: Db, userId: nat, id: nat, req: UpdateRequest): (r: Response<nat>)
    ensures r.result.Ok? <==>
      (ValidUpdate(req, 50) && OwnsCategory(db, userId, id)
       && !(req.name != "" && req.name != db.categories[id - 1].name && NameTaken(db.categories, userId, req.name, Some(id - 1))))
    ensures r.result.Ok? ==>
      r.db == db.(categories := Update(db.categories, id - 1, req.name, req.description, req.color, req.icon, req.isActive).value)
    ensures r.result.Err? ==> r.db == db
  {
    if !ValidUpdate(req, 50) then Response(db, Err(BadRequest("Validation failed")))
    else if !OwnsCategory(db, userId, id) then Response(db, Err(NotFound("Category not found")))
    else
      match Update(db.categories, id - 1, req.name, req.description, req.color, req.icon, req.isActive)
      case Err(_) => Response(db, Err(BadRequest("Category name already exists")))
      case Ok(rows) => Response(db.(categories := rows), Ok(id))
  }

  /** The listing: the ids of the caller's live active categories. */
  function GetCategories(db: Db, userId: nat): (r: seq<nat>)
    ensures forall k :: 0 <= k < |r| ==> IsId(r[k], |db.categories|)
    ensures forall i :: 0 <= i < |db.categories| ==>
      (i + 1 in r <==> db.categories[i].userId == userId && db.categories[i].isActive && !db.categories[i].deleted)
    ensures forall a, b :: 0 <= a < b < |r| ==> r[a] < r[b]
  {
    Ids(ListActive(db.categories, userId))
  }

  /** One of the caller's categories, active or not. */
  function GetCategory(db: Db, userId: nat, id: nat): (r: Result<Category>)
    ensures r.Ok? <==> OwnsCategory(db, userId, id)
    ensures r.Ok? ==> r.value == db.categories[id - 1]
    ensures r.Err? ==> r.error == NotFound("Category not found")
  {
    if !OwnsCategory(db, userId, id) then Err(NotFound("Category not found"))
    else Ok(db.categories[id - 1])
  }

  function DeleteCategory(db: Db, userId: nat, id: nat): (r: Response<nat>)
    ensures r.result.Ok? <==> OwnsCategory(db, userId, id)
    ensures r.result.Ok? ==> r.db == db.(categories := SoftDelete(db.categories, id - 1))
    ensures r.result.Err? ==> r.db == db
  {
    if !OwnsCategory(db, userId, id) then Response(db, Err(NotFound("Category not found")))
    else Response(db.(categories := SoftDelete(db.categories, id - 1)), Ok(id))
  }

  // ---------------------------------------------------------------------------
  // The store invariant survives every catalog write

  lemma CreateAccountKeepsValid(db: Db, userId: nat, req: AccountRequest)
    requires Valid(db)
    ensures Valid(CreateAccount(db, userId, req).db)
  {
    CreatePreservesUnique(db.accounts, userId, req.name, req.description, req.color, req.icon,
                          AccountKind(req.accountType, req.currency), AccountDefaults);
  }

  lemma UpdateAccountKeepsValid(db: Db, userId: nat, id: nat, upd: UpdateRequest)
    requires Valid(db)
    ensures Valid(UpdateAccount(db, userId, id, upd).db)
  {
    if OwnsAccount(db, userId, id) {
      UpdatePreservesUnique(db.accounts, id - 1, upd.name, upd.description, upd.color, upd.icon, upd.isActive);
    }
  }

  lemma DeleteAccountKeepsValid(db: Db, userId: nat, id: nat)
    requires Valid(db)
    ensures Valid(DeleteAccount(db, userId, id).db)
  {
    if OwnsAccount(db, userId, id) {
      SoftDeletePreservesUnique(db.accounts, id - 1);
    }
  }

  lemma CreateCategoryKeepsValid(db: Db, userId: nat, req: CategoryRequest)
    requires Valid(db)
    ensures Valid(CreateCategory(db, userId, req).db)
  {
    CreatePreservesUnique(db.categories, userId, req.name, req.description, req.color, req.icon, (), CategoryDefaults);
  }

  lemma UpdateCategoryKeepsValid(db: Db, userId: nat, id: nat, upd: UpdateRequest)
    requires Valid(db)
    ensures Valid(UpdateCategory(db, userId, id, upd).db)
  {
    if OwnsCategory(db, userId, id) {
      UpdatePreservesUnique(db.categories, id - 1, upd.name, upd.description, upd.color, upd.icon, upd.isActive);
    }
  }

  lemma DeleteCategoryKeepsValid(db: Db, userId: nat, id: nat)
    requires Valid(db)
    ensures Valid(DeleteCategory(db, userId, id).db)
  {
    if OwnsCategory(db, userId, id) {
      SoftDeletePreservesUnique(db.categories, id - 1);
    }
  }

  /** A new account starts at a zero balance, provided no stored transaction
      already names its id. */
  lemma NewAccountBalance(db: Db, userId: nat, req: AccountRequest)
    requires CreateAccount(db, userId, req).result.Ok?
    requires forall i :: 0 <= i < |db.transactions| ==> db.transactions[i].accountId != |db.accounts| + 1
    ensures Balance(CreateAccount(db, userId, req).result.value, userId, CreateAccount(db, userId, req).db.transactions) == 0
  {
    BalanceOfNoMatches(|db.accounts| + 1, userId, db.transactions);
  }
}

=== FILE: common.dfy ===
/** Shared vocabulary of the bookkeeping service model: optional values,
    handler results with the error categories the handlers answer with,
    JSON-like dynamic values, polymorphic references and small string helpers. */
module Common {

  datatype Option<+T> = None | Some(value: T)

  /** The error categories a handler answers with; the message is the one the
      handler puts in its JSON body. */
  datatype Error =
    | BadRequest(message: string)    // 400: validation failures and business-rule conflicts
    | Unauthorized(message: string)  // 401
    | NotFound(message: string)      // 404: missing, soft-deleted or owned by someone else
    | Internal(message: string)      // 500: a write the store refused
    | Panic(message: string)         // a failed type assertion: the handler aborts without answering

  datatype Result<+T> = Ok(value: T) | Err(error: Error)

  /** A dynamically typed JSON value, as decoded into `map[string]interface{}`. */
  datatype Json = JString(s: string) | JNumber(n: int) | JBool(b: bool) | JNull

  /** The polymorphic (reference_id, reference_type) pair of transactions and
      reminders, as a tagged union. */
  datatype Reference = NoReference | LoanRef(loanId: nat) | ExpenseRef(expenseId: nat)

  /** Validator tag `min=lo,max=hi` on a string (lengths in characters). */
  predicate LengthBetween(s: string, lo: nat, hi: nat) {
    lo <= |s| <= hi
  }

  predicate IsPrefix(p: string, s: string) {
    |p| <= |s| && s[..|p|] == p
  }

  /** `value` when present, `current` otherwise: the "overwrite only when
      supplied" rule of every partial update. */
  function Overwrite<T>(current: T, value: Option<T>): (r: T)
    ensures value.None? ==> r == current
    ensures value.Some? ==> r == value.value
  {
    match value
    case None => current
    case Some(v) => v
  }

  /** `value` when non-empty, `current` otherwise: the "overwrite only when
      non-empty" rule for string fields of partial updates. */
  function OverwriteNonEmpty(current: string, value: string): (r: string)
    ensures value == "" ==> r == current
    ensures value != "" ==> r == value
  {
    if value != "" then value else current
  }

  /** The positions of the elements that pass `keep`, in increasing order:
      a query's WHERE clause over a table in id order. */
  function Positions<T>(s: seq<T>, keep: T -> bool): (ps: seq<nat>)
    ensures forall k :: 0 <= k < |ps| ==> ps[k] < |s| && keep(s[ps[k]])
    ensures forall i :: 0 <= i < |s| && keep(s[i]) ==> i in ps
    ensures forall a, b :: 0 <= a < b < |ps| ==> ps[a] < ps[b]
    decreases |s|
  {
    if |s| == 0 then []
    else
      var init := Positions(s[..|s| - 1], keep);
      if keep(s[|s| - 1]) then init + [|s| - 1] else init
  }

  /** Decimal rendering of an integer, as `%d` prints it. */
  function IntToString(n: int): (r: string)
    ensures |r| >= 1
    decreases if n < 0 then 1 - n else n
  {
    if n < 0 then "-" + IntToString(-n)
    else if n < 10 then [DigitChar(n)]
    else IntToString(n / 10) + [DigitChar(n % 10)]
  }

  function DigitChar(d: int): char
    requires 0 <= d < 10
  {
    "0123456789"[d]
  }
}

=== FILE: ledger.dfy ===
/** The ledger row and its consistency rules: the transaction types and their
    polarity, the direction/sign normalisation every handler applies before
    writing, and the row predicate the store's insert and update triggers
    enforce as a final safety net. */
module Ledger {
  import opened Common
  import opened Calendar

  /** A stored transaction. `deleted` is the soft-delete mark. */
  datatype Transaction = Transaction(
    userId: nat,
    accountId: nat,
    amount: int,
    direction: string,
    description: string,
    date: Instant,
    notes: string,
    txType: string,
    categoryId: Option<nat>,
    reference: Reference,
    deleted: bool)

  /** Types whose money enters the account. */
  predicate IsInType(t: string) {
    t == "income" || t == "loan_received" || t == "loan_payment_received"
  }

  /** Types whose money leaves the account. */
  predicate IsOutType(t: string) {
    t == "expense" || t == "loan_given" || t == "loan_payment_given"
  }

  /** The six transaction types. */
  predicate IsKnownType(t: string) {
    t == "income" || t == "expense" || t == "loan_given" || t == "loan_received"
    || t == "loan_payment_given" || t == "loan_payment_received"
  }

  // ---------------------------------------------------------------------------
  // The trigger conditions, each read as the condition under which the trigger
  // does NOT abort the write. Insert and update triggers test the same five.

  predicate DirectionAllowed(direction: string) {
    direction == "in" || direction == "out"
  }

  predicate AmountMatchesDirection(direction: string, amount: int) {
    (direction == "in" && amount > 0) || (direction == "out" && amount < 0)
  }

  predicate TypeMatchesDirection(txType: string, direction: string) {
    (IsInType(txType) && direction == "in") || (IsOutType(txType) && direction == "out")
  }

  predicate TypeAllowed(txType: string) {
    IsKnownType(txType)
  }

  predicate AmountNonZero(amount: int) {
    amount != 0
  }

  /** A (type, direction, amount) triple no transaction trigger aborts. */
  predicate Admissible(txType: string, direction: string, amount: int) {
    && DirectionAllowed(direction)
    && AmountMatchesDirection(direction, amount)
    && TypeMatchesDirection(txType, direction)
    && TypeAllowed(txType)
    && AmountNonZero(amount)
  }

  /** The row invariant of the transactions table (same on insert and update). */
  predicate RowInvariant(t: Transaction) {
    Admissible(t.txType, t.direction, t.amount)
  }

  /** The type check already implies the type whitelist and the direction whitelist. */
  lemma TypeCheckSubsumesWhitelists(txType: string, direction: string)
    ensures TypeMatchesDirection(txType, direction) ==> TypeAllowed(txType) && DirectionAllowed(direction)
  {
  }

  /** The sign check already implies a non-zero amount. */
  lemma SignCheckSubsumesNonZero(direction: string, amount: int)
    ensures AmountMatchesDirection(direction, amount) ==> AmountNonZero(amount)
  {
  }

  /** The five triggers accept exactly the rows whose direction is the type's
      polarity and whose amount carries the direction's sign. */
  lemma AdmissibleCharacterisation(txType: string, direction: string, amount: int)
    ensures Admissible(txType, direction, amount) <==>
      || (IsInType(txType) && direction == "in" && amount > 0)
      || (IsOutType(txType) && direction == "out" && amount < 0)
  {
  }

  // ---------------------------------------------------------------------------
  // Normalisation applied by the handlers

  /** The source's `abs` helper. */
  function Abs(x: int): (r: int)
    ensures r >= 0
    ensures r == x || r == -x
  {
    if x < 0 then -x else x
  }

  lemma AbsOfNegation(x: int)
    ensures Abs(-x) == Abs(x)
  {
  }

  /** The type switch of transaction creation: the canonical direction and
      signed amount for a requested type, or None for an unknown type. */
  function Normalize(txType: string, amount: int): (r: Option<(string, int)>)
    ensures r.Some? <==> IsKnownType(txType)
    ensures r.Some? ==> Abs(r.value.1) == Abs(amount)
    ensures r.Some? && amount != 0 ==> Admissible(txType, r.value.0, r.value.1)
  {
    if IsInType(txType) then Some(("in", Abs(amount)))
    else if IsOutType(txType) then Some(("out", -Abs(amount)))
    else None
  }

  /** The sign re-derivation of transaction update: the stored type decides the
      sign of the new amount; an unknown stored type keeps the stored amount. */
  function Resign(txType: string, stored: int, requested: int): (r: int)
    ensures IsKnownType(txType) ==> Abs(r) == Abs(requested)
    ensures !IsKnownType(txType) ==> r == stored
    ensures IsInType(txType) ==> r >= 0
    ensures IsOutType(txType) ==> r <= 0
  {
    if IsInType(txType) then Abs(requested)
    else if IsOutType(txType) then -Abs(requested)
    else stored
  }

  /** Normalising an already normalised amount changes nothing. */
  lemma NormalizeIdempotent(txType: string, amount: int)
    requires IsKnownType(txType)
    ensures Normalize(txType, Normalize(txType, amount).value.1) == Normalize(txType, amount)
  {
  }

  /** Update keeps type and direction, so a non-zero re-signed amount keeps the
      row admissible. */
  lemma ResignPreservesAdmissible(txType: string, direction: string, stored: int, requested: int)
    requires Admissible(txType, direction, stored)
    requires requested != 0
    ensures Admissible(txType, direction, Resign(txType, stored, requested))
  {
  }

  /** The normalised amount of a known type is the one update re-derives. */
  lemma ResignAgreesWithNormalize(txType: string, stored: int, requested: int)
    requires IsKnownType(txType)
    ensures Resign(txType, stored, requested) == Normalize(txType, requested).value.1
  {
  }
}

=== FILE: loan_handlers.dfy ===
/** The loan endpoints: creation with its ledger movement, the partial update,
    deletion blocked by confirmed payments, balance-gated payment requests
    and the one-time confirmation that books a payment in the ledger. */
module LoanHandlers {
  import opened Common
  import opened Calendar
  import opened Ledger
  import opened Loans
  import opened Store

  // ---------------------------------------------------------------------------
  // Creation

  datatype CreateLoanRequest = CreateLoanRequest(
    accountId: nat,
    amount: int,
    description: string,
    personName: string,
    loanType: string,
    loanDate: Instant,
    dueDate: Option<Instant>,
    interestRate: int,
    notes: string)

  /** The request validator: an account id, a positive amount, a description
      of 1 to 255 and a person name of 1 to 100 characters, type given or
      received, and a loan date other than the zero time. */
  predicate ValidCreateLoan(req: CreateLoanRequest) {
    && req.accountId != 0 && req.amount > 0
    && LengthBetween(req.description, 1, 255) && LengthBetween(req.personName, 1, 100)
    && (req.loanType == "given" || req.loanType == "received")
    && req.loanDate != ZeroTime
  }

  function NewLoan(userId: nat, req: CreateLoanRequest): (l: Loan)
    requires ValidCreateLoan(req)
    ensures l.status == Pending && !l.deleted && l.amount == req.amount && l.userId == userId
    ensures l.loanType == (if req.loanType == "given" then Given else Received)
  {
    Loan(userId, req.accountId, req.amount, req.description, req.personName,
         if req.loanType == "given" then Given else Received,
         Pending, req.loanDate, req.dueDate, req.interestRate, req.notes, false)
  }

  /** The ledger movement of a new loan: money leaves the account for a loan
      given and enters it for a loan received. */
  function LoanTransaction(userId: nat, loanId: nat, req: CreateLoanRequest): (t: Transaction)
    ensures t.reference == LoanRef(loanId) && t.accountId == req.accountId && t.userId == userId
    ensures req.loanType == "given" ==> t.txType == "loan_given" && t.direction == "out" && t.amount == -Abs(req.amount)
    ensures req.loanType != "given" ==> t.txType == "loan_received" && t.direction == "in" && t.amount == Abs(req.amount)
  {
    if req.loanType == "given" then
      Transaction(userId, req.accountId, -Abs(req.amount), "out", "Préstamo: " + req.description, req.loanDate,
                  req.notes, "loan_given", None, LoanRef(loanId), false)
    else
      Transaction(userId, req.accountId, Abs(req.amount), "in", "Préstamo: " + req.description, req.loanDate,
                  req.notes, "loan_received", None, LoanRef(loanId), false)
  }

  /** Creation writes the loan, then its transaction (two separate writes). */
  function CreateLoan(db: Db, userId: nat, req: CreateLoanRequest): (r: Response<nat>)
    ensures r.result.Ok? <==> ValidCreateLoan(req) && OwnsAccount(db, userId, req.accountId)
    ensures r.result.Ok? ==>
      (r.result.value == |db.loans| + 1
       && r.db == db.(loans := db.loans + [NewLoan(userId, req)],
                      transactions := db.transactions + [LoanTransaction(userId, |db.loans| + 1, req)]))
    ensures r.result.Err? ==> r.db == db
  {
    if !ValidCreateLoan(req) then Response(db, Err(BadRequest("Validation failed")))
    else if !OwnsAccount(db, userId, req.accountId) then Response(db, Err(NotFound("Account not found")))
    else
      var loanId := |db.loans| + 1;
      var db1 := db.(loans := db.loans + [NewLoan(userId, req)]);
      match InsertTransaction(db1, LoanTransaction(userId, loanId, req))
      case None => Response<nat>.Response(db1, Err(Internal("Could not create transaction")))
      case Some(db2) => Response(db2, Ok(loanId))
  }

  /** A new loan is consistent from the start: its movement passes the
      triggers, and with no payments naming it its status is the derived one. */
  lemma CreatedLoanIsConsistent(db: Db, userId: nat, req: CreateLoanRequest)
    requires CreateLoan(db, userId, req).result.Ok?
    requires forall i :: 0 <= i < |db.payments| ==> db.payments[i].loanId != |db.loans| + 1
    ensures var r := CreateLoan(db, userId, req);
      var loan := r.db.loans[|db.loans|];
      && RowInvariant(r.db.transactions[|db.transactions|])
      && loan.status == StatusFor(TotalPaid(|db.loans| + 1, r.db.payments), loan.amount)
      && Balance(loan, |db.loans| + 1, r.db.payments) == req.amount
  {
    TotalPaidOfNoConfirmed(|db.loans| + 1, db.payments);
  }

  // ---------------------------------------------------------------------------
  // Update and delete

  datatype UpdateLoanRequest = UpdateLoanRequest(
    description: string,
    personName: string,
    dueDate: Option<Instant>,
    interestRate: Option<int>,
    notes: string)

  predicate ValidUpdateLoan(req: UpdateLoanRequest) {
    (req.description == "" || LengthBetween(req.description, 1, 255))
    && (req.personName == "" || LengthBetween(req.personName, 1, 100))
  }

  function UpdateLoan(db: Db, userId: nat, id: nat, req: UpdateLoanRequest): (r: Response<nat>)
    ensures r.result.Ok? <==> ValidUpdateLoan(req) && OwnsLoan(db, userId, id)
    ensures r.result.Err? ==> r.db == db
    ensures r.result.Ok? ==>
      (|r.db.loans| == |db.loans| && r.db == db.(loans := r.db.loans)
       && (forall i :: 0 <= i < |db.loans| && i != id - 1 ==> r.db.loans[i] == db.loans[i])
       && var old_ := db.loans[id - 1];
          var new_ := r.db.loans[id - 1];
          && new_.amount == old_.amount && new_.loanType == old_.loanType && new_.status == old_.status
          && new_.accountId == old_.accountId && new_.userId == old_.userId && new_.loanDate == old_.loanDate
          && new_.description == OverwriteNonEmpty(old_.description, req.description)
          && new_.personName == OverwriteNonEmpty(old_.personName, req.personName)
          && new_.notes == OverwriteNonEmpty(old_.notes, req.notes)
          && new_.dueDate == (if req.dueDate.Some? then req.dueDate else old_.dueDate)
          && new_.interestRate == Overwrite(old_.interestRate, req.interestRate))
  {
    if !ValidUpdateLoan(req) then Response(db, Err(BadRequest("Validation failed")))
    else if !OwnsLoan(db, userId, id) then Response(db, Err(NotFound("Loan not found")))
    else
      var l := db.loans[id - 1];
      var l' := l.(description := OverwriteNonEmpty(l.description, req.description),
                   personName := OverwriteNonEmpty(l.personName, req.personName),
                   dueDate := if req.dueDate.Some? then req.dueDate else l.dueDate,
                   interestRate := Overwrite(l.interestRate, req.interestRate),
                   notes := OverwriteNonEmpty(l.notes, req.notes));
      Response(db.(loans := db.loans[id - 1 := l']), Ok(id))
  }

  /** The confirmed-payment count of the delete guard (live payments with a
      transaction id), read as "some payment pays off this loan". */
  predicate HasConfirmedPayment(payments: seq<LoanPayment>, loanId: nat) {
    exists i :: 0 <= i < |payments| && PaysOff(loanId, payments[i])
  }

  function DeleteLoan(db: Db, userId: nat, id: nat): (r: Response<nat>)
    ensures r.result.Ok? <==> OwnsLoan(db, userId, id) && !HasConfirmedPayment(db.payments, id)
    ensures r.result.Ok? ==> r.db == db.(loans := db.loans[id - 1 := db.loans[id - 1].(deleted := true)])
    ensures r.result.Err? ==> r.db == db
  {
    if !OwnsLoan(db, userId, id) then Response(db, Err(NotFound("Loan not found")))
    else if HasConfirmedPayment(db.payments, id) then Response(db, Err(BadRequest("Cannot delete loan with confirmed payments")))
    else Response(db.(loans := db.loans[id - 1 := db.loans[id - 1].(deleted := true)]), Ok(id))
  }

  /** Only a loan with nothing paid can be deleted. */
  lemma DeletedLoanHadNothingPaid(db: Db, userId: nat, id: nat)
    requires DeleteLoan(db, userId, id).result.Ok?
    ensures TotalPaid(id, db.payments) == 0
  {
    TotalPaidOfNoConfirmed(id, db.payments);
  }

  // ---------------------------------------------------------------------------
  // Payment requests

  datatype PaymentRequest = PaymentRequest(
    accountId: nat,
    amount: int,
    date: Instant,
    description: string,
    notes: string)

  /** The payment validator: an account id, a positive amount, a date other
      than the zero time and a description of 1 to 255 characters. */
  predicate ValidPayment(req: PaymentRequest) {
    req.accountId != 0 && req.amount > 0 && req.date != ZeroTime && LengthBetween(req.description, 1, 255)
  }

  /** A payment request of loan `loanId`: pending (no transaction id). */
  function NewPayment(loanId: nat, userId: nat, req: PaymentRequest): (p: LoanPayment)
    ensures !IsConfirmed(p) && !p.deleted && p.loanId == loanId && p.amount == req.amount
  {
    LoanPayment(loanId, userId, req.accountId, req.amount, req.date, req.description, req.notes, None, false)
  }

  /** A request is accepted when it does not exceed the balance, which counts
      confirmed payments only. */
  function CreateLoanPayment(db: Db, userId: nat, loanId: nat, req: PaymentRequest): (r: Response<nat>)
    ensures r.result.Ok? <==>
      (ValidPayment(req) && OwnsLoan(db, userId, loanId) && OwnsAccount(db, userId, req.accountId)
       && req.amount <= Balance(db.loans[loanId - 1], loanId, db.payments))
    ensures r.result.Ok? ==>
      (r.result.value == |db.payments| + 1 && r.db == db.(payments := db.payments + [NewPayment(loanId, userId, req)]))
    ensures r.result.Err? ==> r.db == db
  {
    if !ValidPayment(req) then Response(db, Err(BadRequest("Validation failed")))
    else if !OwnsLoan(db, userId, loanId) then Response(db, Err(NotFound("Loan not found")))
    else if !OwnsAccount(db, userId, req.accountId) then Response(db, Err(NotFound("Account not found")))
    else if req.amount > Balance(db.loans[loanId - 1], loanId, db.payments) then
      Response(db, Err(BadRequest("Payment amount exceeds loan balance")))
    else Response(db.(payments := db.payments + [NewPayment(loanId, userId, req)]), Ok(|db.payments| + 1))
  }

  /** A request never changes the balance, so two requests that each fit the
      balance are both accepted even when together they exceed it. */
  lemma PendingRequestsCanOverpay(db: Db, userId: nat, loanId: nat, req1: PaymentRequest, req2: PaymentRequest)
    requires CreateLoanPayment(db, userId, loanId, req1).result.Ok?
    requires ValidPayment(req2) && OwnsAccount(db, userId, req2.accountId)
    requires req2.amount <= Balance(db.loans[loanId - 1], loanId, db.payments)
    ensures CreateLoanPayment(CreateLoanPayment(db, userId, loanId, req1).db, userId, loanId, req2).result.Ok?
  {
    PendingPaymentIsInvisible(loanId, db.payments, NewPayment(loanId, userId, req1));
  }

  // ---------------------------------------------------------------------------
  // Confirmation

  /** The loan a payment's preload finds: its loan unless soft-deleted. */
  function LoanOf(db: Db, p: LoanPayment): (r: Option<Loan>)
    ensures r.Some? <==> IsId(p.loanId, |db.loans|) && !db.loans[p.loanId - 1].deleted
  {
    if IsId(p.loanId, |db.loans|) && !db.loans[p.loanId - 1].deleted then Some(db.loans[p.loanId - 1]) else None
  }

  /** The ledger movement of a confirmation: money comes in on a loan given
      and goes out otherwise, including when the loan could not be loaded
      (then the reference carries the zero id). */
  function PaymentTransaction(userId: nat, p: LoanPayment, loan: Option<Loan>): (t: Transaction)
    ensures t.reference == LoanRef(if loan.Some? then p.loanId else 0)
    ensures t.accountId == p.accountId && t.userId == userId && t.date == p.date
    ensures loan.Some? && loan.value.loanType == Given ==>
      t.txType == "loan_payment_received" && t.direction == "in" && t.amount == Abs(p.amount)
    ensures !(loan.Some? && loan.value.loanType == Given) ==>
      t.txType == "loan_payment_given" && t.direction == "out" && t.amount == -Abs(p.amount)
  {
    var ref := LoanRef(if loan.Some? then p.loanId else 0);
    if loan.Some? && loan.value.loanType == Given then
      Transaction(userId, p.accountId, Abs(p.amount), "in", "Pago préstamo: " + p.description, p.date, p.notes,
                  "loan_payment_received", None, ref, false)
    else
      Transaction(userId, p.accountId, -Abs(p.amount), "out", "Pago préstamo: " + p.description, p.date, p.notes,
                  "loan_payment_given", None, ref, false)
  }

  /** Confirmation books the payment (three separate writes: the transaction,
      the payment's transaction id, the loan's status). The balance is not
      checked again. */
  function ConfirmLoanPayment(db: Db, userId: nat, paymentId: nat): (r: Response<nat>)
    ensures r.result.Ok? <==>
      (OwnsPayment(db, userId, paymentId) && !IsConfirmed(db.payments[paymentId - 1])
       && db.payments[paymentId - 1].amount != 0)
    ensures r.result.Err? ==> r.db == db
    ensures r.result.Ok? ==>
      var p := db.payments[paymentId - 1];
      var txId := |db.transactions| + 1;
      var payments' := db.payments[paymentId - 1 := p.(transactionId := Some(txId))];
      && r.db.transactions == db.transactions + [PaymentTransaction(userId, p, LoanOf(db, p))]
      && r.db.payments == payments'
      && r.db.loans == (if LoanOf(db, p).Some?
                        then db.loans[p.loanId - 1 := UpdateStatus(db.loans[p.loanId - 1], p.loanId, payments').0]
                        else db.loans)
      && r.db == db.(transactions := r.db.transactions, payments := r.db.payments, loans := r.db.loans)
  {
    if !OwnsPayment(db, userId, paymentId) then Response(db, Err(NotFound("Payment not found")))
    else
      var p := db.payments[paymentId - 1];
      if IsConfirmed(p) then Response(db, Err(BadRequest("Payment already confirmed")))
      else
        var loan := LoanOf(db, p);
        var t := PaymentTransaction(userId, p, loan);
        match InsertTransaction(db, t)
        case None => Response(db, Err(Internal("Could not create transaction")))
        case Some(db1) =>
          var txId := |db.transactions| + 1;
          var payments' := db.payments[paymentId - 1 := p.(transactionId := Some(txId))];
          var db2 := db1.(payments := payments');
          if loan.Some? then
            Response(db2.(loans := db.loans[p.loanId - 1 := UpdateStatus(db.loans[p.loanId - 1], p.loanId, payments').0]), Ok(paymentId))
          else
            Response(db2, Ok(paymentId))
  }

  /** Confirmation happens once: confirming the same payment again is refused
      and writes nothing. */
  lemma ConfirmTwiceFails(db: Db, userId: nat, paymentId: nat)
    requires ConfirmLoanPayment(db, userId, paymentId).result.Ok?
    ensures var db' := ConfirmLoanPayment(db, userId, paymentId).db;
      ConfirmLoanPayment(db', userId, paymentId) == Response(db', Err(BadRequest("Payment already confirmed")))
  {
  }

  /** After a confirmation the paid total of the payment's loan has grown by
      the payment's amount, and a live loan's status is the one that total
      determines, whether or not it now exceeds the principal. */
  lemma ConfirmUpdatesLoan(db: Db, userId: nat, paymentId: nat)
    requires ConfirmLoanPayment(db, userId, paymentId).result.Ok?
    ensures var p := db.payments[paymentId - 1];
      var db' := ConfirmLoanPayment(db, userId, paymentId).db;
      && TotalPaid(p.loanId, db'.payments) == TotalPaid(p.loanId, db.payments) + p.amount
      && (LoanOf(db, p).Some? ==>
            db'.loans[p.loanId - 1].status == StatusFor(TotalPaid(p.loanId, db'.payments), db.loans[p.loanId - 1].amount))
  {
    var p := db.payments[paymentId - 1];
    ConfirmRaisesTotalPaid(p.loanId, db.payments, paymentId - 1, |db.transactions| + 1);
  }

  /** A confirmed overpayment: a loan of 100 with nothing paid and a pending
      request of 150 (recorded under an older, larger balance) ends paid with
      a balance of -50. */
  lemma OverpaymentEndsPaid(db: Db, userId: nat, paymentId: nat)
    requires ConfirmLoanPayment(db, userId, paymentId).result.Ok?
    requires var p := db.payments[paymentId - 1];
      LoanOf(db, p).Some? && db.loans[p.loanId - 1].amount == 100 && p.amount == 150
      && TotalPaid(p.loanId, db.payments) == 0
    ensures var p := db.payments[paymentId - 1];
      var db' := ConfirmLoanPayment(db, userId, paymentId).db;
      db'.loans[p.loanId - 1].status == Paid && Balance(db'.loans[p.loanId - 1], p.loanId, db'.payments) == -50
  {
    ConfirmUpdatesLoan(db, userId, paymentId);
  }
}

=== FILE: loans.dfy ===
/** Loans and loan payments: the paid total counts confirmed payments only,
    the outstanding balance is principal minus that total, and the cached
    status is a function of the two. A payment is pending while it has no
    ledger transaction and confirmed once it has one. */
module Loans {
  import opened Common
  import opened Calendar

  datatype LoanType = Given | Received

  datatype LoanStatus = Pending | PartialPaid | Paid

  datatype Loan = Loan(
    userId: nat,
    accountId: nat,
    amount: int,
    description: string,
    personName: string,
    loanType: LoanType,
    status: LoanStatus,
    loanDate: Instant,
    dueDate: Option<Instant>,
    interestRate: int,
    notes: string,
    deleted: bool)

  /** `transactionId` None means pending, Some(id) means confirmed by ledger row `id`. */
  datatype LoanPayment = LoanPayment(
    loanId: nat,
    userId: nat,
    accountId: nat,
    amount: int,
    date: Instant,
    description: string,
    notes: string,
    transactionId: Option<nat>,
    deleted: bool)

  predicate IsConfirmed(p: LoanPayment) {
    p.transactionId.Some?
  }

  /** Whether a payment row takes part in the paid total of loan `loanId`. */
  predicate PaysOff(loanId: nat, p: LoanPayment) {
    p.loanId == loanId && IsConfirmed(p) && !p.deleted
  }

  /** The paid-total query: `COALESCE(SUM(amount), 0)` over this loan's live
      payments whose transaction id is set. */
  function TotalPaid(loanId: nat, payments: seq<LoanPayment>): int
    decreases |payments|
  {
    if |payments| == 0 then 0
    else
      var last := payments[|payments| - 1];
      TotalPaid(loanId, payments[..|payments| - 1]) + (if PaysOff(loanId, last) then last.amount else 0)
  }

  /** Outstanding balance: principal minus the confirmed total. */
  function Balance(loan: Loan, loanId: nat, payments: seq<LoanPayment>): int {
    loan.amount - TotalPaid(loanId, payments)
  }

  /** The status rule of the status recomputation. */
  function StatusFor(totalPaid: int, amount: int): LoanStatus {
    if totalPaid == 0 then Pending
    else if totalPaid < amount then PartialPaid
    else Paid
  }

  /** The status recomputation: the loan with its status field brought up to
      date, and whether a write happened (only when the status differs). */
  function UpdateStatus(loan: Loan, loanId: nat, payments: seq<LoanPayment>): (r: (Loan, bool))
    ensures r.0 == loan.(status := StatusFor(TotalPaid(loanId, payments), loan.amount))
    ensures r.1 <==> loan.status != r.0.status
  {
    var newStatus := StatusFor(TotalPaid(loanId, payments), loan.amount);
    if loan.status != newStatus then (loan.(status := newStatus), true) else (loan, false)
  }

  // ---------------------------------------------------------------------------
  // Properties

  /** With no confirmed live payment of this loan the paid total is 0. */
  lemma {:induction false} TotalPaidOfNoConfirmed(loanId: nat, payments: seq<LoanPayment>)
    requires forall i :: 0 <= i < |payments| ==> !PaysOff(loanId, payments[i])
    ensures TotalPaid(loanId, payments) == 0
    decreases |payments|
  {
    if |payments| > 0 {
      TotalPaidOfNoConfirmed(loanId, payments[..|payments| - 1]);
    }
  }

  /** The paid total of a concatenation is the sum of the totals. */
  lemma {:induction false} TotalPaidOfConcat(loanId: nat, xs: seq<LoanPayment>, ys: seq<LoanPayment>)
    ensures TotalPaid(loanId, xs + ys) == TotalPaid(loanId, xs) + TotalPaid(loanId, ys)
    decreases |ys|
  {
    if |ys| == 0 {
      assert xs + ys == xs;
    } else {
      assert (xs + ys)[..|xs + ys| - 1] == xs + ys[..|ys| - 1];
      TotalPaidOfConcat(loanId, xs, ys[..|ys| - 1]);
    }
  }

  /** Recording a pending payment never changes the paid total (nor the balance). */
  lemma PendingPaymentIsInvisible(loanId: nat, payments: seq<LoanPayment>, p: LoanPayment)
    requires !IsConfirmed(p)
    ensures TotalPaid(loanId, payments + [p]) == TotalPaid(loanId, payments)
  {
    assert (payments + [p])[..|payments + [p]| - 1] == payments;
  }

  /** Replacing one payment row changes the paid total by the difference of
      the two rows' contributions. */
  lemma {:induction false} TotalPaidAfterReplace(loanId: nat, payments: seq<LoanPayment>, i: nat, p: LoanPayment)
    requires i < |payments|
    ensures TotalPaid(loanId, payments[i := p])
      == TotalPaid(loanId, payments)
         - (if PaysOff(loanId, payments[i]) then payments[i].amount else 0)
         + (if PaysOff(loanId, p) then p.amount else 0)
  {
    var pre := payments[..i];
    var post := payments[i + 1..];
    assert payments == pre + [payments[i]] + post;
    assert payments[i := p] == pre + [p] + post;
    TotalPaidOfConcat(loanId, pre + [payments[i]], post);
    TotalPaidOfConcat(loanId, pre + [p], post);
    assert (pre + [payments[i]])[..|pre + [payments[i]]| - 1] == pre;
    assert (pre + [p])[..|pre + [p]| - 1] == pre;
  }

  /** Confirming a pending live payment of this loan raises the paid total by
      exactly its amount (and lowers the balance by as much). */
  lemma ConfirmRaisesTotalPaid(loanId: nat, payments: seq<LoanPayment>, i: nat, txId: nat)
    requires i < |payments| && payments[i].loanId == loanId
    requires !IsConfirmed(payments[i]) && !payments[i].deleted
    ensures TotalPaid(loanId, payments[i := payments[i].(transactionId := Some(txId))])
      == TotalPaid(loanId, payments) + payments[i].amount
  {
    TotalPaidAfterReplace(loanId, payments, i, payments[i].(transactionId := Some(txId)));
  }

  /** The status, read through the outstanding balance of a loan with a
      positive principal whose payments are positive: pending while nothing
      is paid, partially paid while some but not all is, paid once the
      balance is zero or negative. */
  lemma StatusByBalance(amount: int, totalPaid: int)
    requires amount > 0 && totalPaid >= 0
    ensures StatusFor(totalPaid, amount) == Pending <==> amount - totalPaid == amount
    ensures StatusFor(totalPaid, amount) == PartialPaid <==> 0 < amount - totalPaid < amount
    ensures StatusFor(totalPaid, amount) == Paid <==> amount - totalPaid <= 0
  {
  }

  /** The recomputation is idempotent: a second run writes nothing. */
  lemma UpdateStatusIdempotent(loan: Loan, loanId: nat, payments: seq<LoanPayment>)
    ensures UpdateStatus(UpdateStatus(loan, loanId, payments).0, loanId, payments) == (UpdateStatus(loan, loanId, payments).0, false)
  {
  }

  // ---------------------------------------------------------------------------
  // Field codec hooks. The codec is external: `encrypt` and `decrypt` stand for
  // the field cipher; only non-empty fields go through it.

  function CodecField(s: string, codec: string -> string): (r: string)
    ensures s == "" ==> r == ""
  {
    if s != "" then codec(s) else s
  }

  /** The save hook (encrypt) or load hook (decrypt) of a loan: only
      description, person name and notes pass through the codec. */
  function LoanHook(l: Loan, codec: string -> string): (r: Loan)
    ensures r.(description := l.description, personName := l.personName, notes := l.notes) == l
    ensures l.description == "" ==> r.description == ""
    ensures l.personName == "" ==> r.personName == ""
    ensures l.notes == "" ==> r.notes == ""
  {
    l.(description := CodecField(l.description, codec),
       personName := CodecField(l.personName, codec),
       notes := CodecField(l.notes, codec))
  }

  /** The save or load hook of a payment: only description and notes pass
      through the codec; amount, loan, account and transaction id are untouched. */
  function PaymentHook(p: LoanPayment, codec: string -> string): (r: LoanPayment)
    ensures r.(description := p.description, notes := p.notes) == p
    ensures p.description == "" ==> r.description == ""
    ensures p.notes == "" ==> r.notes == ""
  {
    p.(description := CodecField(p.description, codec), notes := CodecField(p.notes, codec))
  }

  /** A field codec whose decryption undoes encryption on non-empty text and
      never encrypts non-empty text to the empty string. */
  ghost predicate RoundTrips(encrypt: string -> string, decrypt: string -> string) {
    forall s :: s != "" ==> encrypt(s) != "" && decrypt(encrypt(s)) == s
  }

  /** Loading what was saved gives back the loan. */
  lemma LoanHooksRoundTrip(l: Loan, encrypt: string -> string, decrypt: string -> string)
    requires RoundTrips(encrypt, decrypt)
    ensures LoanHook(LoanHook(l, encrypt), decrypt) == l
  {
  }

  /** Loading what was saved gives back the payment. */
  lemma PaymentHooksRoundTrip(p: LoanPayment, encrypt: string -> string, decrypt: string -> string)
    requires RoundTrips(encrypt, decrypt)
    ensures PaymentHook(PaymentHook(p, encrypt), decrypt) == p
  {
  }
}

=== FILE: recurring.dfy ===
/** Recurring expenses: the due-date advance per frequency (calendar-aware,
    with Go's overflow normalisation) and the overdue / due-today predicates. */
module Recurring {
  import opened Common
  import opened Calendar

  datatype RecurringExpense = RecurringExpense(
    userId: nat,
    accountId: nat,
    categoryId: nat,
    amount: int,
    description: string,
    frequency: string,
    startDate: Instant,
    endDate: Option<Instant>,
    nextDueDate: Instant,
    isActive: bool,
    autoGenerate: bool,
    notes: string,
    deleted: bool)

  predicate IsFrequency(f: string) {
    f == "daily" || f == "weekly" || f == "monthly" || f == "yearly"
  }

  /** The recurring-expense triggers: a known frequency and a positive amount,
      checked identically on insert and update. */
  predicate RowInvariant(e: RecurringExpense) {
    IsFrequency(e.frequency) && e.amount > 0
  }

  /** The next due date after `e.nextDueDate`; an unknown frequency leaves it. */
  function CalculateNextDueDate(e: RecurringExpense): (r: Instant)
    ensures r.second == e.nextDueDate.second
    ensures !IsFrequency(e.frequency) ==> r == e.nextDueDate
  {
    match e.frequency
    case "daily" => AddDate(e.nextDueDate, 0, 0, 1)
    case "weekly" => AddDate(e.nextDueDate, 0, 0, 7)
    case "monthly" => AddDate(e.nextDueDate, 0, 1, 0)
    case "yearly" => AddDate(e.nextDueDate, 1, 0, 0)
    case _ => e.nextDueDate
  }

  predicate IsOverdue(e: RecurringExpense, now: Instant) {
    After(now, e.nextDueDate) && e.isActive
  }

  predicate IsDueToday(e: RecurringExpense, now: Instant) {
    DateOf(now) == DateOf(e.nextDueDate) && e.isActive
  }

  /** The advance of each frequency, on the time line: daily and weekly are
      exact day counts, monthly and yearly follow the calendar. */
  lemma NextDueDateByFrequency(e: RecurringExpense)
    ensures e.frequency == "daily" ==> EpochSeconds(CalculateNextDueDate(e)) == EpochSeconds(e.nextDueDate) + SecondsPerDay
    ensures e.frequency == "weekly" ==> EpochSeconds(CalculateNextDueDate(e)) == EpochSeconds(e.nextDueDate) + 7 * SecondsPerDay
    ensures e.frequency == "monthly" ==> CalculateNextDueDate(e) == AddDate(e.nextDueDate, 0, 1, 0)
    ensures e.frequency == "yearly" ==> CalculateNextDueDate(e) == AddDate(e.nextDueDate, 1, 0, 0)
  {
    if e.frequency == "daily" {
      AddDaysIsLinear(e.nextDueDate, 1);
    } else if e.frequency == "weekly" {
      AddDaysIsLinear(e.nextDueDate, 7);
    }
  }

  /** The advance moves strictly forward exactly for the four known frequencies. */
  lemma NextDueDateIsLater(e: RecurringExpense)
    ensures After(CalculateNextDueDate(e), e.nextDueDate) <==> IsFrequency(e.frequency)
  {
    NextDueDateByFrequency(e);
    AddMonthIsLater(e.nextDueDate);
    AddYearIsLater(e.nextDueDate);
  }

  /** A monthly expense due on 2024-01-31 falls due next on 2024-03-02. */
  lemma MonthlyOverflowExample(e: RecurringExpense)
    requires e.frequency == "monthly" && e.nextDueDate == DateTime(2024, 1, 31, 0)
    ensures CalculateNextDueDate(e) == DateTime(2024, 3, 2, 0)
  {
    MonthOverflowExample();
  }

  /** A yearly expense due on 2024-02-29 falls due next on 2025-03-01. */
  lemma YearlyLeapDayExample(e: RecurringExpense)
    requires e.frequency == "yearly" && e.nextDueDate == DateTime(2024, 2, 29, 0)
    ensures CalculateNextDueDate(e) == DateTime(2025, 3, 1, 0)
  {
    assert CalculateNextDueDate(e) == AddDate(e.nextDueDate, 1, 0, 0);
    LeapDayPlusYearExample();
  }

  /** An inactive expense is never overdue and never due today. */
  lemma InactiveIsNeverDue(e: RecurringExpense, now: Instant)
    requires !e.isActive
    ensures !IsOverdue(e, now) && !IsDueToday(e, now)
  {
  }

  /** Due today and overdue overlap: an active expense is both at any later
      second of its due day. */
  lemma DueTodayCanBeOverdue(e: RecurringExpense, now: Instant)
    requires e.isActive && DateOf(now) == DateOf(e.nextDueDate) && now.second > e.nextDueDate.second
    ensures IsOverdue(e, now) && IsDueToday(e, now)
  {
  }
}

=== FILE: recurring_handlers.dfy ===
/** The recurring-expense endpoints: creation (due first on its start date,
    with reminders), the partial update, the filtered listing ordered by due
    date, execution (an expense transaction plus one advance of the due
    date) and the soft delete. */
module RecurringHandlers {
  import opened Common
  import opened Calendar
  import opened Ledger
  import opened Recurring
  import opened Store
  import opened Sorting
  import opened ReminderService

  // ---------------------------------------------------------------------------
  // Creation

  datatype CreateExpenseRequest = CreateExpenseRequest(
    accountId: nat,
    categoryId: nat,
    amount: int,
    description: string,
    frequency: string,
    startDate: Instant,
    endDate: Option<Instant>,
    notes: string)

  /** The request validator: account and category ids, a positive amount, a
      description of 1 to 255 characters, one of the four frequencies and a
      start date other than the zero time. */
  predicate ValidCreateExpense(req: CreateExpenseRequest) {
    && req.accountId != 0 && req.categoryId != 0 && req.amount > 0
    && LengthBetween(req.description, 1, 255) && IsFrequency(req.frequency)
    && req.startDate != ZeroTime
  }

  /** The stored expense: first due on its start date, active, reminder-only. */
  function NewExpense(userId: nat, req: CreateExpenseRequest): (e: RecurringExpense)
    ensures e.nextDueDate == req.startDate && e.startDate == req.startDate
    ensures e.isActive && !e.autoGenerate && !e.deleted && e.userId == userId
    ensures ValidCreateExpense(req) ==> Recurring.RowInvariant(e)
  {
    RecurringExpense(userId, req.accountId, req.categoryId, req.amount, req.description, req.frequency,
                     req.startDate, req.endDate, req.startDate, true, false, req.notes, false)
  }

  /** Creation stores the expense, then generates its reminders. */
  function CreateRecurringExpense(db: Db, userId: nat, req: CreateExpenseRequest, now: Instant): (r: Response<nat>)
    ensures r.result.Ok? <==>
      ValidCreateExpense(req) && OwnsAccount(db, userId, req.accountId) && OwnsCategory(db, userId, req.categoryId)
    ensures r.result.Ok? ==>
      (r.result.value == |db.expenses| + 1
       && r.db == CreateReminders(db.(expenses := db.expenses + [NewExpense(userId, req)]),
                                  |db.expenses| + 1, NewExpense(userId, req), now))
    ensures r.result.Err? ==> r.db == db
  {
    if !ValidCreateExpense(req) then Response(db, Err(BadRequest("Validation failed")))
    else if !OwnsAccount(db, userId, req.accountId) then Response(db, Err(NotFound("Account not found")))
    else if !OwnsCategory(db, userId, req.categoryId) then Response(db, Err(NotFound("Category not found")))
    else
      var e := NewExpense(userId, req);
      match InsertExpense(db, e)
      case None => Response<nat>.Response(db, Err(Internal("Could not create recurring expense")))
      case Some(db1) => Response(CreateReminders(db1, |db.expenses| + 1, e, now), Ok(|db.expenses| + 1))
  }

  // ---------------------------------------------------------------------------
  // Update

  datatype UpdateExpenseRequest = UpdateExpenseRequest(
    accountId: Option<nat>,
    categoryId: Option<nat>,
    amount: Option<int>,
    description: string,
    frequency: string,
    endDate: Option<Instant>,
    notes: string,
    isActive: Option<bool>)

  /** The update validator: a given amount is positive, a given description
      has 1 to 255 characters, a given frequency is one of the four. */
  predicate ValidUpdateExpense(req: UpdateExpenseRequest) {
    && (req.amount.Some? ==> req.amount.value > 0)
    && (req.description == "" || LengthBetween(req.description, 1, 255))
    && (req.frequency == "" || IsFrequency(req.frequency))
  }

  /** The updated expense. The schedule (start and next due date) and the
      owner never change; the reminders are not regenerated. */
  function UpdatedExpense(e: RecurringExpense, req: UpdateExpenseRequest): (u: RecurringExpense)
    ensures u.nextDueDate == e.nextDueDate && u.startDate == e.startDate && u.userId == e.userId
    ensures u.deleted == e.deleted && u.autoGenerate == e.autoGenerate
    ensures u.amount == (if req.amount.Some? then req.amount.value else e.amount)
    ensures u.frequency == (if req.frequency == "" then e.frequency else req.frequency)
    ensures u.isActive == (if req.isActive.Some? then req.isActive.value else e.isActive)
    ensures req == UpdateExpenseRequest(None, None, None, "", "", None, "", None) ==> u == e
  {
    e.(accountId := Overwrite(e.accountId, req.accountId),
       categoryId := Overwrite(e.categoryId, req.categoryId),
       amount := Overwrite(e.amount, req.amount),
       description := OverwriteNonEmpty(e.description, req.description),
       frequency := OverwriteNonEmpty(e.frequency, req.frequency),
       endDate := if req.endDate.Some? then req.endDate else e.endDate,
       notes := OverwriteNonEmpty(e.notes, req.notes),
       isActive := Overwrite(e.isActive, req.isActive))
  }

  function UpdateRecurringExpense(db: Db, userId: nat, id: nat, req: UpdateExpenseRequest): (r: Response<nat>)
    ensures r.result.Ok? ==>
      (OwnsExpense(db, userId, id)
       && r.db == db.(expenses := db.expenses[id - 1 := UpdatedExpense(db.expenses[id - 1], req)]))
    ensures r.result.Err? ==> r.db == db
    ensures !ValidUpdateExpense(req) ==> r.result == Err(BadRequest("Validation failed"))
    ensures ValidUpdateExpense(req) && !OwnsExpense(db, userId, id) ==>
      r.result == Err(NotFound("Recurring expense not found"))
  {
    if !ValidUpdateExpense(req) then Response(db, Err(BadRequest("Validation failed")))
    else if !OwnsExpense(db, userId, id) then Response(db, Err(NotFound("Recurring expense not found")))
    else if req.accountId.Some? && !OwnsAccount(db, userId, req.accountId.value) then
      Response(db, Err(NotFound("Account not found")))
    else if req.categoryId.Some? && !OwnsCategory(db, userId, req.categoryId.value) then
      Response(db, Err(NotFound("Category not found")))
    else
      match SaveExpense(db, id, UpdatedExpense(db.expenses[id - 1], req))
      case None => Response(db, Err(Internal("Could not update recurring expense")))
      case Some(db1) => Response(db1, Ok(id))
  }

  /** On a store whose expenses pass the triggers, a valid update of an owned
      expense with owned account and category succeeds and keeps the store valid. */
  lemma UpdateSucceedsOnValidStore(db: Db, userId: nat, id: nat, req: UpdateExpenseRequest)
    requires ExpensesValid(db.expenses)
    requires ValidUpdateExpense(req) && OwnsExpense(db, userId, id)
    requires req.accountId.Some? ==> OwnsAccount(db, userId, req.accountId.value)
    requires req.categoryId.Some? ==> OwnsCategory(db, userId, req.categoryId.value)
    ensures UpdateRecurringExpense(db, userId, id, req).result == Ok(id)
    ensures ExpensesValid(UpdateRecurringExpense(db, userId, id, req).db.expenses)
  {
    assert Recurring.RowInvariant(db.expenses[id - 1]);
  }

  // ---------------------------------------------------------------------------
  // Listing

  /** The `is_active` query parameter: absent or empty means "true". */
  function ActiveParam(isActive: Option<string>): (p: string)
    ensures isActive.None? ==> p == "true"
  {
    if isActive.None? || isActive.value == "" then "true" else isActive.value
  }

  /** The listing filter: "true" keeps active, "false" inactive expenses,
      any other value keeps both; a non-empty frequency must match. */
  predicate Listed(e: RecurringExpense, userId: nat, isActive: Option<string>, frequency: string) {
    && e.userId == userId && !e.deleted
    && (ActiveParam(isActive) == "true" ==> e.isActive)
    && (ActiveParam(isActive) == "false" ==> !e.isActive)
    && (frequency != "" ==> e.frequency == frequency)
  }

  /** One listed expense with its flags at `now`. */
  datatype Entry = Entry(id: nat, expense: RecurringExpense, isOverdue: bool, isDueToday: bool)

  /** The entry of expense position `i`. */
  function EntryAt(es: seq<RecurringExpense>, i: nat, now: Instant): Entry
    requires i < |es|
  {
    Entry(i + 1, es[i], IsOverdue(es[i], now), IsDueToday(es[i], now))
  }

  /** The caller's expenses passing the filters, in id order, with their flags. */
  function SelectExpenses(es: seq<RecurringExpense>, userId: nat, isActive: Option<string>, frequency: string,
                          now: Instant): (r: seq<Entry>)
    ensures forall k :: 0 <= k < |r| ==>
      0 < r[k].id <= |es| && r[k] == EntryAt(es, r[k].id - 1, now) && Listed(r[k].expense, userId, isActive, frequency)
    ensures forall i :: 0 <= i < |es| && Listed(es[i], userId, isActive, frequency) ==> EntryAt(es, i, now) in r
    ensures forall a, b :: 0 <= a < b < |r| ==> r[a].id < r[b].id
  {
    var ps := Positions(es, e => Listed(e, userId, isActive, frequency));
    EntriesAt(es, ps, now)
  }

  /** The entries of the given expense positions, in the same order. */
  function EntriesAt(es: seq<RecurringExpense>, ps: seq<nat>, now: Instant): (r: seq<Entry>)
    requires forall k :: 0 <= k < |ps| ==> ps[k] < |es|
    ensures |r| == |ps|
    ensures forall k :: 0 <= k < |r| ==> r[k] == EntryAt(es, ps[k], now)
    ensures forall i :: 0 <= i < |es| && i in ps ==> EntryAt(es, i, now) in r
  {
    var r := seq(|ps|, k requires 0 <= k < |ps| => EntryAt(es, ps[k], now));
    forall i | 0 <= i < |es| && i in ps ensures EntryAt(es, i, now) in r {
      var k :| 0 <= k < |ps| && ps[k] == i;
      assert r[k] == EntryAt(es, i, now);
    }
    r
  }

  function EntryId(x: Entry): int {
    x.id
  }

  function DueKey(x: Entry): int {
    EpochSeconds(x.expense.nextDueDate)
  }

  /** The listing: the caller's expenses passing the filters, earliest due
      first, each with its overdue and due-today flags at `now`. */
  function GetRecurringExpenses(db: Db, userId: nat, isActive: Option<string>, frequency: string,
                                now: Instant): (r: seq<Entry>)
    ensures forall k :: 0 <= k < |r| ==>
      && IsId(r[k].id, |db.expenses|) && r[k] == EntryAt(db.expenses, r[k].id - 1, now)
      && Listed(r[k].expense, userId, isActive, frequency)
    ensures forall i :: 0 <= i < |db.expenses| && Listed(db.expenses[i], userId, isActive, frequency) ==>
      EntryAt(db.expenses, i, now) in r
    ensures forall a, b :: 0 <= a < b < |r| ==> NotAfter(r[a].expense.nextDueDate, r[b].expense.nextDueDate)
    ensures forall a, b :: 0 <= a < b < |r| ==> r[a].id != r[b].id
  {
    var s := SelectExpenses(db.expenses, userId, isActive, frequency, now);
    SortByDistinct(s, DueKey, EntryId);
    SortByMembers(s, DueKey);
    SortByKeeps(s, DueKey, (x: Entry) => IsId(x.id, |db.expenses|) && x == EntryAt(db.expenses, x.id - 1, now)
                                && Listed(x.expense, userId, isActive, frequency));
    var sorted := SortBy(s, DueKey);
    sorted
  }

  /** One of the caller's expenses, active or not, with its flags at `now`. */
  function GetRecurringExpense(db: Db, userId: nat, id: nat, now: Instant): (r: Result<Entry>)
    ensures r.Ok? <==> OwnsExpense(db, userId, id)
    ensures r.Ok? ==> r.value == EntryAt(db.expenses, id - 1, now)
    ensures r.Err? ==> r.error == NotFound("Recurring expense not found")
  {
    if !OwnsExpense(db, userId, id) then Err(NotFound("Recurring expense not found"))
    else Ok(EntryAt(db.expenses, id - 1, now))
  }

  /** Only the literal "false" lists inactive expenses, and only "true" (or
      nothing) hides them; "all" or any other value lists both. */
  lemma ActiveFilterCases(e: RecurringExpense, userId: nat, isActive: Option<string>)
    requires e.userId == userId && !e.deleted
    ensures isActive.None? ==> (Listed(e, userId, isActive, "") <==> e.isActive)
    ensures isActive == Some("false") ==> (Listed(e, userId, isActive, "") <==> !e.isActive)
    ensures (isActive.Some? && isActive.value != "" && isActive.value != "true" && isActive.value != "false")
            ==> Listed(e, userId, isActive, "")
  {
  }

  // ---------------------------------------------------------------------------
  // Execution

  datatype ExecuteRequest = ExecuteRequest(
    accountId: Option<nat>,
    amount: Option<int>,
    date: Option<Instant>,
    notes: string)

  /** The expense transaction of an execution: the amount negated as given
      (not its magnitude), typed as an expense in the expense's category. */
  function ExpenseTransaction(userId: nat, id: nat, e: RecurringExpense, accountId: nat, amount: int,
                              date: Instant, notes: string): (t: Transaction)
    ensures t.amount == -amount && t.direction == "out" && t.txType == "expense"
    ensures t.reference == ExpenseRef(id) && t.categoryId == Some(e.categoryId) && t.accountId == accountId
  {
    Transaction(userId, accountId, -amount, "out", e.description, date, notes, "expense",
                Some(e.categoryId), ExpenseRef(id), false)
  }

  /** The transaction passes the triggers exactly when the effective amount is positive. */
  lemma ExpenseTransactionAdmissible(userId: nat, id: nat, e: RecurringExpense, accountId: nat, amount: int,
                                     date: Instant, notes: string)
    ensures Ledger.RowInvariant(ExpenseTransaction(userId, id, e, accountId, amount, date, notes)) <==> amount > 0
  {
  }

  /** The expense with its due date advanced once. */
  function Advanced(e: RecurringExpense): RecurringExpense {
    e.(nextDueDate := CalculateNextDueDate(e))
  }

  /** Execution answers with the new transaction's id. Three writes: the
      transaction, the advanced due date, the regenerated reminders. */
  function ExecuteRecurringExpense(db: Db, userId: nat, id: nat, req: ExecuteRequest, now: Instant): (r: Response<nat>)
    ensures r.result.Ok? ==> OwnsExpense(db, userId, id)
    ensures r.result.Ok? && OwnsExpense(db, userId, id) ==>
      var e := db.expenses[id - 1];
      var accountId := Overwrite(e.accountId, req.accountId);
      var amount := Overwrite(e.amount, req.amount);
      && e.isActive && OwnsAccount(db, userId, accountId) && amount > 0
      && r.result.value == |db.transactions| + 1
      && r.db == CreateReminders(
                   db.(transactions := db.transactions
                                       + [ExpenseTransaction(userId, id, e, accountId, amount, Overwrite(now, req.date), req.notes)],
                       expenses := db.expenses[id - 1 := Advanced(e)]),
                   id, Advanced(e), now)
    ensures r.result.Err? ==> r.db.expenses == db.expenses && r.db.reminders == db.reminders
    ensures !OwnsExpense(db, userId, id) ==> r == Response(db, Err(NotFound("Recurring expense not found")))
    ensures OwnsExpense(db, userId, id) && !db.expenses[id - 1].isActive ==>
      r == Response(db, Err(BadRequest("Recurring expense is not active")))
  {
    if !OwnsExpense(db, userId, id) then Response(db, Err(NotFound("Recurring expense not found")))
    else
      var e := db.expenses[id - 1];
      if !e.isActive then Response(db, Err(BadRequest("Recurring expense is not active")))
      else
        var accountId := Overwrite(e.accountId, req.accountId);
        var amount := Overwrite(e.amount, req.amount);
        var date := Overwrite(now, req.date);
        if !OwnsAccount(db, userId, accountId) then Response(db, Err(NotFound("Account not found")))
        else
          ExpenseTransactionAdmissible(userId, id, e, accountId, amount, date, req.notes);
          RecordExecution(db, id, ExpenseTransaction(userId, id, e, accountId, amount, date, req.notes), now)
  }

  /** The three writes of an execution: the transaction, the advanced due
      date, the regenerated reminders; a refused write ends the sequence. */
  function RecordExecution(db: Db, id: nat, t: Transaction, now: Instant): (r: Response<nat>)
    requires IsId(id, |db.expenses|)
    ensures r.result.Ok? <==> Ledger.RowInvariant(t) && Recurring.RowInvariant(Advanced(db.expenses[id - 1]))
    ensures r.result.Ok? ==>
      && r.result.value == |db.transactions| + 1
      && r.db == CreateReminders(db.(transactions := db.transactions + [t],
                                     expenses := db.expenses[id - 1 := Advanced(db.expenses[id - 1])]),
                                 id, Advanced(db.expenses[id - 1]), now)
    ensures r.result.Err? ==> r.db.expenses == db.expenses && r.db.reminders == db.reminders
    ensures !Ledger.RowInvariant(t) ==> r == Response(db, Err(Internal("Could not create transaction")))
  {
    var e := db.expenses[id - 1];
    match InsertTransaction(db, t)
    case None => Response(db, Err(Internal("Could not create transaction")))
    case Some(db1) =>
      match SaveExpense(db1, id, Advanced(e))
      case None => Response(db1, Err(Internal("Could not update next due date")))
      case Some(db2) => Response(CreateReminders(db2, id, Advanced(e), now), Ok(|db.transactions| + 1))
  }

  /** On a store whose expenses pass the triggers, execution of an owned,
      active expense into an owned account succeeds exactly when the
      effective amount is positive; otherwise nothing is written. */
  lemma ExecuteSucceedsIff(db: Db, userId: nat, id: nat, req: ExecuteRequest, now: Instant)
    requires ExpensesValid(db.expenses)
    requires OwnsExpense(db, userId, id) && db.expenses[id - 1].isActive
    requires OwnsAccount(db, userId, Overwrite(db.expenses[id - 1].accountId, req.accountId))
    ensures var r := ExecuteRecurringExpense(db, userId, id, req, now);
      && (r.result.Ok? <==> Overwrite(db.expenses[id - 1].amount, req.amount) > 0)
      && (r.result.Err? ==> r.db == db)
  {
    assert Recurring.RowInvariant(db.expenses[id - 1]);
  }

  /** A successful execution moves the due date strictly forward, by one
      step of the expense's frequency, and leaves every other expense alone. */
  lemma ExecuteAdvancesOnce(db: Db, userId: nat, id: nat, req: ExecuteRequest, now: Instant)
    requires ExecuteRecurringExpense(db, userId, id, req, now).result.Ok?
    ensures var es := ExecuteRecurringExpense(db, userId, id, req, now).db.expenses;
      && |es| == |db.expenses|
      && es[id - 1].nextDueDate == CalculateNextDueDate(db.expenses[id - 1])
      && After(es[id - 1].nextDueDate, db.expenses[id - 1].nextDueDate)
      && es[id - 1].(nextDueDate := db.expenses[id - 1].nextDueDate) == db.expenses[id - 1]
      && forall i :: 0 <= i < |es| && i != id - 1 ==> es[i] == db.expenses[i]
  {
    var e := db.expenses[id - 1];
    assert Recurring.RowInvariant(Advanced(e));
    NextDueDateIsLater(e);
  }

  // ---------------------------------------------------------------------------
  // Delete

  /** The soft delete; the expense's reminders are left in place. */
  function DeleteRecurringExpense(db: Db, userId: nat, id: nat): (r: Response<nat>)
    ensures r.result.Ok? <==> OwnsExpense(db, userId, id)
    ensures r.result.Ok? ==> r.db == db.(expenses := db.expenses[id - 1 := db.expenses[id - 1].(deleted := true)])
    ensures r.result.Err? ==> r.db == db
  {
    if !OwnsExpense(db, userId, id) then Response(db, Err(NotFound("Recurring expense not found")))
    else Response(db.(expenses := db.expenses[id - 1 := db.expenses[id - 1].(deleted := true)]), Ok(id))
  }

  /** Every recurring-expense handler keeps the store's expense rows valid. */
  lemma CreateKeepsExpensesValid(db: Db, userId: nat, req: CreateExpenseRequest, now: Instant)
    requires ExpensesValid(db.expenses)
    ensures ExpensesValid(CreateRecurringExpense(db, userId, req, now).db.expenses)
  {
  }

  lemma UpdateKeepsExpensesValid(db: Db, userId: nat, id: nat, req: UpdateExpenseRequest)
    requires ExpensesValid(db.expenses)
    ensures ExpensesValid(UpdateRecurringExpense(db, userId, id, req).db.expenses)
  {
  }

  lemma ExecuteKeepsExpensesValid(db: Db, userId: nat, id: nat, req: ExecuteRequest, now: Instant)
    requires ExpensesValid(db.expenses)
    ensures ExpensesValid(ExecuteRecurringExpense(db, userId, id, req, now).db.expenses)
  {
    var r := ExecuteRecurringExpense(db, userId, id, req, now);
    if r.result.Ok? {
      var e := db.expenses[id - 1];
      assert Recurring.RowInvariant(e);
      assert Recurring.RowInvariant(Advanced(e));
      assert r.db.expenses == db.expenses[id - 1 := Advanced(e)];
    }
  }

  lemma DeleteKeepsExpensesValid(db: Db, userId: nat, id: nat)
    requires ExpensesValid(db.expenses)
    ensures ExpensesValid(DeleteRecurringExpense(db, userId, id).db.expenses)
  {
    if OwnsExpense(db, userId, id) {
      assert Recurring.RowInvariant(db.expenses[id - 1]);
    }
  }
}

=== FILE: reminder_service.dfy ===
/** The reminder service: regenerating an expense's reminders around its
    next due date, the dispatch sweep, and the overdue check with its
    one-day de-duplication window. */
module ReminderService {
  import opened Common
  import opened Calendar
  import opened Recurring
  import opened Reminders
  import opened Store

  /** The reminder type (and reference type) of every reminder the service creates. */
  const ReminderType: string := "recurring_expense"

  /** The title prefix that marks an overdue reminder. */
  const OverdueTag: string := "¡VENCIDO!"

  // ---------------------------------------------------------------------------
  // Regeneration

  /** A reminder that regeneration for `expenseId` deletes: one of that
      expense's reminders that has not been sent. */
  predicate Purged(r: Reminder, expenseId: nat) {
    r.reference == ExpenseRef(expenseId) && !r.isSent
  }

  /** The soft delete of the expense's unsent reminders. */
  function Purge(rs: seq<Reminder>, expenseId: nat): (r: seq<Reminder>)
    ensures |r| == |rs|
    ensures forall i :: 0 <= i < |rs| ==> r[i].(deleted := rs[i].deleted) == rs[i]
    ensures forall i :: 0 <= i < |rs| ==> (r[i].deleted <==> rs[i].deleted || Purged(rs[i], expenseId))
  {
    seq(|rs|, i requires 0 <= i < |rs| => if Purged(rs[i], expenseId) then rs[i].(deleted := true) else rs[i])
  }

  datatype Candidate = Candidate(remindAt: Instant, title: string, description: string, priority: string)

  /** The three candidate reminders of an expense: two days before (normal
      priority), one day before and on the due date (high priority). */
  function Candidates(e: RecurringExpense): (cs: seq<Candidate>)
    ensures |cs| == 3 && cs[2].remindAt == e.nextDueDate
    ensures EpochSeconds(cs[0].remindAt) == EpochSeconds(e.nextDueDate) - 2 * SecondsPerDay
    ensures EpochSeconds(cs[1].remindAt) == EpochSeconds(e.nextDueDate) - SecondsPerDay
    ensures cs[0].priority == "normal" && cs[1].priority == "high" && cs[2].priority == "high"
  {
    var d := e.nextDueDate;
    AddDaysIsLinear(d, -2);
    AddDaysIsLinear(d, -1);
    [Candidate(AddDate(d, 0, 0, -2), "Próximo: " + e.description, "Vence en 2 días", "normal"),
     Candidate(AddDate(d, 0, 0, -1), "Mañana vence: " + e.description, "Vence mañana", "high"),
     Candidate(d, "¡Vence hoy! " + e.description, "Vence hoy", "high")]
  }

  function ReminderFor(c: Candidate, userId: nat, expenseId: nat, now: Instant): Reminder {
    NewReminder(userId, c.title, c.description, ReminderType, ExpenseRef(expenseId), c.remindAt, c.priority, now)
  }

  /** The candidates whose time is strictly after `now`, in order. */
  function Upcoming(cs: seq<Candidate>, now: Instant): (r: seq<Candidate>)
    ensures |r| <= |cs|
    ensures forall c :: c in r <==> c in cs && After(c.remindAt, now)
    ensures (forall c :: c in cs ==> !After(c.remindAt, now)) ==> r == []
    ensures (forall c :: c in cs ==> After(c.remindAt, now)) ==> r == cs
  {
    if |cs| == 0 then []
    else
      var rest := Upcoming(cs[1..], now);
      assert cs == [cs[0]] + cs[1..];
      if After(cs[0].remindAt, now) then [cs[0]] + rest else rest
  }

  /** The upcoming candidates as new reminders of the expense. */
  function Schedule(cs: seq<Candidate>, userId: nat, expenseId: nat, now: Instant): (r: seq<Reminder>)
    ensures |r| <= |cs|
    ensures forall k :: 0 <= k < |r| ==>
      && r[k].reference == ExpenseRef(expenseId) && r[k].userId == userId && r[k].reminderType == ReminderType
      && r[k].isActive && !r[k].isSent && !r[k].deleted && r[k].createdAt == now
      && After(r[k].remindAt, now)
  {
    var up := Upcoming(cs, now);
    seq(|up|, k requires 0 <= k < |up| => ReminderFor(up[k], userId, expenseId, now))
  }

  /** Regeneration for expense `expenseId`: delete its unsent reminders, then
      create the candidates that still lie in the future. */
  function CreateReminders(db: Db, expenseId: nat, e: RecurringExpense, now: Instant): (r: Db)
    ensures r == db.(reminders := r.reminders)
    ensures |db.reminders| <= |r.reminders| <= |db.reminders| + 3
    ensures forall i :: 0 <= i < |db.reminders| ==>
      && r.reminders[i].(deleted := db.reminders[i].deleted) == db.reminders[i]
      && (r.reminders[i].deleted <==> db.reminders[i].deleted || Purged(db.reminders[i], expenseId))
    ensures r.reminders[|db.reminders|..] == Schedule(Candidates(e), e.userId, expenseId, now)
  {
    var purged := Purge(db.reminders, expenseId);
    var created := Schedule(Candidates(e), e.userId, expenseId, now);
    assert (purged + created)[|db.reminders|..] == created;
    db.(reminders := purged + created)
  }

  /** After regeneration the expense's pending reminders are exactly the new
      ones, and every one of them lies strictly in the future. */
  lemma RegeneratedAreFuture(db: Db, expenseId: nat, e: RecurringExpense, now: Instant)
    ensures var rs := CreateReminders(db, expenseId, e, now).reminders;
      forall i :: 0 <= i < |rs| && !rs[i].deleted && !rs[i].isSent && rs[i].reference == ExpenseRef(expenseId) ==>
        |db.reminders| <= i && After(rs[i].remindAt, now)
  {
    var rs := CreateReminders(db, expenseId, e, now).reminders;
    var created := Schedule(Candidates(e), e.userId, expenseId, now);
    forall i | 0 <= i < |rs| && !rs[i].deleted && !rs[i].isSent && rs[i].reference == ExpenseRef(expenseId)
      ensures |db.reminders| <= i && After(rs[i].remindAt, now)
    {
      if i >= |db.reminders| {
        assert rs[i] == rs[|db.reminders|..][i - |db.reminders|];
      }
    }
  }

  /** How many reminders regeneration creates: all three while the first
      candidate is still ahead, none once the due date itself has passed. */
  lemma RegenerationCount(db: Db, expenseId: nat, e: RecurringExpense, now: Instant)
    ensures var n := |CreateReminders(db, expenseId, e, now).reminders| - |db.reminders|;
      && (EpochSeconds(now) < EpochSeconds(e.nextDueDate) - 2 * SecondsPerDay ==> n == 3)
      && (EpochSeconds(now) >= EpochSeconds(e.nextDueDate) ==> n == 0)
  {
    var cs := Candidates(e);
    var up := Upcoming(cs, now);
    var r := CreateReminders(db, expenseId, e, now);
    assert |r.reminders| - |db.reminders| == |Schedule(cs, e.userId, expenseId, now)| == |up|;
    assert cs == [cs[0], cs[1], cs[2]];
    if EpochSeconds(now) < EpochSeconds(e.nextDueDate) - 2 * SecondsPerDay {
      assert After(cs[0].remindAt, now) && After(cs[1].remindAt, now) && After(cs[2].remindAt, now);
    } else if EpochSeconds(now) >= EpochSeconds(e.nextDueDate) {
      assert !After(cs[0].remindAt, now) && !After(cs[1].remindAt, now) && !After(cs[2].remindAt, now);
    }
  }

  // ---------------------------------------------------------------------------
  // The overdue check

  /** The overdue check's selection: a live active expense whose due date
      lies more than one day back. */
  predicate ConsideredOverdue(e: RecurringExpense, now: Instant) {
    !e.deleted && e.isActive && After(AddDate(now, 0, 0, -1), e.nextDueDate)
  }

  /** The de-duplication query: a live overdue reminder of the expense
      created within the last day. */
  predicate RecentOverdue(rs: seq<Reminder>, expenseId: nat, now: Instant) {
    exists j :: 0 <= j < |rs| && !rs[j].deleted && rs[j].reference == ExpenseRef(expenseId)
                && IsPrefix(OverdueTag, rs[j].title) && After(rs[j].createdAt, AddDate(now, 0, 0, -1))
  }

  /** Whole days since the due date, rounded down. */
  function DaysLate(due: Instant, now: Instant): (n: int)
    requires After(AddDate(now, 0, 0, -1), due)
    ensures n >= 1
    ensures n * SecondsPerDay <= EpochSeconds(now) - EpochSeconds(due) < (n + 1) * SecondsPerDay
  {
    AddDaysIsLinear(now, -1);
    (EpochSeconds(now) - EpochSeconds(due)) / SecondsPerDay
  }

  /** The overdue reminder as it ends up stored: created now, high priority,
      due now and already marked sent. */
  function OverdueReminder(e: RecurringExpense, expenseId: nat, now: Instant): (r: Reminder)
    requires ConsideredOverdue(e, now)
    ensures r.isSent && r.isActive && !r.deleted && r.priority == "high" && r.remindAt == now && r.createdAt == now
    ensures r.reference == ExpenseRef(expenseId) && r.userId == e.userId && r.reminderType == ReminderType
    ensures IsPrefix(OverdueTag, r.title) && After(r.createdAt, AddDate(now, 0, 0, -1))
  {
    AddDaysIsLinear(now, -1);
    var title := OverdueTag + " " + e.description;
    assert title[..|OverdueTag|] == OverdueTag;
    MarkAsSent(NewReminder(e.userId, title, "Lleva " + IntToString(DaysLate(e.nextDueDate, now)) + " días vencido",
                           ReminderType, ExpenseRef(expenseId), now, "high", now))
  }

  lemma RecentOverdueGrows(rs: seq<Reminder>, ext: seq<Reminder>, expenseId: nat, now: Instant)
    requires |rs| <= |ext| && ext[..|rs|] == rs
    requires RecentOverdue(rs, expenseId, now)
    ensures RecentOverdue(ext, expenseId, now)
  {
    var j :| 0 <= j < |rs| && !rs[j].deleted && rs[j].reference == ExpenseRef(expenseId)
             && IsPrefix(OverdueTag, rs[j].title) && After(rs[j].createdAt, AddDate(now, 0, 0, -1));
    assert ext[j] == rs[j];
  }

  /** One expense of the check: an overdue reminder unless one is recent. */
  function OverdueStep(db: Db, now: Instant, i: nat): (r: Db)
    requires i < |db.expenses|
    ensures r == db.(reminders := r.reminders)
    ensures |db.reminders| <= |r.reminders| <= |db.reminders| + 1 && r.reminders[..|db.reminders|] == db.reminders
    ensures |r.reminders| == |db.reminders| + 1 <==>
      ConsideredOverdue(db.expenses[i], now) && !RecentOverdue(db.reminders, i + 1, now)
    ensures ConsideredOverdue(db.expenses[i], now) ==> RecentOverdue(r.reminders, i + 1, now)
    ensures forall k :: |db.reminders| <= k < |r.reminders| ==> Finished(r.reminders[k])
  {
    var e := db.expenses[i];
    if ConsideredOverdue(e, now) && !RecentOverdue(db.reminders, i + 1, now) then
      var rs := db.reminders + [OverdueReminder(e, i + 1, now)];
      assert rs[|db.reminders|] == OverdueReminder(e, i + 1, now);
      assert rs[..|db.reminders|] == db.reminders;
      db.(reminders := rs)
    else db
  }

  /** The check from expense position `i` on. */
  function CheckOverdueFrom(db: Db, now: Instant, i: nat): (r: Db)
    requires i <= |db.expenses|
    ensures r == db.(reminders := r.reminders)
    ensures |db.reminders| <= |r.reminders| <= |db.reminders| + (|db.expenses| - i)
    ensures r.reminders[..|db.reminders|] == db.reminders
    ensures forall j :: i <= j < |db.expenses| && ConsideredOverdue(db.expenses[j], now) ==>
      RecentOverdue(r.reminders, j + 1, now)
    ensures forall k :: |db.reminders| <= k < |r.reminders| ==> Finished(r.reminders[k])
    decreases |db.expenses| - i
  {
    if i == |db.expenses| then db
    else
      var db1 := OverdueStep(db, now, i);
      var r := CheckOverdueFrom(db1, now, i + 1);
      assert r.reminders[..|db.reminders|] == r.reminders[..|db1.reminders|][..|db.reminders|];
      RecentOverdueGrowsFrom(db1.reminders, r.reminders, now, i);
      CoveredFrom(db.expenses, r.reminders, now, i);
      FinishedSuffix(db.reminders, db1.reminders, r.reminders);
      r
  }

  /** A stored reminder that the sweep will never send again. */
  predicate Finished(r: Reminder) {
    r.isSent && !r.deleted
  }

  lemma FinishedSuffix(a: seq<Reminder>, b: seq<Reminder>, c: seq<Reminder>)
    requires |a| <= |b| <= |c| && c[..|b|] == b
    requires forall k :: |a| <= k < |b| ==> Finished(b[k])
    requires forall k :: |b| <= k < |c| ==> Finished(c[k])
    ensures forall k :: |a| <= k < |c| ==> Finished(c[k])
  {
    forall k | |a| <= k < |b| ensures Finished(c[k]) {
      assert c[k] == c[..|b|][k];
    }
  }

  /** Coverage of position `i` and of every later position is coverage from `i`. */
  lemma CoveredFrom(es: seq<RecurringExpense>, rs: seq<Reminder>, now: Instant, i: nat)
    requires i < |es|
    requires ConsideredOverdue(es[i], now) ==> RecentOverdue(rs, i + 1, now)
    requires forall j :: i + 1 <= j < |es| && ConsideredOverdue(es[j], now) ==> RecentOverdue(rs, j + 1, now)
    ensures forall j :: i <= j < |es| && ConsideredOverdue(es[j], now) ==> RecentOverdue(rs, j + 1, now)
  {
  }

  lemma RecentOverdueGrowsFrom(rs: seq<Reminder>, ext: seq<Reminder>, now: Instant, i: nat)
    requires |rs| <= |ext| && ext[..|rs|] == rs
    ensures RecentOverdue(rs, i + 1, now) ==> RecentOverdue(ext, i + 1, now)
  {
    if RecentOverdue(rs, i + 1, now) {
      RecentOverdueGrows(rs, ext, i + 1, now);
    }
  }

  function CheckOverdue(db: Db, now: Instant): (r: Db)
    ensures r == db.(reminders := r.reminders)
    ensures |db.reminders| <= |r.reminders| && r.reminders[..|db.reminders|] == db.reminders
    ensures forall j :: 0 <= j < |db.expenses| && ConsideredOverdue(db.expenses[j], now) ==>
      RecentOverdue(r.reminders, j + 1, now)
  {
    CheckOverdueFrom(db, now, 0)
  }

  /** The check creates nothing for expenses that already have a recent
      overdue reminder. */
  lemma {:induction false} CheckOverdueFromNoOp(db: Db, now: Instant, i: nat)
    requires i <= |db.expenses|
    requires forall j :: i <= j < |db.expenses| && ConsideredOverdue(db.expenses[j], now) ==>
      RecentOverdue(db.reminders, j + 1, now)
    ensures CheckOverdueFrom(db, now, i) == db
    decreases |db.expenses| - i
  {
    if i < |db.expenses| {
      assert OverdueStep(db, now, i) == db;
      CheckOverdueFromNoOp(db, now, i + 1);
    }
  }

  /** The one-day window makes the check idempotent: run twice at the same
      instant, the second run creates nothing. */
  lemma CheckOverdueIdempotent(db: Db, now: Instant)
    ensures CheckOverdue(CheckOverdue(db, now), now) == CheckOverdue(db, now)
  {
    CheckOverdueFromNoOp(CheckOverdue(db, now), now, 0);
  }

  /** Every expense the check selects is overdue in the model's sense (and
      by more than a day). */
  lemma ConsideredOverdueIsOverdue(e: RecurringExpense, now: Instant)
    requires ConsideredOverdue(e, now)
    ensures IsOverdue(e, now)
  {
    AddDaysIsLinear(now, -1);
  }

  // ---------------------------------------------------------------------------
  // The daily sweep

  /** Marks sent every reminder the dispatch query selects. */
  function Dispatch(rs: seq<Reminder>, now: Instant): (r: seq<Reminder>)
    ensures |r| == |rs|
    ensures forall i :: 0 <= i < |rs| ==> r[i].(isSent := rs[i].isSent) == rs[i]
    ensures forall i :: 0 <= i < |rs| ==> (r[i].isSent <==> rs[i].isSent || DueForDispatch(rs[i], now))
  {
    seq(|rs|, i requires 0 <= i < |rs| => if DueForDispatch(rs[i], now) then MarkAsSent(rs[i]) else rs[i])
  }

  /** The sweep: dispatch the due reminders, then run the overdue check. */
  function ProcessPendingReminders(db: Db, now: Instant): (r: Db)
    ensures r == db.(reminders := r.reminders)
    ensures |r.reminders| >= |db.reminders|
    ensures r.reminders[..|db.reminders|] == Dispatch(db.reminders, now)
  {
    CheckOverdue(db.(reminders := Dispatch(db.reminders, now)), now)
  }

  /** After the sweep nothing is left for dispatch at that instant, and no
      live reminder should be sent. */
  lemma SweepClearsBacklog(db: Db, now: Instant)
    ensures var rs := ProcessPendingReminders(db, now).reminders;
      forall i :: 0 <= i < |rs| && !rs[i].deleted ==> !DueForDispatch(rs[i], now) && !ShouldBeSent(rs[i], now)
  {
    var d := db.(reminders := Dispatch(db.reminders, now));
    var rs := ProcessPendingReminders(db, now).reminders;
    forall i | 0 <= i < |rs| && !rs[i].deleted ensures !DueForDispatch(rs[i], now) && !ShouldBeSent(rs[i], now) {
      if i < |db.reminders| {
        assert rs[i] == rs[..|db.reminders|][i];
        ShouldBeSentVersusSweep(rs[i], now);
      }
    }
  }
}

=== FILE: reminders.dfy ===
/** Reminders: the stored record with its creation defaults, whether a
    reminder should be sent, and marking it sent. */
module Reminders {
  import opened Common
  import opened Calendar

  /** A stored reminder. `createdAt` is the store's creation timestamp;
      `deleted` is the soft-delete mark. */
  datatype Reminder = Reminder(
    userId: nat,
    title: string,
    description: string,
    reminderType: string,
    reference: Reference,
    remindAt: Instant,
    isActive: bool,
    isSent: bool,
    priority: string,
    createdAt: Instant,
    deleted: bool)

  /** A reminder as the store creates it: active, not sent, and with priority
      "normal" unless one is given (the column defaults). */
  function NewReminder(userId: nat, title: string, description: string, reminderType: string,
                       reference: Reference, remindAt: Instant, priority: string, createdAt: Instant): (r: Reminder)
    ensures r.isActive && !r.isSent && !r.deleted
    ensures r.priority == (if priority == "" then "normal" else priority)
    ensures r.userId == userId && r.title == title && r.reference == reference && r.remindAt == remindAt
    ensures r.createdAt == createdAt && r.reminderType == reminderType && r.description == description
  {
    Reminder(userId, title, description, reminderType, reference, remindAt, true, false,
             if priority == "" then "normal" else priority, createdAt, false)
  }

  predicate ShouldBeSent(r: Reminder, now: Instant) {
    r.isActive && !r.isSent && After(now, r.remindAt)
  }

  /** The selection of the dispatch sweep: live, active, unsent reminders
      whose time is now or earlier. */
  predicate DueForDispatch(r: Reminder, now: Instant) {
    !r.deleted && r.isActive && !r.isSent && NotAfter(r.remindAt, now)
  }

  function MarkAsSent(r: Reminder): (m: Reminder)
    ensures m.isSent
    ensures m.(isSent := r.isSent) == r
  {
    r.(isSent := true)
  }

  lemma MarkAsSentIdempotent(r: Reminder)
    ensures MarkAsSent(MarkAsSent(r)) == MarkAsSent(r)
  {
  }

  /** Once marked sent, a reminder is never again due, by either test. */
  lemma MarkedIsNotDue(r: Reminder, now: Instant)
    ensures !ShouldBeSent(MarkAsSent(r), now) && !DueForDispatch(MarkAsSent(r), now)
  {
  }

  /** For a live reminder, "should be sent" is the sweep's selection minus the
      boundary instant: at exactly its remind time the sweep picks it up
      although it should not yet be sent. */
  lemma ShouldBeSentVersusSweep(r: Reminder, now: Instant)
    requires !r.deleted
    ensures ShouldBeSent(r, now) <==> DueForDispatch(r, now) && r.remindAt != now
  {
    if EpochSeconds(r.remindAt) == EpochSeconds(now) {
      EpochSecondsInjective(r.remindAt, now);
    }
  }
}

=== FILE: sessions.dfy ===
/** Users and device sessions. A device session is the server side of one
    login: it holds the refresh-token id the access tokens of that login name,
    the hash of the current refresh token, and whether it is still active. */
module Sessions {
  import opened Common
  import opened Calendar

  datatype User = User(
    name: string,
    email: string,
    passwordHash: string,
    phoneNumber: string,
    notificationsEnabled: bool,
    pushNotifications: bool,
    inAppNotifications: bool,
    timezone: string)

  /** A user as the store creates it at registration: the three notification
      switches on and the default time zone. */
  function NewUser(name: string, email: string, passwordHash: string, phoneNumber: string): (u: User)
    ensures u.notificationsEnabled && u.pushNotifications && u.inAppNotifications
    ensures u.timezone == "America/Lima"
    ensures u.name == name && u.email == email && u.passwordHash == passwordHash && u.phoneNumber == phoneNumber
  {
    User(name, email, passwordHash, phoneNumber, true, true, true, "America/Lima")
  }

  datatype DeviceSession = DeviceSession(
    userId: nat,
    deviceId: string,
    deviceName: string,
    deviceType: string,
    deviceModel: string,
    osVersion: string,
    ipAddress: string,
    userAgent: string,
    refreshTokenHash: string,
    refreshTokenId: string,
    fcmToken: string,
    isActive: bool,
    loginAt: Instant,
    logoutAt: Option<Instant>,
    logoutReason: string,
    lastActivity: Instant)

  /** The row with this email, if any (emails are unique). */
  predicate EmailTaken(users: seq<User>, email: string) {
    exists i :: 0 <= i < |users| && users[i].email == email
  }

  /** The unique constraint on the users' email column. */
  predicate EmailsUnique(users: seq<User>) {
    forall i, j :: 0 <= i < j < |users| ==> users[i].email != users[j].email
  }

  /** The unique constraint on the sessions' refresh-token-id column. */
  predicate TokenIdsUnique(sessions: seq<DeviceSession>) {
    forall i, j :: 0 <= i < j < |sessions| ==> sessions[i].refreshTokenId != sessions[j].refreshTokenId
  }

  predicate TokenIdTaken(sessions: seq<DeviceSession>, refreshTokenId: string) {
    exists i :: 0 <= i < |sessions| && sessions[i].refreshTokenId == refreshTokenId
  }

  predicate ActiveFor(s: DeviceSession, userId: nat) {
    s.userId == userId && s.isActive
  }

  /** The number of active sessions of a user. */
  function ActiveSessionCount(sessions: seq<DeviceSession>, userId: nat): (n: nat)
    ensures n <= |sessions|
    decreases |sessions|
  {
    if |sessions| == 0 then 0
    else ActiveSessionCount(sessions[..|sessions| - 1], userId) + (if ActiveFor(sessions[|sessions| - 1], userId) then 1 else 0)
  }

  /** Deactivation as login and logout write it. */
  function Deactivate(s: DeviceSession, reason: string, now: Instant): (d: DeviceSession)
    ensures !d.isActive && d.logoutAt == Some(now) && d.logoutReason == reason
    ensures d.(isActive := s.isActive, logoutAt := s.logoutAt, logoutReason := s.logoutReason) == s
  {
    s.(isActive := false, logoutAt := Some(now), logoutReason := reason)
  }

  /** No active session: the count is zero exactly when no row is active for the user. */
  lemma {:induction false} ActiveSessionCountZero(sessions: seq<DeviceSession>, userId: nat)
    ensures ActiveSessionCount(sessions, userId) == 0
      <==> forall i :: 0 <= i < |sessions| ==> !ActiveFor(sessions[i], userId)
    decreases |sessions|
  {
    if |sessions| > 0 {
      var init := sessions[..|sessions| - 1];
      ActiveSessionCountZero(init, userId);
      assert forall i :: 0 <= i < |init| ==> init[i] == sessions[i];
    }
  }

  /** The positions of the rows that are active sessions of the user. */
  function ActivePositions(sessions: seq<DeviceSession>, userId: nat): set<int> {
    set i | 0 <= i < |sessions| && ActiveFor(sessions[i], userId)
  }

  /** Appending a row adds its position exactly when it is active for the user. */
  lemma ActivePositionsStep(sessions: seq<DeviceSession>, userId: nat)
    requires |sessions| > 0
    ensures ActivePositions(sessions, userId)
      == ActivePositions(sessions[..|sessions| - 1], userId)
         + (if ActiveFor(sessions[|sessions| - 1], userId) then {|sessions| - 1} else {})
    ensures |sessions| - 1 !in ActivePositions(sessions[..|sessions| - 1], userId)
  {
    var init := sessions[..|sessions| - 1];
    assert forall i :: 0 <= i < |init| ==> init[i] == sessions[i];
  }

  /** The count is the number of positions that hold an active session of the user. */
  lemma {:induction false} ActiveSessionCountIsCardinality(sessions: seq<DeviceSession>, userId: nat)
    ensures ActiveSessionCount(sessions, userId) == |ActivePositions(sessions, userId)|
    decreases |sessions|
  {
    if |sessions| > 0 {
      var n := |sessions| - 1;
      var init := sessions[..n];
      var before := ActivePositions(init, userId);
      ActiveSessionCountIsCardinality(init, userId);
      ActivePositionsStep(sessions, userId);
      if ActiveFor(sessions[n], userId) {
        assert ActiveSessionCount(sessions, userId) == ActiveSessionCount(init, userId) + 1;
        assert |before + {n}| == |before| + 1;
      } else {
        assert ActiveSessionCount(sessions, userId) == ActiveSessionCount(init, userId);
      }
    }
  }

  /** Appending a row adds one to the count exactly when it is active for the user. */
  lemma ActiveSessionCountAppend(sessions: seq<DeviceSession>, s: DeviceSession, userId: nat)
    ensures ActiveSessionCount(sessions + [s], userId)
      == ActiveSessionCount(sessions, userId) + (if ActiveFor(s, userId) then 1 else 0)
  {
    assert (sessions + [s])[..|sessions + [s]| - 1] == sessions;
  }
}

=== FILE: sorting.dfy ===
/** Ordering of query results by an integer key (`ORDER BY`): a stable
    insertion sort on sequences. The queries do not fix the order of rows with
    equal keys; the model keeps them in their input order, which is id order
    for every query that sorts. */
module Sorting {

  predicate SortedBy<T>(s: seq<T>, key: T -> int) {
    forall i, j :: 0 <= i < j < |s| ==> key(s[i]) <= key(s[j])
  }

  /** Inserting into a sorted sequence keeps it sorted and adds exactly `x`,
      after every element whose key equals that of `x`. */
  function Insert<T>(x: T, s: seq<T>, key: T -> int): (r: seq<T>)
    requires SortedBy(s, key)
    ensures SortedBy(r, key)
    ensures multiset(r) == multiset(s) + multiset{x}
    ensures |r| == |s| + 1
    decreases |s|
  {
    if |s| == 0 then [x]
    else if key(x) < key(s[0]) then [x] + s
    else
      var rest := Insert(x, s[1..], key);
      assert s == [s[0]] + s[1..];
      LowerBound(rest, s[1..], x, key, key(s[0]));
      [s[0]] + rest
  }

  /** A bound on every element of `t` and on `x` bounds every element of a
      permutation of `t` plus `x`. */
  lemma LowerBound<T>(r: seq<T>, t: seq<T>, x: T, key: T -> int, lo: int)
    requires multiset(r) == multiset(t) + multiset{x}
    requires lo <= key(x) && forall k :: 0 <= k < |t| ==> lo <= key(t[k])
    ensures forall k :: 0 <= k < |r| ==> lo <= key(r[k])
  {
    forall k | 0 <= k < |r| ensures lo <= key(r[k]) {
      assert r[k] in multiset(r);
      if r[k] != x {
        assert r[k] in multiset(t);
        var m :| 0 <= m < |t| && t[m] == r[k];
      }
    }
  }

  /** The ordering: a sorted permutation of the input. */
  function SortBy<T>(s: seq<T>, key: T -> int): (r: seq<T>)
    ensures SortedBy(r, key)
    ensures multiset(r) == multiset(s)
    ensures |r| == |s|
    decreases |s|
  {
    if |s| == 0 then []
    else
      var rest := SortBy(s[..|s| - 1], key);
      assert s == s[..|s| - 1] + [s[|s| - 1]];
      Insert(s[|s| - 1], rest, key)
  }

  /** Sorting neither adds nor drops elements. */
  lemma SortByMembers<T>(s: seq<T>, key: T -> int)
    ensures forall x :: x in SortBy(s, key) <==> x in s
  {
    var r := SortBy(s, key);
    assert forall x :: x in r <==> x in multiset(r);
    assert forall x :: x in s <==> x in multiset(s);
  }

  /** A property of every element survives sorting. */
  lemma SortByKeeps<T>(s: seq<T>, key: T -> int, p: T -> bool)
    requires forall k :: 0 <= k < |s| ==> p(s[k])
    ensures forall k :: 0 <= k < |SortBy(s, key)| ==> p(SortBy(s, key)[k])
  {
    var r := SortBy(s, key);
    forall k | 0 <= k < |r| ensures p(r[k]) {
      assert r[k] in multiset(s);
      var j :| 0 <= j < |s| && s[j] == r[k];
    }
  }

  /** An input already ordered by key comes back unchanged. */
  lemma {:induction false} SortBySortedIsIdentity<T>(s: seq<T>, key: T -> int)
    requires SortedBy(s, key)
    ensures SortBy(s, key) == s
    decreases |s|
  {
    if |s| > 0 {
      var init := s[..|s| - 1];
      SortBySortedIsIdentity(init, key);
      InsertAtEnd(s[|s| - 1], init, key);
      assert init + [s[|s| - 1]] == s;
    }
  }

  lemma {:induction false} InsertAtEnd<T>(x: T, s: seq<T>, key: T -> int)
    requires SortedBy(s, key)
    requires forall i :: 0 <= i < |s| ==> key(s[i]) <= key(x)
    ensures Insert(x, s, key) == s + [x]
    decreases |s|
  {
    if |s| > 0 {
      InsertAtEnd(x, s[1..], key);
      assert [s[0]] + (s[1..] + [x]) == s + [x];
    }
  }

  /** The elements of `s` whose key is `k`, in their order in `s`. */
  function WithKey<T>(s: seq<T>, key: T -> int, k: int): (r: seq<T>)
    ensures |r| <= |s|
    decreases |s|
  {
    if |s| == 0 then []
    else (if key(s[0]) == k then [s[0]] else []) + WithKey(s[1..], key, k)
  }

  lemma {:induction false} WithKeyAppend<T>(a: seq<T>, b: seq<T>, key: T -> int, k: int)
    ensures WithKey(a + b, key, k) == WithKey(a, key, k) + WithKey(b, key, k)
    decreases |a|
  {
    if |a| == 0 {
      assert a + b == b;
    } else {
      WithKeyAppend(a[1..], b, key, k);
      assert (a + b)[1..] == a[1..] + b;
    }
  }

  lemma {:induction false} WithKeyAbove<T>(s: seq<T>, key: T -> int, k: int)
    requires forall i :: 0 <= i < |s| ==> k < key(s[i])
    ensures WithKey(s, key, k) == []
    decreases |s|
  {
    if |s| > 0 {
      WithKeyAbove(s[1..], key, k);
    }
  }

  lemma WithKeyOne<T>(x: T, key: T -> int, k: int)
    ensures WithKey([x], key, k) == if key(x) == k then [x] else []
  {
    assert [x][1..] == [];
  }

  /** Insertion puts `x` after every element with the same key. */
  lemma {:induction false} InsertWithKey<T>(x: T, s: seq<T>, key: T -> int, k: int)
    requires SortedBy(s, key)
    ensures WithKey(Insert(x, s, key), key, k) == WithKey(s, key, k) + WithKey([x], key, k)
    decreases |s|
  {
    if |s| == 0 {
      assert Insert(x, s, key) == [x];
    } else if key(x) < key(s[0]) {
      assert Insert(x, s, key) == [x] + s;
      InsertBefore(x, s, key, k);
    } else {
      var rest := Insert(x, s[1..], key);
      assert Insert(x, s, key) == [s[0]] + rest;
      InsertWithKey(x, s[1..], key, k);
      InsertAfter(x, s, rest, key, k);
    }
  }

  lemma InsertAfter<T>(x: T, s: seq<T>, rest: seq<T>, key: T -> int, k: int)
    requires |s| > 0
    requires WithKey(rest, key, k) == WithKey(s[1..], key, k) + WithKey([x], key, k)
    ensures WithKey([s[0]] + rest, key, k) == WithKey(s, key, k) + WithKey([x], key, k)
  {
    var t := [s[0]] + rest;
    assert t[0] == s[0] && t[1..] == rest;
    var head := if key(s[0]) == k then [s[0]] else [];
    assert WithKey(t, key, k) == head + WithKey(rest, key, k);
    assert WithKey(s, key, k) == head + WithKey(s[1..], key, k);
  }

  lemma InsertBefore<T>(x: T, s: seq<T>, key: T -> int, k: int)
    requires SortedBy(s, key) && |s| > 0 && key(x) < key(s[0])
    ensures WithKey([x] + s, key, k) == WithKey(s, key, k) + WithKey([x], key, k)
  {
    WithKeyAppend([x], s, key, k);
    WithKeyOne(x, key, k);
    if key(x) == k {
      WithKeyAbove(s, key, k);
    }
  }

  /** Stability: for every key, the elements with that key come out in the
      order they went in. */
  lemma {:induction false} SortByStable<T>(s: seq<T>, key: T -> int, k: int)
    ensures WithKey(SortBy(s, key), key, k) == WithKey(s, key, k)
    decreases |s|
  {
    if |s| > 0 {
      var init := s[..|s| - 1];
      SortByStable(init, key, k);
      InsertWithKey(s[|s| - 1], SortBy(init, key), key, k);
      WithKeyAppend(init, [s[|s| - 1]], key, k);
      assert init + [s[|s| - 1]] == s;
    }
  }

  /** No two elements of `s` share an id. */
  predicate DistinctBy<T>(s: seq<T>, id: T -> int) {
    forall a, b :: 0 <= a < b < |s| ==> id(s[a]) != id(s[b])
  }

  /** Inserting an element whose id is new keeps the ids distinct. */
  lemma {:induction false} InsertDistinct<T>(x: T, s: seq<T>, key: T -> int, id: T -> int)
    requires SortedBy(s, key) && DistinctBy(s, id)
    requires forall k :: 0 <= k < |s| ==> id(s[k]) != id(x)
    ensures DistinctBy(Insert(x, s, key), id)
    decreases |s|
  {
    if |s| > 0 && key(s[0]) <= key(x) {
      var rest := Insert(x, s[1..], key);
      InsertDistinct(x, s[1..], key, id);
      forall k | 0 <= k < |rest| ensures id(rest[k]) != id(s[0]) {
        assert rest[k] in multiset(rest);
        if rest[k] != x {
          assert rest[k] in multiset(s[1..]);
          var m :| 0 <= m < |s[1..]| && s[1..][m] == rest[k];
          assert s[m + 1] == rest[k];
        }
      }
      assert Insert(x, s, key) == [s[0]] + rest;
    }
  }

  /** Sorting keeps the ids distinct: no element comes out twice. */
  lemma {:induction false} SortByDistinct<T>(s: seq<T>, key: T -> int, id: T -> int)
    requires DistinctBy(s, id)
    ensures DistinctBy(SortBy(s, key), id)
    decreases |s|
  {
    if |s| > 0 {
      var init := s[..|s| - 1];
      var x := s[|s| - 1];
      var sorted := SortBy(init, key);
      SortByDistinct(init, key, id);
      forall k | 0 <= k < |sorted| ensures id(sorted[k]) != id(x) {
        assert sorted[k] in multiset(init);
        var m :| 0 <= m < |init| && init[m] == sorted[k];
        assert s[m] == sorted[k];
      }
      InsertDistinct(x, sorted, key, id);
      assert s == init + [x];
    }
  }
}

=== FILE: store.dfy ===
/** The store: one sequence per table. Ids are assigned 1, 2, 3, ... in
    insertion order, so the row with id `k` sits at position `k - 1` and id 0
    names no row. Soft-deleted rows stay in place with their `deleted` mark;
    the ordinary lookups skip them.

    The insert and update triggers of the transactions and recurring-expense
    tables, and the unique columns of users and sessions, are the only writes
    the store refuses; every other storage failure is outside the model. */
module Store {
  import opened Common
  import opened Ledger
  import opened Catalog
  import opened Accounts
  import Loans
  import Recurring
  import opened Reminders
  import opened Sessions

  datatype Db = Db(
    users: seq<User>,
    sessions: seq<DeviceSession>,
    accounts: seq<Account>,
    categories: seq<Category>,
    transactions: seq<Transaction>,
    loans: seq<Loans.Loan>,
    payments: seq<Loans.LoanPayment>,
    expenses: seq<Recurring.RecurringExpense>,
    reminders: seq<Reminder>)

  /** What a handler leaves behind: the store after its writes (earlier writes
      of a failed multi-step handler stay) and its answer. */
  datatype Response<T> = Response(db: Db, result: Result<T>)

  /** Whether `id` names a row of a table of `n` rows. */
  predicate IsId(id: nat, n: nat) {
    1 <= id <= n
  }

  // ---------------------------------------------------------------------------
  // The ownership lookups `WHERE id = ? AND user_id = ?`, which skip
  // soft-deleted rows

  predicate OwnsAccount(db: Db, userId: nat, id: nat) {
    IsId(id, |db.accounts|) && db.accounts[id - 1].userId == userId && !db.accounts[id - 1].deleted
  }

  predicate OwnsCategory(db: Db, userId: nat, id: nat) {
    IsId(id, |db.categories|) && db.categories[id - 1].userId == userId && !db.categories[id - 1].deleted
  }

  predicate OwnsTransaction(db: Db, userId: nat, id: nat) {
    IsId(id, |db.transactions|) && db.transactions[id - 1].userId == userId && !db.transactions[id - 1].deleted
  }

  predicate OwnsLoan(db: Db, userId: nat, id: nat) {
    IsId(id, |db.loans|) && db.loans[id - 1].userId == userId && !db.loans[id - 1].deleted
  }

  predicate OwnsPayment(db: Db, userId: nat, id: nat) {
    IsId(id, |db.payments|) && db.payments[id - 1].userId == userId && !db.payments[id - 1].deleted
  }

  predicate OwnsExpense(db: Db, userId: nat, id: nat) {
    IsId(id, |db.expenses|) && db.expenses[id - 1].userId == userId && !db.expenses[id - 1].deleted
  }

  // ---------------------------------------------------------------------------
  // Writes the store can refuse

  /** An insert into transactions: refused by the triggers unless the row is
      admissible; the new row gets id `|db.transactions| + 1`. */
  function InsertTransaction(db: Db, t: Transaction): (r: Option<Db>)
    ensures r.Some? <==> RowInvariant(t)
    ensures r.Some? ==> r.value == db.(transactions := db.transactions + [t])
  {
    if RowInvariant(t) then Some(db.(transactions := db.transactions + [t])) else None
  }

  /** A save of transaction `id`: refused by the update triggers unless the
      new row is admissible. */
  function SaveTransaction(db: Db, id: nat, t: Transaction): (r: Option<Db>)
    requires IsId(id, |db.transactions|)
    ensures r.Some? <==> RowInvariant(t)
    ensures r.Some? ==> r.value == db.(transactions := db.transactions[id - 1 := t])
  {
    if RowInvariant(t) then Some(db.(transactions := db.transactions[id - 1 := t])) else None
  }

  /** An insert into recurring expenses, guarded by the frequency and amount triggers. */
  function InsertExpense(db: Db, e: Recurring.RecurringExpense): (r: Option<Db>)
    ensures r.Some? <==> Recurring.RowInvariant(e)
    ensures r.Some? ==> r.value == db.(expenses := db.expenses + [e])
  {
    if Recurring.RowInvariant(e) then Some(db.(expenses := db.expenses + [e])) else None
  }

  /** A save of recurring expense `id`, guarded by the same triggers. */
  function SaveExpense(db: Db, id: nat, e: Recurring.RecurringExpense): (r: Option<Db>)
    requires IsId(id, |db.expenses|)
    ensures r.Some? <==> Recurring.RowInvariant(e)
    ensures r.Some? ==> r.value == db.(expenses := db.expenses[id - 1 := e])
  {
    if Recurring.RowInvariant(e) then Some(db.(expenses := db.expenses[id - 1 := e])) else None
  }

  /** An insert into users, refused on a duplicate email (unique column). */
  function InsertUser(db: Db, u: User): (r: Option<Db>)
    ensures r.Some? <==> !EmailTaken(db.users, u.email)
    ensures r.Some? ==> r.value == db.(users := db.users + [u])
  {
    if EmailTaken(db.users, u.email) then None else Some(db.(users := db.users + [u]))
  }

  /** An insert into sessions, refused on a duplicate refresh-token id (unique column). */
  function InsertSession(db: Db, s: DeviceSession): (r: Option<Db>)
    ensures r.Some? <==> !TokenIdTaken(db.sessions, s.refreshTokenId)
    ensures r.Some? ==> r.value == db.(sessions := db.sessions + [s])
  {
    if TokenIdTaken(db.sessions, s.refreshTokenId) then None else Some(db.(sessions := db.sessions + [s]))
  }

  // ---------------------------------------------------------------------------
  // Store invariants

  /** Every transaction row passes the triggers. */
  predicate LedgerValid(txs: seq<Transaction>) {
    forall i :: 0 <= i < |txs| ==> RowInvariant(txs[i])
  }

  /** Every recurring-expense row passes the triggers. */
  predicate ExpensesValid(es: seq<Recurring.RecurringExpense>) {
    forall i :: 0 <= i < |es| ==> Recurring.RowInvariant(es[i])
  }

  /** What the store's constraints guarantee, plus per-owner name uniqueness,
      which the account and category handlers maintain. */
  predicate Valid(db: Db) {
    && LedgerValid(db.transactions)
    && ExpensesValid(db.expenses)
    && EmailsUnique(db.users)
    && TokenIdsUnique(db.sessions)
    && NamesUnique(db.accounts)
    && NamesUnique(db.categories)
  }

  lemma InsertTransactionKeepsLedgerValid(db: Db, t: Transaction)
    requires LedgerValid(db.transactions)
    ensures InsertTransaction(db, t).Some? ==> LedgerValid(InsertTransaction(db, t).value.transactions)
  {
  }

  lemma SaveTransactionKeepsLedgerValid(db: Db, id: nat, t: Transaction)
    requires IsId(id, |db.transactions|) && LedgerValid(db.transactions)
    ensures SaveTransaction(db, id, t).Some? ==> LedgerValid(SaveTransaction(db, id, t).value.transactions)
  {
  }

  lemma InsertUserKeepsEmailsUnique(db: Db, u: User)
    requires EmailsUnique(db.users)
    ensures InsertUser(db, u).Some? ==> EmailsUnique(InsertUser(db, u).value.users)
  {
    if InsertUser(db, u).Some? {
      var us := db.users + [u];
      forall i, j | 0 <= i < j < |us| ensures us[i].email != us[j].email {
        if j == |db.users| {
          assert us[i] == db.users[i];
        }
      }
    }
  }

  lemma InsertSessionKeepsTokenIdsUnique(db: Db, s: DeviceSession)
    requires TokenIdsUnique(db.sessions)
    ensures InsertSession(db, s).Some? ==> TokenIdsUnique(InsertSession(db, s).value.sessions)
  {
    if InsertSession(db, s).Some? {
      var ss := db.sessions + [s];
      forall i, j | 0 <= i < j < |ss| ensures ss[i].refreshTokenId != ss[j].refreshTokenId {
        if j == |db.sessions| {
          assert ss[i] == db.sessions[i];
        }
      }
    }
  }
}

=== FILE: tokens.dfy ===
/** Token material: lowercase hexadecimal (Base16, section 8 of RFC 4648)
    rendering of random bytes for refresh-token ids and refresh tokens, the
    claim set of an access token, and the foreign primitives (password and
    token hashing, token signing and parsing) as uninterpreted parameters with
    the one law each that the service relies on. */
module Tokens {
  import opened Common
  import opened Calendar

  type Byte = b: int | 0 <= b < 256

  // ---------------------------------------------------------------------------
  // Base16

  /** The lowercase hex digit of a nibble. */
  function HexDigit(d: int): (c: char)
    requires 0 <= d < 16
    ensures ('0' <= c <= '9') || ('a' <= c <= 'f')
  {
    if d < 10 then ('0' as int + d) as char else ('a' as int + d - 10) as char
  }

  predicate IsHexDigit(c: char) {
    ('0' <= c <= '9') || ('a' <= c <= 'f')
  }

  /** The nibble a lowercase hex digit stands for. */
  function HexValue(c: char): (r: Option<int>)
    ensures r.Some? <==> IsHexDigit(c)
    ensures r.Some? ==> 0 <= r.value < 16 && HexDigit(r.value) == c
  {
    if '0' <= c <= '9' then Some(c as int - '0' as int)
    else if 'a' <= c <= 'f' then Some(c as int - 'a' as int + 10)
    else None
  }

  /** `hex.EncodeToString`: two digits per byte, high nibble first. */
  function HexEncode(bytes: seq<Byte>): (s: string)
    ensures |s| == 2 * |bytes|
    ensures forall i :: 0 <= i < |s| ==> IsHexDigit(s[i])
  {
    if |bytes| == 0 then ""
    else [HexDigit(bytes[0] / 16), HexDigit(bytes[0] % 16)] + HexEncode(bytes[1..])
  }

  /** The inverse reading: None unless the text is an even number of
      lowercase hex digits. */
  function HexDecode(s: string): (r: Option<seq<Byte>>)
    ensures r.Some? ==> 2 * |r.value| == |s|
    decreases |s|
  {
    if |s| == 0 then Some([])
    else if |s| == 1 then None
    else
      match (HexValue(s[0]), HexValue(s[1]), HexDecode(s[2..]))
      case (Some(hi), Some(lo), Some(rest)) => Some([hi * 16 + lo] + rest)
      case _ => None
  }

  lemma HexValueOfDigit(d: int)
    requires 0 <= d < 16
    ensures HexValue(HexDigit(d)) == Some(d)
  {
  }

  /** Decoding undoes encoding. */
  lemma {:induction false} HexRoundTrip(bytes: seq<Byte>)
    ensures HexDecode(HexEncode(bytes)) == Some(bytes)
  {
    if |bytes| > 0 {
      var s := HexEncode(bytes);
      HexValueOfDigit(bytes[0] / 16);
      HexValueOfDigit(bytes[0] % 16);
      assert s[2..] == HexEncode(bytes[1..]);
      HexRoundTrip(bytes[1..]);
      assert [bytes[0]] + bytes[1..] == bytes;
    }
  }

  /** Distinct byte strings have distinct hex renderings. */
  lemma HexEncodeInjective(a: seq<Byte>, b: seq<Byte>)
    requires HexEncode(a) == HexEncode(b)
    ensures a == b
  {
    HexRoundTrip(a);
    HexRoundTrip(b);
  }

  // ---------------------------------------------------------------------------
  // Random token material. `bytes` is what the random source left in the
  // buffer; a failed read is passed as None where the caller checks it.

  /** A refresh-token id: 16 random bytes in hex. The generator ignores the
      error of the random read, so it always yields an id. */
  function RefreshTokenId(bytes: seq<Byte>): (id: string)
    requires |bytes| == 16
    ensures |id| == 32
    ensures forall i :: 0 <= i < |id| ==> IsHexDigit(id[i])
    ensures HexDecode(id) == Some(bytes)
  {
    HexRoundTrip(bytes);
    HexEncode(bytes)
  }

  /** A refresh token: 32 random bytes in hex, or an error when the random
      read fails. */
  function RefreshToken(read: Option<seq<Byte>>): (r: Result<string>)
    requires read.Some? ==> |read.value| == 32
    ensures r.Err? <==> read.None?
    ensures r.Ok? ==> |r.value| == 64 && HexDecode(r.value) == read
  {
    match read
    case None => Err(Internal("Could not generate refresh token"))
    case Some(bytes) => HexRoundTrip(bytes); Ok(HexEncode(bytes))
  }

  // ---------------------------------------------------------------------------
  // Access-token claims

  type Claims = map<string, Json>

  /** Lifetime of an access token, in seconds (ten minutes). */
  const AccessTokenLifetime: int := 600

  /** The claim set of an access token issued at `now`; `exp` is a Unix time
      (section 4.1.4 of RFC 7519). */
  function AccessClaims(userId: nat, email: string, refreshTokenId: string, now: Instant): (c: Claims)
    ensures c.Keys == {"user_id", "email", "refresh_token_id", "type", "exp"}
    ensures c["type"] == JString("access")
    ensures c["user_id"] == JNumber(userId) && c["refresh_token_id"] == JString(refreshTokenId)
    ensures c["email"] == JString(email)
    ensures c["exp"] == JNumber(EpochSeconds(now) + AccessTokenLifetime)
  {
    map["user_id" := JNumber(userId), "email" := JString(email), "refresh_token_id" := JString(refreshTokenId),
        "type" := JString("access"), "exp" := JNumber(EpochSeconds(now) + AccessTokenLifetime)]
  }

  /** Whether a claim set is unexpired at Unix time `at`: an `exp` claim, when
      present, must be a number later than `at`. */
  predicate Unexpired(c: Claims, at: int) {
    "exp" in c ==> (c["exp"].JNumber? && at < c["exp"].n)
  }

  /** An access token stays unexpired for exactly its lifetime. */
  lemma AccessClaimsExpiry(userId: nat, email: string, refreshTokenId: string, issued: Instant, at: int)
    ensures Unexpired(AccessClaims(userId, email, refreshTokenId, issued), at)
      <==> at < EpochSeconds(issued) + AccessTokenLifetime
  {
  }

  // ---------------------------------------------------------------------------
  // Foreign primitives

  /** bcrypt: `hash` may fail (None); `verify(secret, digest)` compares. The salt
      is folded into the function. */
  datatype Hasher = Hasher(hash: string -> Option<string>, verify: (string, string) -> bool)

  /** The law the service relies on: a secret verifies against its own digest. */
  ghost predicate HasherSound(h: Hasher) {
    forall t :: h.hash(t).Some? ==> h.verify(t, h.hash(t).value)
  }

  /** JWT (HS256 with the server secret): `sign` renders a claim set, `parse`
      checks a token at a Unix time and yields its claims, or None for a bad
      signature, a malformed token or an expired one. */
  datatype Jwt = Jwt(sign: Claims -> string, parse: (string, int) -> Option<Claims>)

  /** The law the service relies on: a token it signed parses back to its
      claims while they are unexpired. */
  ghost predicate JwtSound(j: Jwt) {
    forall c: Claims, at: int :: Unexpired(c, at) ==> j.parse(j.sign(c), at) == Some(c)
  }
}

=== FILE: transaction_handlers.dfy ===
/** The transaction endpoints: creation with the type-to-direction
    normalisation, the filtered listing, the partial update that re-derives
    the amount's sign from the stored type, and the soft delete. */
module TransactionHandlers {
  import opened Common
  import opened Calendar
  import opened Ledger
  import opened Accounts
  import opened Store
  import opened Sorting

  datatype CreateRequest = CreateRequest(
    accountId: nat,
    amount: int,
    description: string,
    date: Instant,
    notes: string,
    txType: string,
    categoryId: Option<nat>)

  /** The request validator: an account id, a non-zero amount, a description
      of 1 to 255 characters, a date other than the zero time and one of the
      six types. */
  predicate ValidCreate(req: CreateRequest) {
    && req.accountId != 0 && req.amount != 0 && LengthBetween(req.description, 1, 255)
    && req.date != ZeroTime && IsKnownType(req.txType)
  }

  /** The category check of a request: none given, or one the caller owns. */
  predicate CategoryOk(db: Db, userId: nat, categoryId: Option<nat>) {
    categoryId.None? || OwnsCategory(db, userId, categoryId.value)
  }

  /** The row creation builds from a valid request. */
  function NewRow(userId: nat, req: CreateRequest): (t: Transaction)
    requires IsKnownType(req.txType)
  {
    var n := Normalize(req.txType, req.amount).value;
    Transaction(userId, req.accountId, n.1, n.0, req.description, req.date, req.notes,
                req.txType, req.categoryId, NoReference, false)
  }

  /** Creation answers with the new id. It succeeds exactly for a valid
      request on an account (and category) of the caller: the normalised row
      always passes the triggers, so the storage error is unreachable. */
  function CreateTransaction(db: Db, userId: nat, req: CreateRequest): (r: Response<nat>)
    ensures r.result.Ok? <==>
      ValidCreate(req) && OwnsAccount(db, userId, req.accountId) && CategoryOk(db, userId, req.categoryId)
    ensures r.result.Ok? ==>
      && r.result.value == |db.transactions| + 1
      && r.db == db.(transactions := db.transactions + [NewRow(userId, req)])
    ensures r.result.Err? ==> r.db == db
  {
    if !ValidCreate(req) then Response(db, Err(BadRequest("Validation failed")))
    else if !OwnsAccount(db, userId, req.accountId) then Response(db, Err(NotFound("Account not found")))
    else if !CategoryOk(db, userId, req.categoryId) then Response(db, Err(NotFound("Category not found")))
    else
      match Normalize(req.txType, req.amount)
      case None => Response<nat>.Response(db, Err(BadRequest("Invalid transaction type")))
      case Some(_) =>
        var t := NewRow(userId, req);
        match InsertTransaction(db, t)
        case None => Response<nat>.Response(db, Err(Internal("Could not create transaction")))
        case Some(db1) => Response(db1, Ok(|db.transactions| + 1))
  }

  /** The stored row of a successful creation: the caller's, in the requested
      account, category and date, with the type's direction and the amount's
      magnitude carrying the type's sign, and no reference. */
  lemma CreatedRow(db: Db, userId: nat, req: CreateRequest)
    requires CreateTransaction(db, userId, req).result.Ok?
    ensures var t := CreateTransaction(db, userId, req).db.transactions[|db.transactions|];
      && t.userId == userId && t.accountId == req.accountId && t.categoryId == req.categoryId
      && t.txType == req.txType && t.date == req.date && t.description == req.description && t.notes == req.notes
      && (IsInType(req.txType) ==> t.direction == "in" && t.amount == Abs(req.amount))
      && (IsOutType(req.txType) ==> t.direction == "out" && t.amount == -Abs(req.amount))
      && t.reference == NoReference && !t.deleted
      && RowInvariant(t)
  {
  }

  /** Creation changes the balance of the chosen account by the signed amount
      and no other account's balance. */
  lemma CreateMovesBalance(db: Db, userId: nat, req: CreateRequest, accountId: nat, owner: nat)
    requires CreateTransaction(db, userId, req).result.Ok?
    ensures var t := CreateTransaction(db, userId, req).db.transactions[|db.transactions|];
      Balance(accountId, owner, CreateTransaction(db, userId, req).db.transactions)
        == Balance(accountId, owner, db.transactions)
           + (if accountId == req.accountId && owner == userId then t.amount else 0)
  {
    var r := CreateTransaction(db, userId, req);
    var t := r.db.transactions[|db.transactions|];
    BalanceAfterAppend(accountId, owner, db.transactions, t);
  }

  // ---------------------------------------------------------------------------
  // Listing

  /** The optional query filters; dates compare inclusively. */
  datatype Filter = Filter(
    accountId: Option<nat>,
    categoryId: Option<nat>,
    txType: Option<string>,
    dateFrom: Option<Instant>,
    dateTo: Option<Instant>)

  predicate Matches(t: Transaction, userId: nat, f: Filter) {
    && t.userId == userId && !t.deleted
    && (f.accountId.Some? ==> t.accountId == f.accountId.value)
    && (f.categoryId.Some? ==> t.categoryId == Some(f.categoryId.value))
    && (f.txType.Some? ==> t.txType == f.txType.value)
    && (f.dateFrom.Some? ==> NotAfter(f.dateFrom.value, t.date))
    && (f.dateTo.Some? ==> NotAfter(t.date, f.dateTo.value))
  }

  /** The (id, row) pairs of `txs[from..]` that match, in id order. */
  function Select(txs: seq<Transaction>, userId: nat, f: Filter, from: nat): (r: seq<(nat, Transaction)>)
    requires from <= |txs|
    ensures forall k :: 0 <= k < |r| ==> from < r[k].0 <= |txs| && r[k].1 == txs[r[k].0 - 1] && Matches(r[k].1, userId, f)
    ensures forall i :: from <= i < |txs| && Matches(txs[i], userId, f) ==> (i + 1, txs[i]) in r
    decreases |txs| - from
  {
    if from == |txs| then []
    else
      var rest := Select(txs, userId, f, from + 1);
      if Matches(txs[from], userId, f) then [(from + 1, txs[from])] + rest else rest
  }

  /** Strictly increasing ids: no row appears twice. */
  predicate IdsIncrease(r: seq<(nat, Transaction)>) {
    forall a, b :: 0 <= a < b < |r| ==> r[a].0 < r[b].0
  }

  /** The selection is in strictly increasing id order, so no row is selected twice. */
  lemma {:induction false} SelectIdsIncrease(txs: seq<Transaction>, userId: nat, f: Filter, from: nat)
    requires from <= |txs|
    ensures IdsIncrease(Select(txs, userId, f, from))
    decreases |txs| - from
  {
    if from < |txs| {
      SelectIdsIncrease(txs, userId, f, from + 1);
      var rest := Select(txs, userId, f, from + 1);
      if Matches(txs[from], userId, f) {
        ConsIdsIncrease(from + 1, txs[from], rest);
      }
    }
  }

  lemma ConsIdsIncrease(id: nat, t: Transaction, rest: seq<(nat, Transaction)>)
    requires IdsIncrease(rest) && forall k :: 0 <= k < |rest| ==> id < rest[k].0
    ensures IdsIncrease([(id, t)] + rest)
  {
    var r := [(id, t)] + rest;
    assert forall k :: 1 <= k < |r| ==> r[k] == rest[k - 1];
  }

  function RowId(p: (nat, Transaction)): int {
    p.0
  }

  function DateDescending(p: (nat, Transaction)): int {
    -EpochSeconds(p.1.date)
  }

  /** The listing: the caller's live transactions that pass every given
      filter, newest first. */
  function GetTransactions(db: Db, userId: nat, f: Filter): (r: seq<(nat, Transaction)>)
    ensures forall k :: 0 <= k < |r| ==>
      IsId(r[k].0, |db.transactions|) && r[k].1 == db.transactions[r[k].0 - 1] && Matches(r[k].1, userId, f)
    ensures forall i :: 0 <= i < |db.transactions| && Matches(db.transactions[i], userId, f) ==>
      (i + 1, db.transactions[i]) in r
    ensures forall a, b :: 0 <= a < b < |r| ==> NotAfter(r[b].1.date, r[a].1.date)
    ensures forall a, b :: 0 <= a < b < |r| ==> r[a].0 != r[b].0
  {
    var s := Select(db.transactions, userId, f, 0);
    SelectIdsIncrease(db.transactions, userId, f, 0);
    assert DistinctBy(s, RowId) by {
      forall a, b | 0 <= a < b < |s| ensures RowId(s[a]) != RowId(s[b]) {
        assert IdsIncrease(s);
      }
    }
    SortByDistinct(s, DateDescending, RowId);
    SortByMembers(s, DateDescending);
    SortByKeeps(s, DateDescending, (x: (nat, Transaction)) =>
      IsId(x.0, |db.transactions|) && x.1 == db.transactions[x.0 - 1] && Matches(x.1, userId, f));
    var sorted := SortBy(s, DateDescending);
    sorted
  }

  /** One of the caller's live transactions. */
  function GetTransaction(db: Db, userId: nat, id: nat): (r: Result<Transaction>)
    ensures r.Ok? <==> OwnsTransaction(db, userId, id)
    ensures r.Ok? ==> r.value == db.transactions[id - 1]
    ensures r.Err? ==> r.error == NotFound("Transaction not found")
  {
    if !OwnsTransaction(db, userId, id) then Err(NotFound("Transaction not found"))
    else Ok(db.transactions[id - 1])
  }

  // ---------------------------------------------------------------------------
  // Update

  datatype UpdateRequest = UpdateRequest(
    accountId: Option<nat>,
    amount: Option<int>,
    description: string,
    date: Option<Instant>,
    notes: string,
    categoryId: Option<nat>)

  /** The request validator: a given amount is non-zero, a given description
      has 1 to 255 characters. */
  predicate ValidUpdate(req: UpdateRequest) {
    (req.amount.Some? ==> req.amount.value != 0) && (req.description == "" || LengthBetween(req.description, 1, 255))
  }

  /** The updated row: account, category and date when supplied; the amount
      re-signed by the stored type when supplied; description and notes when
      non-empty. Type, direction, owner and reference never change. */
  function Updated(t: Transaction, req: UpdateRequest): (u: Transaction)
    ensures u.txType == t.txType && u.direction == t.direction && u.userId == t.userId
    ensures u.reference == t.reference && u.deleted == t.deleted
    ensures u.accountId == (if req.accountId.Some? then req.accountId.value else t.accountId)
    ensures u.categoryId == (if req.categoryId.Some? then req.categoryId else t.categoryId)
    ensures req.amount.None? ==> u.amount == t.amount
    ensures req.amount.Some? && IsKnownType(t.txType) ==> Abs(u.amount) == Abs(req.amount.value)
    ensures u.description == (if req.description == "" then t.description else req.description)
    ensures u.notes == (if req.notes == "" then t.notes else req.notes)
    ensures u.date == (if req.date.Some? then req.date.value else t.date)
    ensures req == UpdateRequest(None, None, "", None, "", None) ==> u == t
  {
    t.(accountId := Overwrite(t.accountId, req.accountId),
       categoryId := if req.categoryId.Some? then req.categoryId else t.categoryId,
       amount := if req.amount.Some? then Resign(t.txType, t.amount, req.amount.value) else t.amount,
       description := OverwriteNonEmpty(t.description, req.description),
       date := Overwrite(t.date, req.date),
       notes := OverwriteNonEmpty(t.notes, req.notes))
  }

  function UpdateTransaction(db: Db, userId: nat, id: nat, req: UpdateRequest): (r: Response<nat>)
    ensures r.result.Ok? ==>
      (OwnsTransaction(db, userId, id)
       && r.db == db.(transactions := db.transactions[id - 1 := Updated(db.transactions[id - 1], req)]))
    ensures r.result.Err? ==> r.db == db
    ensures !ValidUpdate(req) ==> r.result == Err(BadRequest("Validation failed"))
    ensures ValidUpdate(req) && !OwnsTransaction(db, userId, id) ==> r.result == Err(NotFound("Transaction not found"))
  {
    if !ValidUpdate(req) then Response(db, Err(BadRequest("Validation failed")))
    else if !OwnsTransaction(db, userId, id) then Response(db, Err(NotFound("Transaction not found")))
    else if req.accountId.Some? && !OwnsAccount(db, userId, req.accountId.value) then
      Response(db, Err(NotFound("Account not found")))
    else if !CategoryOk(db, userId, req.categoryId) then Response(db, Err(NotFound("Category not found")))
    else
      match SaveTransaction(db, id, Updated(db.transactions[id - 1], req))
      case None => Response(db, Err(Internal("Could not update transaction")))
      case Some(db1) => Response(db1, Ok(id))
  }

  /** A row that passed the triggers still does after any valid update, so an
      update of an admissible row fails only on validation or ownership. */
  lemma UpdateKeepsRowInvariant(t: Transaction, req: UpdateRequest)
    requires RowInvariant(t) && ValidUpdate(req)
    ensures RowInvariant(Updated(t, req))
  {
    if req.amount.Some? {
      ResignPreservesAdmissible(t.txType, t.direction, t.amount, req.amount.value);
    }
  }

  lemma UpdateSucceedsOnValidLedger(db: Db, userId: nat, id: nat, req: UpdateRequest)
    requires LedgerValid(db.transactions)
    requires ValidUpdate(req) && OwnsTransaction(db, userId, id)
    requires req.accountId.Some? ==> OwnsAccount(db, userId, req.accountId.value)
    requires CategoryOk(db, userId, req.categoryId)
    ensures UpdateTransaction(db, userId, id, req).result == Ok(id)
    ensures LedgerValid(UpdateTransaction(db, userId, id, req).db.transactions)
  {
    UpdateKeepsRowInvariant(db.transactions[id - 1], req);
  }

  // ---------------------------------------------------------------------------
  // Delete

  /** The soft delete of one of the caller's transactions. */
  function DeleteTransaction(db: Db, userId: nat, id: nat): (r: Response<nat>)
    ensures r.result.Ok? <==> OwnsTransaction(db, userId, id)
    ensures r.result.Ok? ==> r.db == db.(transactions := db.transactions[id - 1 := db.transactions[id - 1].(deleted := true)])
    ensures r.result.Err? ==> r.db == db
  {
    if !OwnsTransaction(db, userId, id) then Response(db, Err(NotFound("Transaction not found")))
    else Response(db.(transactions := db.transactions[id - 1 := db.transactions[id - 1].(deleted := true)]), Ok(id))
  }

  /** Deleting a transaction lowers its account's balance by its amount. */
  lemma DeleteLowersBalance(db: Db, userId: nat, id: nat)
    requires OwnsTransaction(db, userId, id)
    ensures var t := db.transactions[id - 1];
      Balance(t.accountId, userId, DeleteTransaction(db, userId, id).db.transactions)
        == Balance(t.accountId, userId, db.transactions) - t.amount
  {
    SoftDeleteLowersBalance(db.transactions[id - 1].accountId, userId, db.transactions, id - 1);
  }
}

=== FILE: user_handlers.dfy ===
/** The profile endpoints and logout. The caller's user id and device-session
    id are those the authentication gate put in the request context. */
module UserHandlers {
  import opened Common
  import opened Calendar
  import opened Tokens
  import opened Sessions
  import opened Store
  import AuthHandlers
  import AuthMiddleware

  /** The profile with the number of the user's active sessions. */
  datatype Profile = Profile(user: User, activeSessions: nat)

  function GetProfile(db: Db, userId: nat): (r: Result<Profile>)
    ensures r.Ok? <==> IsId(userId, |db.users|)
    ensures r.Err? ==> r.error == NotFound("User not found")
    ensures r.Ok? ==> r.value.user == db.users[userId - 1]
    ensures r.Ok? ==> r.value.activeSessions == |ActivePositions(db.sessions, userId)|
    ensures r.Ok? ==> (r.value.activeSessions == 0 <==>
                       forall i :: 0 <= i < |db.sessions| ==> !ActiveFor(db.sessions[i], userId))
  {
    if !IsId(userId, |db.users|) then Err(NotFound("User not found"))
    else
      ActiveSessionCountZero(db.sessions, userId);
      ActiveSessionCountIsCardinality(db.sessions, userId);
      Ok(Profile(db.users[userId - 1], ActiveSessionCount(db.sessions, userId)))
  }

  /** Right after a login, the profile reports exactly one active session. */
  lemma ProfileAfterLogin(db: Db, req: AuthHandlers.LoginRequest, isEmail: string -> bool, h: Hasher, j: Jwt,
                          client: AuthHandlers.Client, rand: AuthHandlers.Randomness, now: Instant)
    requires AuthHandlers.WellSized(rand)
    requires AuthHandlers.Login(db, req, isEmail, h, j, client, rand, now).result.Ok?
    ensures var r := AuthHandlers.Login(db, req, isEmail, h, j, client, rand, now);
      GetProfile(r.db, r.result.value.userId).Ok?
      && GetProfile(r.db, r.result.value.userId).value.activeSessions == 1
  {
    AuthHandlers.LoginLeavesOneActiveSession(db, req, isEmail, h, j, client, rand, now);
  }

  datatype ProfileRequest = ProfileRequest(
    name: string, phoneNumber: string, notificationsEnabled: Option<bool>, pushNotifications: Option<bool>,
    timezone: string)

  /** The partial update: text fields when non-empty, switches when given. */
  function UpdateProfile(db: Db, userId: nat, req: ProfileRequest): (r: Response<User>)
    ensures r.result.Ok? <==> IsId(userId, |db.users|)
    ensures r.result.Err? ==> r.db == db && r.result.error == NotFound("User not found")
    ensures r.result.Ok? ==>
      && var before := db.users[userId - 1];
         var after := r.result.value;
         && after.email == before.email && after.passwordHash == before.passwordHash
         && after.inAppNotifications == before.inAppNotifications
         && after.name == (if req.name == "" then before.name else req.name)
         && after.phoneNumber == (if req.phoneNumber == "" then before.phoneNumber else req.phoneNumber)
         && after.timezone == (if req.timezone == "" then before.timezone else req.timezone)
         && after.notificationsEnabled == (if req.notificationsEnabled.None? then before.notificationsEnabled
                                           else req.notificationsEnabled.value)
         && after.pushNotifications == (if req.pushNotifications.None? then before.pushNotifications
                                        else req.pushNotifications.value)
         && r.db == db.(users := db.users[userId - 1 := after])
  {
    if !IsId(userId, |db.users|) then Response(db, Err(NotFound("User not found")))
    else
      var u := db.users[userId - 1];
      var updated := u.(name := OverwriteNonEmpty(u.name, req.name),
                        phoneNumber := OverwriteNonEmpty(u.phoneNumber, req.phoneNumber),
                        notificationsEnabled := Overwrite(u.notificationsEnabled, req.notificationsEnabled),
                        pushNotifications := Overwrite(u.pushNotifications, req.pushNotifications),
                        timezone := OverwriteNonEmpty(u.timezone, req.timezone));
      Response(db.(users := db.users[userId - 1 := updated]), Ok(updated))
  }

  /** A profile update keeps the email column unique and leaves every other
      user and every session as it was; an empty request changes nothing. */
  lemma UpdateProfileKeepsOthers(db: Db, userId: nat, req: ProfileRequest)
    requires EmailsUnique(db.users)
    ensures var r := UpdateProfile(db, userId, req);
      && EmailsUnique(r.db.users)
      && r.db.sessions == db.sessions
      && (forall i :: 0 <= i < |db.users| && i != userId - 1 ==> r.db.users[i] == db.users[i])
    ensures req == ProfileRequest("", "", None, None, "") ==> UpdateProfile(db, userId, req).db == db
  {
    var r := UpdateProfile(db, userId, req);
    if r.result.Ok? {
      assert forall i :: 0 <= i < |db.users| ==> r.db.users[i].email == db.users[i].email;
    }
  }

  /** Logout ends the caller's own session (looked up by id alone). */
  function Logout(db: Db, sessionId: nat, now: Instant): (r: Response<nat>)
    ensures r.result.Ok? <==> IsId(sessionId, |db.sessions|)
    ensures r.result.Err? ==> r.db == db && r.result.error == NotFound("Session not found")
    ensures r.result.Ok? ==>
      && |r.db.sessions| == |db.sessions|
      && !r.db.sessions[sessionId - 1].isActive
      && r.db.sessions[sessionId - 1].logoutReason == "User logout"
      && r.db.sessions[sessionId - 1].logoutAt == Some(now)
      && r.db.sessions[sessionId - 1].refreshTokenId == db.sessions[sessionId - 1].refreshTokenId
      && r.db.sessions[sessionId - 1].userId == db.sessions[sessionId - 1].userId
      && (forall i :: 0 <= i < |db.sessions| && i != sessionId - 1 ==> r.db.sessions[i] == db.sessions[i])
      && r.db == db.(sessions := r.db.sessions)
  {
    if !IsId(sessionId, |db.sessions|) then Response(db, Err(NotFound("Session not found")))
    else
      var s := db.sessions[sessionId - 1];
      Response(db.(sessions := db.sessions[sessionId - 1 := Deactivate(s, "User logout", now)]), Ok(sessionId))
  }

  /** After logout, every access token naming the session's refresh-token id
      is refused by the gate as revoked, expired or not. */
  lemma LogoutRevokes(db: Db, sessionId: nat, now: Instant, header: string, j: Jwt, at: Instant)
    requires TokenIdsUnique(db.sessions) && IsId(sessionId, |db.sessions|)
    requires AuthMiddleware.Presented(header, j, at).Some?
    requires var c := AuthMiddleware.Presented(header, j, at).value;
      && AuthMiddleware.ClaimsShaped(c) && c["user_id"].JNumber?
      && c["refresh_token_id"] == JString(db.sessions[sessionId - 1].refreshTokenId)
    ensures var db1 := Logout(db, sessionId, now).db;
      AuthMiddleware.RequireAuth(db1, header, j, at) == Response(db1, Err(Unauthorized("Token has been revoked")))
  {
    var db1 := Logout(db, sessionId, now).db;
    var c := AuthMiddleware.Presented(header, j, at).value;
    forall k | 0 <= k < |db1.sessions|
      ensures !(db1.sessions[k].isActive && c["refresh_token_id"] == JString(db1.sessions[k].refreshTokenId))
    {
      if k != sessionId - 1 && c["refresh_token_id"] == JString(db1.sessions[k].refreshTokenId) {
        assert false;
      }
    }
    AuthMiddleware.RevokedTokenRefused(db1, header, j, at);
  }

  /** A token that passed the gate, presented again after its session logged
      out, is refused. */
  lemma GateThenLogoutThenGate(db: Db, header: string, j: Jwt, t1: Instant, t2: Instant, t3: Instant)
    requires TokenIdsUnique(db.sessions)
    requires AuthMiddleware.RequireAuth(db, header, j, t1).result.Ok?
    requires AuthMiddleware.Presented(header, j, t3) == AuthMiddleware.Presented(header, j, t1)
    ensures var g := AuthMiddleware.RequireAuth(db, header, j, t1);
      var db2 := Logout(g.db, g.result.value.sessionId, t2).db;
      AuthMiddleware.RequireAuth(db2, header, j, t3).result == Err(Unauthorized("Token has been revoked"))
  {
    var g := AuthMiddleware.RequireAuth(db, header, j, t1);
    var sid := g.result.value.sessionId;
    assert forall i :: 0 <= i < |g.db.sessions| ==> g.db.sessions[i].refreshTokenId == db.sessions[i].refreshTokenId;
    assert TokenIdsUnique(g.db.sessions);
    LogoutRevokes(g.db, sid, t2, header, j, t3);
  }
}
